=== FILE: README.md ===
# ARPS normalise-and-encode pipeline, in Dafny

ARPS (App Rating Prediction System) gathers app listings from Google Play,
the Apple App Store and the Amazon Appstore. It normalises them into one
table, encodes that table for a regressor, and predicts an app's rating.
This project models the deterministic core of that pipeline and proves
what it promises:

- the scraped-field parsers and detail extractors of the three store
  wrappers (`PlatformApis`);
- their review readers, which use a browser session that is always quit
  (`PlatformReviews`);
- the per-store collectors, which take a capped, filtered batch of ids
  (`Collector`);
- `DataPreprocessor`: the cleaners, per-store tagging, concatenation,
  median/mode gap filling and the one-hot training encoding
  (`Preprocessor`);
- the inference encoder against the frozen 14-column layout, plus the
  rounding and clamping of the predicted rating (`Predict`);
- the review-text normaliser `clean_text` (`TextProcessing`);
- the single-model `RatingPredictor`: model-type dispatch, column
  reconciliation, training paths and guards (`RatingModel`);
- the two-model `ModelTrainer`: training loop, importance pairing,
  ranking and the name guard (`Trainer`).

The remaining modules model the Python and pandas behaviour the code
relies on:

- `PyStr`: `lower`, `strip`, `replace`, `split`, `float()`, `int()`, `str()`
  and slicing;
- `PyDict`: dicts as insertion-ordered association lists;
- `Ordering`: string order and the sorted distinct categories of
  `get_dummies`;
- `Stats`: `median` and `mode()[0]`;
- `Ranking`: the stable descending `sorted`;
- `Wrappers`: `Option` and a `Result` that carries the Python exception.

The model makes these choices:

- A pandas NaN is `None`.
- Numbers are reals or unbounded integers.
- Library calls (sklearn fitting, searching, scoring and predicting) and
  the environment (HTTP pages, the browser, CSV files, the filesystem,
  environment variables) are function parameters. Their results are
  supplied as values.
- Objects whose fields the Python code updates are Dafny classes:
  `DataPreprocessor`, `AppRatingPredictor`, `RatingPredictor`,
  `ModelTrainer`, the store collector, the browser and a data frame.
  Their methods are proved against specification functions.

The central invariant ties training to inference.
`Predict.TrainingColumnsAreFeatures` proves the column half. Whenever the
combined table holds exactly the eight app types and the three stores, the
columns `get_dummies` produces are the frozen feature list of `predict.py`,
in the same order. `Predict.TrainingRowMatchesInference` proves the row
half. For each row of such a table, the output of `get_training_data` holds
the cells the inference encoder produces for the same values.

## Model

| member | source | states |
|---|---|---|
| PyStr.Lower | src/utils/text_processing.py:22 | `str.lower` on ASCII keeps the length and maps each upper-case letter to its lower-case letter, every other character unchanged |
| PyStr.LowerIdempotent | src/utils/text_processing.py:22 | lower-casing a lower-cased text changes nothing |
| PyStr.Filter | src/data/platform_apis.py:138 | the kept characters satisfy the predicate and come from the text, no more of them than the text has |
| PyStr.FilterMembers | src/data/platform_apis.py:138 | a character is kept exactly when it occurs in the text and satisfies the predicate |
| PyStr.FilterAppend | src/data/platform_apis.py:138 | filtering a concatenation concatenates the filtered parts, so the kept characters stay in text order |
| PyStr.Strip | src/data/platform_apis.py:99 | `strip()` leaves no whitespace at either end and is no longer than the text |
| PyStr.StripIsSlice | src/data/platform_apis.py:99 | `strip()` is a contiguous slice of the text, and every character of the text before and after that slice is whitespace |
| PyStr.StripKeepsDigits | src/data/platform_apis.py:114 | `strip()` drops no digit: the digits of the stripped text are the digits of the text, in order |
| PyStr.ContainsAt | src/data/platform_apis.py:139 | `sub in s` holds exactly when `sub` is the slice of `s` at some position |
| PyStr.StripKeepsContains | src/data/platform_apis.py:139 | for a pattern that neither starts nor ends with whitespace, `sub in s.strip()` holds exactly when `sub in s` |
| PyStr.StripNoEdgeSpace | src/data/platform_apis.py:99 | a text without edge whitespace is its own strip |
| PyStr.RemoveCharIsFilter | src/data/preprocessor.py:52 | `replace(c, '')` keeps exactly the other characters, in order |
| PyStr.RemoveAllKeeps | src/data/preprocessor.py:41 | a character that is not part of the removed pattern survives `replace(pat, '')` |
| PyStr.ContainsChar | src/data/platform_apis.py:149 | the substring test for a one-character pattern is membership |
| PyStr.SplitHead | src/data/preprocessor.py:64 | `s.split(c)[0]` is the prefix of `s` before its first `c` |
| PyStr.SplitHeadAt | src/data/preprocessor.py:64 | the head of `a + c + b`, for `a` without `c`, is `a` |
| PyStr.ParseFloatRejectsStray | src/data/preprocessor.py:51-54 | the decimal-literal model of `float()` raises on a text holding a letter or any other character foreign to a decimal literal (the real `float()` also accepts `inf`, `nan` and exponents) |
| PyStr.ParseFloatOfDigits | src/data/platform_apis.py:138 | `float()` of a digit string is its decimal value; `float('')` raises |
| PyStr.DollarsRemoved | src/data/preprocessor.py:52 | removing `$` from `"$<digits>.<digits>"` leaves the decimal literal |
| PyStr.ParseFloatOfDecimal | src/data/platform_apis.py:325 | `float()` of `"<digits>.<digits>"` is that decimal number, the fraction possibly empty as in `"4."` |
| PyStr.NatToString | src/data/platform_apis.py:180 | `str(n)` is a non-empty digit string whose value is `n` |
| PyStr.IntRoundTrip | src/data/collector.py:18 | `int(str(i)) == i` for every integer |
| PyStr.PlainDigits | src/data/collector.py:18 | `int()` of a digit run is its value |
| PyStr.NegativeDigits | src/data/collector.py:18 | `int()` of a minus sign before a digit run is the negated value |
| PyStr.PrefixSlice | src/data/collector.py:63 | `s[:n]` is a prefix of length `min(n, len(s))`, or `len(s) + n` clamped at 0 for negative `n` |
| Ordering.StrLeTotal | src/data/preprocessor.py:154 | any two strings are ordered one way or the other |
| Ordering.StrLeAntisymmetric | src/data/preprocessor.py:154 | strings ordered both ways are equal |
| Ordering.StrLeTransitive | src/data/preprocessor.py:154 | string order is transitive |
| Ordering.InsertSorted | src/data/preprocessor.py:154 | inserting into a strictly increasing list keeps it strictly increasing and adds exactly the new value |
| Ordering.SortedDistinct | src/data/preprocessor.py:154 | the categories `get_dummies` uses are strictly increasing and are exactly the values of the column |
| Ordering.IncreasingUnique | src/data/preprocessor.py:154 | two strictly increasing lists with the same elements are equal |
| Ordering.SortedDistinctOfIncreasing | src/data/preprocessor.py:154 | a strictly increasing list is its own category list |
| Stats.SortReals | src/data/preprocessor.py:117 | the sort behind `median()` is ascending and a permutation of its input |
| Stats.MedianWithinRange | src/data/preprocessor.py:117 | the median lies between the least and the greatest present value |
| Stats.AscendingUnique | src/data/preprocessor.py:117 | two ascending lists with the same elements are equal |
| Stats.MedianOrderIndependent | src/data/preprocessor.py:117 | the median does not depend on the order of the rows |
| Stats.Mode | src/data/preprocessor.py:122 | `mode()[0]` is a value of the column; no value is more frequent; it is the smallest among equally frequent values |
| Stats.ModeUnique | src/data/preprocessor.py:122 | those three properties determine the mode |
| PyDict.Get | src/predict.py:71 | a lookup finds a value exactly when the key is present, and the value is stored under it |
| PyDict.Put | src/predict.py:63-65 | assignment keeps an existing key in place and appends a new one at the end |
| PyDict.GetPut | src/predict.py:63-65 | reading back an assignment gives the new value under its key and the old value elsewhere |
| PyDict.PutDistinct | src/models/model_trainer.py:72 | assignment keeps the keys distinct |
| PyDict.GetAt | src/models/model_trainer.py:115-119 | with distinct keys, the value found under the key of entry `i` is the value of entry `i` |
| PyDict.PutNew | src/models/rating_predictor.py:48 | assigning an absent key appends the pair |
| PyDict.PutAllDistinct | src/models/model_trainer.py:76-79 | building a dict from pairs keeps its keys distinct |
| PyDict.GetPutAllAt | src/models/model_trainer.py:72 | after assigning pairs with distinct keys, each key holds its own value |
| PyDict.GetPutAllOther | src/models/model_trainer.py:72 | assigning pairs leaves every key they do not name as it was |
| PyDict.FromKeys | src/predict.py:59 | `{k: v for k in keys}` has exactly the given keys, in order, each holding `v` |
| PyDict.GetFromKeys | src/predict.py:59 | every key of the comprehension reads back as `v` |
| PyDict.FromDistinctPairs | src/models/model_trainer.py:115-119 | `dict(pairs)` of pairs with distinct keys holds exactly those pairs in that order |
| Ranking.InsertDescPermutes | src/models/model_trainer.py:115-119 | inserting one pair adds exactly that pair |
| Ranking.SortDescPermutes | src/models/model_trainer.py:115-119 | the descending sort neither loses nor invents a (feature, score) pair |
| Ranking.InsertDescOrdered | src/models/model_trainer.py:115-119 | inserting into a non-increasing list keeps it non-increasing |
| Ranking.SortDescOrdered | src/models/model_trainer.py:115-119 | scores come out highest first |
| Ranking.InsertDescStable | src/models/model_trainer.py:115-119 | insertion places the new pair before every pair of the same score |
| Ranking.SortDescStable | src/models/model_trainer.py:115-119 | for every score, the pairs of that score keep their original relative order (`sorted` is stable with `reverse=True`) |
| Ranking.SortDescDistinct | src/models/model_trainer.py:115-119 | sorting keeps the feature names distinct |
| TextProcessing.TakeWord | src/utils/text_processing.py:28 | the leading word is the longest whitespace-free prefix |
| TextProcessing.Words | src/utils/text_processing.py:28 | `split()` yields non-empty words without whitespace |
| TextProcessing.WordsNoUpper | src/utils/text_processing.py:28 | words of a text without upper-case letters have none either |
| TextProcessing.JoinNormal | src/utils/text_processing.py:28 | joining non-empty lower-case words with single spaces gives normal text |
| TextProcessing.CleanTextNormal | src/utils/text_processing.py:16-30 | the output is only lower-case ASCII letters and spaces, with no edge space and no two spaces in a row; a non-string gives `""` |
| TextProcessing.FilterLettersOfKept | src/utils/text_processing.py:25 | after the regex, the non-space characters are exactly the letters of the input, in order |
| TextProcessing.WordsKeepNonSpace | src/utils/text_processing.py:28 | split and join keep every non-space character, in order |
| TextProcessing.CleanTextKeepsLetters | src/utils/text_processing.py:22-28 | the non-space characters of the output are the lower-cased letters of the input, in order |
| TextProcessing.CleanTextDont | src/utils/text_processing.py:25 | `"Don't"` becomes `"dont"`: punctuation is deleted without inserting a space |
| TextProcessing.JoinWordsOfNormal | src/utils/text_processing.py:28 | split-then-join is the identity on normal text |
| TextProcessing.LowerOfNormal | src/utils/text_processing.py:22 | lower-casing normal text changes nothing |
| TextProcessing.KeepOfNormal | src/utils/text_processing.py:25 | the regex changes nothing in text of lower-case letters and spaces |
| TextProcessing.CleanTextIdempotent | src/utils/text_processing.py:16-30 | `clean_text(clean_text(t)) == clean_text(t)` |
| PlatformApis.DigitsOf | src/data/platform_apis.py:138 | `''.join(filter(str.isdigit, text))` is all digits |
| PlatformApis.DigitsOfMembers | src/data/platform_apis.py:138 | the digits kept are exactly the digits occurring in the text (their order is that of `PyStr.FilterAppend`) |
| PlatformApis.ParseSizeValue | src/data/platform_apis.py:135-143 | the size is the number formed by every digit in order (point and unit dropped), times 1024 exactly when "GB" occurs, and 0 without digits |
| PlatformApis.ParseSizeOneAndHalfGb | src/data/platform_apis.py:135-143 | `"1.5 GB"` gives 15360 |
| PlatformApis.ParseDownloadsValue | src/data/platform_apis.py:145-155 | the count is the digits' value, times a million when "M" occurs, else a thousand when "K" occurs; 0 without digits |
| PlatformApis.ParseDownloadsMBeforeK | src/data/platform_apis.py:149-152 | a text with both "M" and "K" is scaled by a million only |
| PlatformApis.ParseDownloadsNoBillions | src/data/platform_apis.py:145-155 | a "B" suffix scales nothing |
| PlatformApis.ExtractText | src/data/platform_apis.py:96-99 | a missing element gives `''`; otherwise the result is a slice of the element's text with only whitespace around it and none at its ends |
| PlatformApis.CountOf | src/data/platform_apis.py:109 | `int(text.replace(',', ''))`: the count exactly when `int()` accepts the text without commas, ValueError otherwise |
| PlatformApis.ExtractReviewsCount | src/data/platform_apis.py:106-109 | a missing element gives 0; a missing `content` attribute raises KeyError; a present content gives `CountOf` of it, its value or its ValueError |
| PlatformApis.CountIgnoresCommas | src/data/platform_apis.py:109 | commas do not change a parsed review count |
| PlatformApis.CountOfPrinted | src/data/platform_apis.py:109 | a printed count reads back as itself |
| PlatformApis.ExtractRating | src/data/platform_apis.py:101-104 | a missing element gives 0.0; a missing `content` attribute raises KeyError; a present content gives exactly what `float()` gives, and ValueError when `float()` rejects it |
| PlatformApis.ExtractRatingDecimal | src/data/platform_apis.py:104 | a rating content `"<digits>.<digits>"` is read as that decimal number |
| PlatformApis.ExtractSize | src/data/platform_apis.py:111-117 | no label gives 0; a label without a next element raises AttributeError; otherwise the result is `_parse_size` of the next element's text, padded or not, and never negative |
| PlatformApis.StripKeepsParseSize | src/data/platform_apis.py:114-115 | stripping the text first changes no size: neither the digits nor the "GB" test |
| PlatformApis.GooglePrice | src/data/platform_apis.py:119-125 | a missing element and the content "Free" give 0.0; a missing attribute raises KeyError; any other content gives exactly `float()` of it without `$`, and ValueError when `float()` rejects it |
| PlatformApis.GooglePriceDollars | src/data/platform_apis.py:124 | `"$<digits>"` is read as that many dollars |
| PlatformApis.GooglePriceDecimal | src/data/platform_apis.py:124 | `"$<digits>.<digits>"`, such as "$4.99", is read as that many dollars |
| PlatformApis.ExtractDownloads | src/data/platform_apis.py:127-133 | no label gives 0; a label without a next element raises AttributeError; otherwise the result is `_parse_downloads` of the next element's text, padded or not, and never negative |
| PlatformApis.StripKeepsParseDownloads | src/data/platform_apis.py:130-131 | stripping the text first changes no count: neither the digits nor the "M" and "K" tests |
| PlatformApis.GoogleDetails | src/data/platform_apis.py:24-50 | a record comes back exactly when the page loaded and every extractor succeeded; it carries the app id, the stripped title and genre, and the rating, review count, size, price and downloads the extractors give; size and downloads are never negative |
| PlatformApis.AppleDetails | src/data/platform_apis.py:164-196 | a record comes back exactly when the request succeeded, `resultCount` is above 0, `results` is a non-empty list and its first entry has `trackId`, `trackName`, `primaryGenreName`, a numeric `fileSizeBytes` and `price`; the record carries that entry's name, genre and price, its rating and review count or 0 when absent, its size in MB times 1048576 equal to `fileSizeBytes`, and 0 downloads |
| PlatformApis.AppleRecordOfFirst | src/data/platform_apis.py:177-180 | the record's id reads back through `int()` as the first result's `trackId` |
| PlatformApis.AmazonCategory | src/data/platform_apis.py:312-318 | the stripped text of the last breadcrumb link, or `''` without container or links |
| PlatformApis.AmazonRating | src/data/platform_apis.py:320-326 | a missing element gives 0.0; otherwise the result is exactly `float()` of the text before the first space, and ValueError when `float()` rejects it |
| PlatformApis.AmazonRatingFirstWord | src/data/platform_apis.py:324-325 | `"<digits>.<digits> <anything>"`, such as "4.5 out of 5 stars", is read as the decimal before the space |
| PlatformApis.AmazonReviewsCount | src/data/platform_apis.py:328-333 | a missing element gives 0; a present one gives `CountOf` of its text, its value or its ValueError |
| PlatformApis.AmazonPrice | src/data/platform_apis.py:343-346 | a missing element gives 0.0; otherwise the result is exactly `float()` of the text without `$`, and ValueError when `float()` rejects it |
| PlatformApis.AmazonPriceDollars | src/data/platform_apis.py:346 | `"$<digits>.<digits>"`, `"$4."` included, is read as that many dollars |
| PlatformApis.AmazonDetails | src/data/platform_apis.py:243-268 | a record comes back exactly when the page loaded and every extractor succeeded; it has the app id, the stripped title, the breadcrumb category, the rating, review count, size and price the extractors give, and 0 downloads |
| PlatformReviews.ReadStarElement | src/data/platform_apis.py:216-222 | an element reads exactly when its body and date exist; the rating is its number of star elements |
| PlatformReviews.AmazonRatingIsWholeStars | src/data/platform_apis.py:291-292 | a star text `"<d>.<rest>"` is read as the whole number `d` |
| PlatformReviews.ReadAll | src/data/platform_apis.py:216-222 | the list reads exactly when every element reads, and then holds each element's review in order |
| PlatformReviews.ReadEach | src/data/platform_apis.py:288-295 | the element loop returns what `ReadAll` specifies |
| PlatformReviews.Browser.Launch | src/data/platform_apis.py:58-60 | a launched session is open and has served no snapshot |
| PlatformReviews.Browser.WaitForReviews | src/data/platform_apis.py:63-65 | the wait succeeds exactly when the page loads its reviews |
| PlatformReviews.Browser.FindElements | src/data/platform_apis.py:73 | each call returns the next snapshot of the page |
| PlatformReviews.Browser.Quit | src/data/platform_apis.py:92-94 | quitting closes the session |
| PlatformReviews.GoogleReviewsOf | src/data/platform_apis.py:52-94 | `[]` when Chrome does not start or the reviews never appear; at most `limit` reviews, and none when `limit <= 0` |
| PlatformReviews.Scroll | src/data/platform_apis.py:69-84 | a scroll that succeeds ends with at least `limit` reviews and starts with those gathered before it |
| PlatformReviews.ScrollSkip | src/data/platform_apis.py:69-84 | while it stays short of `limit`, the loop reads the snapshots in order and carries every review of them |
| PlatformReviews.ScrollGathers | src/data/platform_apis.py:69-84 | a scroll that succeeds returns exactly the reviews of the snapshots read up to the first count that reaches `limit` |
| PlatformReviews.GoogleOnlyGathered | src/data/platform_apis.py:52-94 | a non-empty Google result is the first `limit` reviews of the snapshots read up to the first count that reaches `limit` |
| PlatformReviews.GoogleGathered | src/data/platform_apis.py:52-94 | once the first `k` snapshots reach `limit`, the result is the first `limit` of their reviews, in reading order |
| PlatformReviews.GoogleReadFailure | src/data/platform_apis.py:74-90 | an unreadable element in any snapshot read before `limit` is reached gives `[]` |
| PlatformReviews.GoogleRunsOut | src/data/platform_apis.py:69-90 | a page that stops yielding snapshots before `limit` is reached gives `[]` |
| PlatformReviews.GoogleReviews | src/data/platform_apis.py:52-94 | the scrolling loop returns `GoogleReviewsOf`; a driver exists exactly when Chrome started, and it is quit |
| PlatformReviews.GoogleFirstSnapshotSuffices | src/data/platform_apis.py:69-86 | when the first snapshot already has enough reviews, the result is its first `limit` reviews |
| PlatformReviews.GoogleRepeatsSnapshot | src/data/platform_apis.py:69-86 | a second snapshot of the same elements appends them again, so duplicates are returned |
| PlatformReviews.GoogleUnreadableElement | src/data/platform_apis.py:88-90 | an unreadable element in the first snapshot gives `[]` |
| PlatformReviews.ListedReviewsOf | src/data/platform_apis.py:198-232 | `[]` when Chrome does not start, the reviews never appear or there is no snapshot; at most `limit` reviews |
| PlatformReviews.ListedReviews | src/data/platform_apis.py:270-305 | the element loop returns `ListedReviewsOf`; a driver exists exactly when Chrome started, and it is quit |
| PlatformReviews.ListedReviewsAreFirstElements | src/data/platform_apis.py:214-224 | when each of the elements in `[:limit]` reads, the result is the review of each of them, in page order |
| PlatformReviews.ListedUnreadableElement | src/data/platform_apis.py:216-228 | an unreadable element among those in `[:limit]` gives `[]` |
| Collector.SampleIds | src/data/collector.py:54-60 | each collector has five sample ids |
| Collector.MaxAppsSetting | src/data/collector.py:18 | `max_apps` is 1000 when the variable is unset |
| Collector.MaxAppsOfPrinted | src/data/collector.py:18 | a configured number is taken as written |
| Collector.Collected | src/data/collector.py:62-69 | no more records than ids |
| Collector.CollectedAppend | src/data/collector.py:63-67 | collecting two id lists one after the other collects their concatenation: id order is kept |
| Collector.CollectedSkipsFailure | src/data/collector.py:64-69 | an id whose fetch raises or returns None is skipped and the later ids are still collected |
| Collector.CollectedAllFound | src/data/collector.py:62-67 | when every fetch returns a record, record `i` is the one of id `i` |
| Collector.CollectedSameFetch | src/data/collector.py:62-67 | the records depend only on what the fetch returns for the listed ids |
| Collector.CollectedIgnoresLaterIds | src/data/collector.py:63 | only the first `max_apps` ids are fetched |
| Collector.CollectedBound | src/data/collector.py:63-67 | at most `max_apps` records (when it is not negative) and at most five |
| Collector.StoreCollector.constructor | src/data/collector.py:17-20 | the collector keeps its store, its `max_apps` and its `data/<class>` directory, and has written nothing |
| Collector.StoreCollector.SaveData | src/data/collector.py:32-42 | a writable file records the frame under `data_dir/filename` and returns it; otherwise an empty frame and nothing written |
| Collector.StoreCollector.CollectAppData | src/data/collector.py:49-71 | the frame of `Collected` over the first `max_apps` sample ids, saved to `apps.csv`, or the empty frame when saving fails |
| Collector.StoreCollector.CollectReviews | src/data/collector.py:73-82 | the fetched reviews saved to `reviews_<id>.csv`; an empty frame when fetching raised or saving failed |
| Preprocessor.CleanAppSizeMb | src/data/preprocessor.py:38-43 | `"<digits> MB"` is read as that many megabytes |
| Preprocessor.CleanAppSizeOtherUnit | src/data/preprocessor.py:38-43 | a `"GB"` size becomes NaN, not a converted value |
| Preprocessor.CleanAppPrice | src/data/preprocessor.py:45-54 | exactly "Free" and "Free with In-App Purchases" give 0.0; any other text gives `float()` of it without `$`, NaN when `float()` rejects it |
| Preprocessor.CleanAppPriceOnlyExactFree | src/data/preprocessor.py:45-54 | with `float()` read as decimal literals only, any other wording holding a letter or other stray character is NaN |
| Preprocessor.CleanAppPriceDollars | src/data/preprocessor.py:51-52 | `"$<digits>"` is read as that many dollars |
| Preprocessor.CleanAppPriceDecimal | src/data/preprocessor.py:51-52 | `"$<digits>.<digits>"`, such as "$4.99", is read as that many dollars |
| Preprocessor.TruncZero | src/data/preprocessor.py:67-68 | `int()` truncates toward zero |
| Preprocessor.SuffixMultiplier | src/data/preprocessor.py:59-67 | the multiplier is the one of the suffix letter K, M or B |
| Preprocessor.CleanDownloadsSuffix | src/data/preprocessor.py:56-70 | `"<digits><K/M/B>+"` is the digits times 1000, 1000000 or 1000000000 |
| Preprocessor.CleanDownloadsRejectsStray | src/data/preprocessor.py:64-70 | with `float()` read as decimal literals only, a count without a unit that holds a stray character gives 0 (the real `float()` would read `1e3` as 1000) |
| Preprocessor.ThousandsSeparated | src/data/preprocessor.py:56-70 | `"1,000,000+"` gives 0 |
| Preprocessor.LowerCell | src/data/preprocessor.py:87 | `str.lower()` keeps NaN and the length of a text, and its result is in lower case |
| Preprocessor.ProcessStore | src/data/preprocessor.py:80-101 | one row per raw row, in order: tagged with its store, name, version and rating as read, app type NaN exactly when it was and otherwise lower-cased, size, price and downloads cleaned |
| Preprocessor.LowerFailsAt | src/data/preprocessor.py:87 | the AttributeError condition holds exactly when some loaded table has rows and no text in its App Type column |
| Preprocessor.ProcessTables | src/data/preprocessor.py:78-101 | the loop over the stores gives the processed table of each store that loaded, in store order, or AttributeError when some loaded table's App Type is not text |
| Preprocessor.CombinedRowCount | src/data/preprocessor.py:79-104 | the combined table has one row per row of every store that loaded |
| Preprocessor.ConcatOfSurviving | src/data/preprocessor.py:79-104 | each loaded store contributes its processed rows after those of the earlier stores; a store that failed contributes none |
| Preprocessor.LoadFilesStep | src/data/preprocessor.py:29-36 | loading one more file puts its table, or None when reading fails, under its store |
| Preprocessor.LoadThreeFromEmpty | src/data/preprocessor.py:29-36 | loading three distinct stores into an empty mapping lists them in file order |
| Preprocessor.LoadedFromEmpty | src/data/preprocessor.py:21-36 | loading fills the stores google_play, apple and amazon in that order |
| Preprocessor.CombinedInStoreOrder | src/data/preprocessor.py:72-104 | from nothing loaded, the combined table is the google_play rows, then apple, then amazon |
| Preprocessor.Present | src/data/preprocessor.py:117 | the non-NaN values are exactly the present cells |
| Preprocessor.ColumnMedian | src/data/preprocessor.py:117 | the median is NaN exactly when the column has no value |
| Preprocessor.ColumnMedianWithinRange | src/data/preprocessor.py:117 | the fill value lies between the least and greatest value of the whole column, across stores |
| Preprocessor.ColumnMode | src/data/preprocessor.py:122 | the mode is missing (and `mode()[0]` raises) exactly when the column has no value |
| Preprocessor.ColumnModeIsMostFrequent | src/data/preprocessor.py:122 | the fill value is one of the column's values and none is more frequent |
| Preprocessor.FillNumCellFields | src/data/preprocessor.py:117 | filling changes a numeric cell only when it was NaN, and no other field |
| Preprocessor.FillCatCellFields | src/data/preprocessor.py:122 | filling changes a categorical cell only when it was NaN, and no other field |
| Preprocessor.FillDownloadsNoOp | src/data/preprocessor.py:115-117 | filling downloads changes nothing: the cleaner never yields NaN |
| Preprocessor.NumericStage | src/data/preprocessor.py:115-117 | NaN sizes and prices get the column median; every other cell is kept |
| Preprocessor.CategoricalStage | src/data/preprocessor.py:120-122 | NaN app types and versions get the column mode; a column with no value raises and stops the loop |
| Preprocessor.HandleMissingValuesFills | src/data/preprocessor.py:112-124 | present values are unchanged; NaNs get the median or mode of the whole combined column; the fill fails exactly when a categorical column has no value; name, rating and store are kept |
| Preprocessor.FailedFillStays | src/data/preprocessor.py:121-122 | once a fill raised, later columns are not filled |
| Preprocessor.DummyColumnsLayout | src/data/preprocessor.py:154 | X's columns are the three numbers, then `app_type_` per sorted distinct app type, then `store_` per sorted distinct store |
| Preprocessor.Indicator | src/data/preprocessor.py:154 | a dummy is 1.0 exactly under the value's own category; NaN sets none |
| Preprocessor.IndicatorOnes | src/data/preprocessor.py:154 | over distinct categories, exactly one dummy is set when the value is one of them, none otherwise |
| Preprocessor.Encode | src/data/preprocessor.py:154-155 | X and y have one row per row of the combined table, and y is the user rating of each row, in order |
| Preprocessor.EncodeAt | src/data/preprocessor.py:154-155 | row `i` of X encodes row `i` against the table's own categories, which contain its app type and store |
| Preprocessor.TypeDummies | src/data/preprocessor.py:154 | exactly one app type dummy is set when the row has an app type, the one named after it, and none when it is NaN |
| Preprocessor.StoreDummies | src/data/preprocessor.py:154 | exactly one store dummy is set, the one named after the row's store, in the columns after the app types |
| Preprocessor.DataPreprocessor.constructor | src/data/preprocessor.py:15-19 | nothing loaded and no combined table |
| Preprocessor.DataPreprocessor.LoadData | src/data/preprocessor.py:21-36 | every store file is read in turn; one that fails is recorded as None and does not stop the others |
| Preprocessor.DataPreprocessor.HandleMissingValues | src/data/preprocessor.py:112-124 | the combined table becomes the filled table in place, and a failing mode is reported after the earlier fills |
| Preprocessor.DataPreprocessor.PreprocessData | src/data/preprocessor.py:72-110 | loads only when nothing is loaded; a loaded table with rows and no text app type makes `str.lower()` raise AttributeError and the table is kept; with no loaded store `concat` raises ValueError and the table is kept; otherwise the table becomes the filled concatenation, and a fill whose mode is missing raises KeyError |
| Preprocessor.DataPreprocessor.GetTrainingData | src/data/preprocessor.py:142-157 | preprocesses only when there is no combined table, passing on its AttributeError, ValueError or KeyError, then returns the encoding of the table |
| Predict.FeaturesAsWritten | src/predict.py:35-42 | the frozen feature list is the 14 names in the listed order |
| Predict.AppTypesIncreasing | src/predict.py:45-48 | the app types are listed in strictly increasing order |
| Predict.StoresIncreasing | src/predict.py:51 | the stores are listed in strictly increasing order |
| Predict.TrainingColumnsAreFeatures | src/predict.py:34-51 | when the training table holds exactly these app types and stores, the `get_dummies` columns are the frozen feature list |
| Predict.TrainingRowMatchesInference | src/predict.py:53-91 | when the combined table holds exactly the known app types and stores, `get_training_data` lays out the feature columns, and each of its rows with a size, a price and an app type holds the cells inference produces for the same values |
| Predict.FloatField | src/predict.py:63-65 | a missing key raises KeyError; a number reads as itself; a text reads as its `float()` value, and ValueError when `float()` rejects it |
| Predict.LowerField | src/predict.py:69 | a missing key raises KeyError; a number has no `lower()` and raises AttributeError; a text reads as its lower-cased form |
| Predict.ReadInputs | src/predict.py:63-78 | the inputs read exactly when all five fields are present and convert |
| Predict.TypeWarnings | src/predict.py:74-75 | no warning exactly for a known app type; otherwise the one warning naming it |
| Predict.StoreWarnings | src/predict.py:83-84 | no warning exactly for a known store; otherwise the one warning naming it |
| Predict.EncodedGroups | src/predict.py:59-84 | the row has the 14 columns; its numbers are the converted inputs; one app type dummy is set iff the type is known, none otherwise; the same for the store |
| Predict.EncodedIndicators | src/predict.py:69-84 | each indicator is 0 or 1, and 1 exactly under the column named after the app type or store |
| Predict.Project | src/predict.py:87 | the row holds the dict's value of each listed column, in order |
| Predict.TypeKeyKnown | src/predict.py:70-71 | `app_type_<t>` is a feature exactly when `t` is a known app type |
| Predict.StoreKeyKnown | src/predict.py:79-80 | `store_<s>` is a feature exactly when `s` is a known store |
| Predict.CreatedFromInputs | src/predict.py:53-91 | once every field converts, the feature row is the encoding of the inputs, with one warning per unknown value |
| Predict.ErrorsInFieldOrder | src/predict.py:93-95 | fields are read in order; the first missing one raises its exception, and only an app type read before the failure is warned about |
| Predict.SetIndicator | src/predict.py:71-72 | the indicator is set exactly when its column is a feature |
| Predict.AppRatingPredictor.constructor | src/predict.py:34-51 | the predictor holds the loaded model and the frozen feature list |
| Predict.AppRatingPredictor.CreateFeatures | src/predict.py:53-95 | the zeros dict followed by the step-by-step assignments returns `CreatedFeatures` and logs `Warnings` |
| Predict.AppRatingPredictor.PredictRating | src/predict.py:97-119 | the model output for the encoded row, rounded and clamped; an encoding error is re-raised |
| Predict.RoundHalfEven | src/predict.py:111 | `round` gives the nearest integer, strictly within half a unit when the value is no tie, and the even neighbour on a tie |
| Predict.Round2 | src/predict.py:111 | `round(x, 2)` is a whole number of hundredths within 0.005 of x |
| Predict.PredictedRatingOnScale | src/predict.py:111-112 | every prediction is in [1.0, 5.0], and is the rounded output whenever that is already on the scale |
| Predict.Round2OfHundredths | src/predict.py:111 | a value with two decimals is kept by `round(x, 2)` |
| Predict.MissingFieldRaises | src/predict.py:117-119 | a missing `app_size_mb` makes `predict_rating` raise KeyError |
| RatingModel.Configure | src/models/rating_predictor.py:20-34 | "rf" gives a forest of 100 trees with seed 42 and a 36-point grid; "linear" gives a linear regression and an empty grid; anything else raises ValueError |
| RatingModel.ReconciledKeys | src/models/rating_predictor.py:45-48 | added columns come after the existing ones, in warning order |
| RatingModel.WarnedExactly | src/models/rating_predictor.py:45-47 | a column is warned about exactly when it is required and absent |
| RatingModel.ReconciledGet | src/models/rating_predictor.py:45-48 | existing columns keep their cells; required absent columns hold zeros; nothing else appears |
| RatingModel.PutRectangular | src/models/rating_predictor.py:48 | adding a full column keeps the frame rectangular |
| RatingModel.Select | src/models/rating_predictor.py:50 | `df[cols]` has exactly the listed columns, in order |
| RatingModel.PreparedColumns | src/models/rating_predictor.py:39-50 | the result has exactly the 8 training columns, in order, one cell per row; a present column as it was and an absent one as zeros |
| RatingModel.TrainedModel | src/models/rating_predictor.py:59-76 | training succeeds exactly when there is a model |
| RatingModel.LinearNeverSearches | src/models/rating_predictor.py:59-76 | a linear predictor always takes the plain fit |
| RatingModel.ForestSearchesWhenOptimizing | src/models/rating_predictor.py:59-76 | a forest predictor searches its grid exactly when asked to optimise |
| RatingModel.ImportanceTable | src/models/rating_predictor.py:79-83 | the importance table is X's columns paired with the importances, highest first; a missing attribute raises AttributeError and a length mismatch raises ValueError |
| RatingModel.RatingPredictor.constructor | src/models/rating_predictor.py:14-34 | the predictor holds its type, grid and model, and no importance table |
| RatingModel.RatingPredictor.Create | src/models/rating_predictor.py:14-34 | construction fails with ValueError exactly when the model type is unsupported; otherwise the fields follow `Configure` |
| RatingModel.RatingPredictor.PrepareFeatures | src/models/rating_predictor.py:36-50 | the caller's frame gains the missing columns in place (row count kept); the warnings and the returned columns follow `Reconciled`, `Warned` and `Select` |
| RatingModel.RatingPredictor.AddMissing | src/models/rating_predictor.py:45-48 | the loop adds exactly the missing columns, warning about each |
| RatingModel.RatingPredictor.Train | src/models/rating_predictor.py:52-92 | the model becomes the trained one; a forest records a permutation of its importance pairs, highest first; a linear model leaves the table alone |
| RatingModel.RatingPredictor.Predict | src/models/rating_predictor.py:94-99 | with no model, ValueError; otherwise the model's predictions |
| RatingModel.RatingPredictor.GetFeatureImportance | src/models/rating_predictor.py:106-111 | the table, or None before a forest is trained |
| RatingModel.RatingPredictor.SaveModel | src/models/rating_predictor.py:113-119 | with no model, ValueError; otherwise the model dumped to the path |
| RatingModel.RatingPredictor.LoadModel | src/models/rating_predictor.py:121-125 | the loaded object becomes the model |
| Trainer.TrainStep | src/models/model_trainer.py:47-82 | one more candidate updates the models, results, files and importances as one loop turn does |
| Trainer.CandidatesShape | src/models/model_trainer.py:34-42 | the candidates have distinct names, the forest first |
| Trainer.TrainedUnderNames | src/models/model_trainer.py:72 | after training, each model is stored under its name with its configuration; every other name is unchanged |
| Trainer.ImportanceOfForest | src/models/model_trainer.py:75-79 | the importance dict is the forest's: `dict(zip(X.columns, importances))` |
| Trainer.ImportancePairs | src/models/model_trainer.py:76-79 | with distinct columns and one importance each, entry `i` is (column `i`, importance `i`) |
| Trainer.SortedImportance | src/models/model_trainer.py:115-119 | the ranking holds the same pairs, non-increasing, with equal scores in their original order and names distinct |
| Trainer.ModelTrainer.constructor | src/models/model_trainer.py:19-24 | no models, no importances, no files |
| Trainer.ModelTrainer.TrainModels | src/models/model_trainer.py:26-92 | models, importances, files and results after training follow `FittedAll`, `ImportanceAfter`, `SavedAll` and `EvaluatedAll` |
| Trainer.ModelTrainer.TrainEach | src/models/model_trainer.py:47-90 | the training loop over any candidate list meets the same specification |
| Trainer.ModelTrainer.GetFeatureImportance | src/models/model_trainer.py:109-121 | ValueError when no importance is recorded; otherwise the ranked importances |
| Trainer.ModelTrainer.Predict | src/models/model_trainer.py:123-128 | ValueError for an untrained name; otherwise that model's predictions |

## Left out

- HTTP requests, HTML parsing and Selenium waits are not modelled. A fetched page is the values its selectors find. The browser is a sequence of page snapshots with a ghost "open" flag.
- The endless-scroll case of the Google review loop is not modelled. When the page is out of snapshots, find_elements yields nothing and the loop stops. The real loop would scroll forever if fewer than `limit` reviews ever appear.
- `float()` is modelled only for plain decimal literals: an optional sign and digits with an optional fraction. Exponents, `inf`, `nan` and underscores are not covered.
- IEEE rounding of floating-point arithmetic is not modelled. Numbers are exact reals, so `fileSizeBytes / (1024*1024)` and `round(x, 2)` are exact.
- `str.lower` and `str.isdigit` cover ASCII only. `str.isspace` and the regex `\s` use Python's full whitespace set.
- NaN is `None`. In App Size, App Price and Downloads a numeric cell is `None` as well; this loses nothing, because the cleaners' `.replace` raises AttributeError on a number and they return NaN (size, price) or 0 (downloads), exactly as for NaN.
- App Name and App Version are modelled as text cells only. When every filled cell of such a column is a number, pandas reads the column as numbers and `preprocess_data` keeps those numbers. The model reads such a column as missing values instead, so it fills app_version with the mode of the other tables' versions (or raises KeyError when no version is left) where the source keeps the numbers.
- scikit-learn fitting, prediction, metrics, cross-validation and `GridSearchCV` are function parameters. `train_test_split` is not modelled.
- Exceptions raised by `fit` or the metrics are not modelled.
- Logging, CSV reading and writing, `joblib`, `os.makedirs`, `load_dotenv` and the environment variable lookup are not modelled; their outcomes are parameters.
- The model-file lookup with its hard-coded fallback path in `AppRatingPredictor.__init__` (src/predict.py:12-32) is not modelled. The constructor receives the loaded model.
- `AppRatingPredictor.app_types` and `stores` are module constants, not fields.
- The sample-app `main` of src/predict.py and the collector `main` are not modelled.
- `get_feature_stats`, `get_sentiment_score` and `extract_keywords` are not modelled. They rest on pandas `describe`/`value_counts` and NLTK.
- The web app, `train_model.py` and the orchestration scripts are not modelled.
- Frames are not modelled with duplicate column labels.
- `Series.str.lower` on a non-string cell gives NaN. A loaded table with rows and no text App Type raises AttributeError, as pandas reads such a column as numbers. The CSV files are assumed to have the columns `preprocess_data` reads.
- Trainer.ModelTrainer.Predict: the default argument `model_name='random_forest'` is not modelled; the caller always passes the name.
- RatingModel.RatingPredictor.Train: the recorded importance table is only promised to be a permutation of the pairs, highest first. It is not promised to equal the stable ranking, because pandas `sort_values` uses an unstable quicksort and may reorder ties.
- RatingModel.RatingPredictor.Train: the training and validation scores are the `score` parameter applied to the trained model; the split is not modelled.

=== FILE: collector.dfy ===
/** The per-store collectors (src/data/collector.py). The three subclasses
    differ only in their sample ids and directory, so one class carries the
    store as a field. Fetching is a function from an id to what
    get_app_details returned or raised; writing a CSV file either succeeds,
    recording the frame under its path, or fails. */
module Collector {
  import opened Wrappers
  import opened PyStr
  import opened PlatformApis
  import opened PlatformReviews

  datatype Platform = GooglePlay | AppleAppStore | AmazonAppStore

  /** The example ids each collector walks through. */
  function SampleIds(p: Platform): (ids: seq<string>)
    ensures |ids| == 5
  {
    match p
    case GooglePlay =>
      ["com.whatsapp", "com.facebook.katana", "com.instagram.android", "com.spotify.music", "com.netflix.mediaclient"]
    case AppleAppStore =>
      ["310633997", "284882215", "389801252", "324684580", "363590051"]
    case AmazonAppStore =>
      ["B00YVBFAZG", "B0094BB4TW", "B00387DT2A", "B004DTBKRO", "B005ZXWMUS"]
  }

  /** os.path.join('data', class name lower-cased) */
  function DataDir(p: Platform): string
  {
    match p
    case GooglePlay => "data/googleplaycollector"
    case AppleAppStore => "data/appleappstorecollector"
    case AmazonAppStore => "data/amazonappstorecollector"
  }

  /** int(os.getenv('MAX_APPS_PER_PLATFORM', 1000)); None is an unset
      variable. */
  function MaxAppsSetting(env: Option<string>): (r: Result<int>)
    ensures env.None? ==> r == Ok(1000)
  {
    match env
    case None => Ok(1000)
    case Some(text) =>
      match ParseInt(text)
      case None => Raised(ValueError)
      case Some(n) => Ok(n)
  }

  /** A configured number is taken as written. */
  lemma MaxAppsOfPrinted(n: int)
    ensures MaxAppsSetting(Some(IntToString(n))) == Ok(n)
  {
    IntRoundTrip(n);
  }

  /** A pandas frame built from a list of records; EmptyFrame is the
      pd.DataFrame() returned on failure. */
  datatype Frame = AppsFrame(apps: seq<AppRecord>) | ReviewsFrame(reviews: seq<RawReview>) | EmptyFrame

  /** The records the loop keeps for the given ids, in id order: those for
      which the fetch returned a record. A None result or an exception
      skips the id. */
  function Collected(ids: seq<string>, fetch: string -> Result<Option<AppRecord>>): (r: seq<AppRecord>)
    ensures |r| <= |ids|
  {
    if ids == [] then []
    else
      Collected(ids[..|ids| - 1], fetch) +
      match fetch(ids[|ids| - 1])
      case Ok(Some(record)) => [record]
      case _ => []
  }

  /** Collecting two lists of ids one after the other collects their
      concatenation: order is kept. */
  lemma {:induction false} CollectedAppend(a: seq<string>, b: seq<string>, fetch: string -> Result<Option<AppRecord>>)
    ensures Collected(a + b, fetch) == Collected(a, fetch) + Collected(b, fetch)
    decreases |b|
  {
    if b == [] {
      assert a + b == a;
    } else {
      assert (a + b)[..|a + b| - 1] == a + b[..|b| - 1];
      CollectedAppend(a, b[..|b| - 1], fetch);
    }
  }

  /** An id whose fetch raises or returns None is skipped and the ids
      after it are still collected. */
  lemma CollectedSkipsFailure(a: seq<string>, id: string, b: seq<string>, fetch: string -> Result<Option<AppRecord>>)
    requires !(fetch(id).Ok? && fetch(id).value.Some?)
    ensures Collected(a + [id] + b, fetch) == Collected(a + b, fetch)
  {
    CollectedAppend(a + [id], b, fetch);
    CollectedAppend(a, [id], fetch);
    CollectedAppend(a, b, fetch);
    assert [id][..0] == [];
  }

  /** When every fetch returns a record, there is one record per id. */
  lemma {:induction false} CollectedAllFound(ids: seq<string>, fetch: string -> Result<Option<AppRecord>>)
    requires forall i :: 0 <= i < |ids| ==> fetch(ids[i]).Ok? && fetch(ids[i]).value.Some?
    ensures |Collected(ids, fetch)| == |ids|
    ensures forall i :: 0 <= i < |ids| ==> Collected(ids, fetch)[i] == fetch(ids[i]).value.value
  {
    if ids != [] {
      var init := ids[..|ids| - 1];
      assert forall i :: 0 <= i < |init| ==> init[i] == ids[i];
      CollectedAllFound(init, fetch);
    }
  }

  /** Only the first max_apps ids are looked at: fetches that agree on them
      collect the same records. */
  lemma CollectedIgnoresLaterIds(p: Platform, maxApps: int, f: string -> Result<Option<AppRecord>>, g: string -> Result<Option<AppRecord>>)
    requires forall i :: 0 <= i < |PrefixSlice(SampleIds(p), maxApps)| ==>
      f(SampleIds(p)[i]) == g(SampleIds(p)[i])
    ensures Collected(PrefixSlice(SampleIds(p), maxApps), f) == Collected(PrefixSlice(SampleIds(p), maxApps), g)
  {
    var ids := PrefixSlice(SampleIds(p), maxApps);
    assert forall i :: 0 <= i < |ids| ==> ids[i] == SampleIds(p)[i];
    CollectedSameFetch(ids, f, g);
  }

  lemma {:induction false} CollectedSameFetch(ids: seq<string>, f: string -> Result<Option<AppRecord>>, g: string -> Result<Option<AppRecord>>)
    requires forall i :: 0 <= i < |ids| ==> f(ids[i]) == g(ids[i])
    ensures Collected(ids, f) == Collected(ids, g)
  {
    if ids != [] {
      var init := ids[..|ids| - 1];
      assert forall i :: 0 <= i < |init| ==> init[i] == ids[i];
      CollectedSameFetch(init, f, g);
    }
  }

  class StoreCollector {
    const platform: Platform
    const maxApps: int
    const dataDir: string
    /** The CSV files this collector has written, by path. */
    var written: map<string, Frame>

    /** AppStoreCollector.__init__ with the configured max_apps. */
    constructor (platform: Platform, maxApps: int)
      ensures this.platform == platform && this.maxApps == maxApps
      ensures dataDir == DataDir(platform) && written == map[]
    {
      this.platform := platform;
      this.maxApps := maxApps;
      dataDir := DataDir(platform);
      written := map[];
    }

    /** save_data: the frame when the file could be written, an empty
        frame and no file otherwise. */
    method SaveData(data: Frame, filename: string, writable: bool) returns (df: Frame)
      modifies this
      ensures writable ==> df == data && written == old(written)[dataDir + "/" + filename := data]
      ensures !writable ==> df == EmptyFrame && written == old(written)
    {
      if writable {
        written := written[dataDir + "/" + filename := data];
        df := data;
      } else {
        df := EmptyFrame;
      }
    }

    /** collect_app_data: the records of the first max_apps sample ids,
        saved to apps.csv. */
    method CollectAppData(fetch: string -> Result<Option<AppRecord>>, writable: bool) returns (df: Frame)
      modifies this
      ensures var data := AppsFrame(Collected(PrefixSlice(SampleIds(platform), maxApps), fetch));
        && (writable ==> df == data && written == old(written)[dataDir + "/apps.csv" := data])
        && (!writable ==> df == EmptyFrame && written == old(written))
    {
      var ids := PrefixSlice(SampleIds(platform), maxApps);
      var appData: seq<AppRecord> := [];
      for i := 0 to |ids|
        invariant appData == Collected(ids[..i], fetch)
      {
        assert ids[..i + 1][..i] == ids[..i];
        var data := fetch(ids[i]);
        if data.Ok? && data.value.Some? {
          appData := appData + [data.value.value];
        }
      }
      assert ids[..|ids|] == ids;
      assert dataDir + "/" + "apps.csv" == dataDir + "/apps.csv";
      df := SaveData(AppsFrame(appData), "apps.csv", writable);
    }

    /** collect_reviews: the fetched reviews saved to reviews_<id>.csv, an
        empty frame when fetching raised or saving failed. */
    method CollectReviews(appId: string, reviews: Result<seq<RawReview>>, writable: bool) returns (df: Frame)
      modifies this
      ensures reviews.Ok? && writable ==>
        df == ReviewsFrame(reviews.value) &&
        written == old(written)[dataDir + "/reviews_" + appId + ".csv" := ReviewsFrame(reviews.value)]
      ensures !(reviews.Ok? && writable) ==> df == EmptyFrame && written == old(written)
    {
      if reviews.Raised? {
        return EmptyFrame;
      }
      assert dataDir + "/" + ("reviews_" + appId + ".csv") == dataDir + "/reviews_" + appId + ".csv";
      df := SaveData(ReviewsFrame(reviews.value), "reviews_" + appId + ".csv", writable);
    }
  }

  /** The number of records collect_app_data saves is at most max_apps and
      at most the number of sample ids. */
  lemma CollectedBound(p: Platform, maxApps: int, fetch: string -> Result<Option<AppRecord>>)
    ensures var n := |Collected(PrefixSlice(SampleIds(p), maxApps), fetch)|;
      n <= 5 && (maxApps >= 0 ==> n <= maxApps)
  {
  }
}

=== FILE: estimators.dfy ===
/** The scikit-learn regressors the training code configures, by their
    hyper-parameters (None is Python's None). Fitting, searching,
    predicting and scoring are library calls outside the model: the classes
    that use them receive them as functions from estimator to estimator or
    to result. */
module Estimators {
  import opened Wrappers

  datatype Estimator =
    | RandomForest(nEstimators: int, maxDepth: Option<int>, minSamplesSplit: int, randomState: int)
    | LinearRegression
}

=== FILE: model_trainer.dfy ===
/** The two-model trainer of src/models/model_trainer.py: it fits a
    configured forest and a linear regression, keeps each under its name
    and in a model file, records the forest's importances, and ranks them
    on request. */
module Trainer {
  import opened Wrappers
  import opened PyDict
  import opened Ranking
  import opened Estimators

  /** The regressors train_models builds, in the order it trains them. */
  const Candidates: seq<(string, Estimator)> :=
    [("random_forest", RandomForest(100, Some(10), 5, 42)), ("linear_regression", LinearRegression)]

  /** What the library reports for one model: mse, rmse, mae and r2 on
      the held-out split, and the cross-validated rmse. */
  datatype Metrics = Metrics(mse: real, rmse: real, mae: real, r2: real, cvRmse: real)

  /** Each candidate's name with the model fitted from it. */
  function FittedAll(ms: seq<(string, Estimator)>, fit: Estimator -> Estimator): (r: seq<(string, Estimator)>)
    ensures |r| == |ms| && forall i :: 0 <= i < |ms| ==> r[i] == (ms[i].0, fit(ms[i].1))
  {
    seq(|ms|, i requires 0 <= i < |ms| => (ms[i].0, fit(ms[i].1)))
  }

  /** Each candidate's name with the metrics of its fitted model. */
  function EvaluatedAll(ms: seq<(string, Estimator)>, fit: Estimator -> Estimator, evaluate: Estimator -> Metrics): (r: seq<(string, Metrics)>)
    ensures |r| == |ms| && forall i :: 0 <= i < |ms| ==> r[i] == (ms[i].0, evaluate(fit(ms[i].1)))
  {
    seq(|ms|, i requires 0 <= i < |ms| => (ms[i].0, evaluate(fit(ms[i].1))))
  }

  /** model_dir / f"{name}.joblib" */
  function ModelPath(dir: string, name: string): string
  {
    dir + "/" + name + ".joblib"
  }

  /** The model files after each named model has been dumped in turn. */
  function SavedAll(files: map<string, Estimator>, dir: string, ms: seq<(string, Estimator)>): map<string, Estimator>
  {
    if ms == [] then files
    else SavedAll(files, dir, ms[..|ms| - 1])[ModelPath(dir, ms[|ms| - 1].0) := ms[|ms| - 1].1]
  }

  /** The importance dict of the forest fitted last among ms, or the old one
      when ms has no forest: dict(zip(X.columns, feature_importances_)). */
  function ImportanceAfter(old_: Dict<string, real>, ms: seq<(string, Estimator)>, columns: seq<string>,
                           fit: Estimator -> Estimator, importances: Estimator -> seq<real>): Dict<string, real>
  {
    if ms == [] then old_
    else if ms[|ms| - 1].0 == "random_forest" then FromPairs(ZipPairs(columns, importances(fit(ms[|ms| - 1].1))))
    else ImportanceAfter(old_, ms[..|ms| - 1], columns, fit, importances)
  }

  /** Training one more candidate: what each part of the state becomes. */
  lemma TrainStep(ms: seq<(string, Estimator)>, k: nat, models: Dict<string, Estimator>,
                  importance: Dict<string, real>, files: map<string, Estimator>, dir: string,
                  columns: seq<string>, fit: Estimator -> Estimator,
                  importances: Estimator -> seq<real>, evaluate: Estimator -> Metrics)
    requires k < |ms|
    ensures PutAll(models, FittedAll(ms[..k + 1], fit)) ==
      Put(PutAll(models, FittedAll(ms[..k], fit)), ms[k].0, fit(ms[k].1))
    ensures FromPairs(EvaluatedAll(ms[..k + 1], fit, evaluate)) ==
      Put(FromPairs(EvaluatedAll(ms[..k], fit, evaluate)), ms[k].0, evaluate(fit(ms[k].1)))
    ensures SavedAll(files, dir, FittedAll(ms[..k + 1], fit)) ==
      SavedAll(files, dir, FittedAll(ms[..k], fit))[ModelPath(dir, ms[k].0) := fit(ms[k].1)]
    ensures ImportanceAfter(importance, ms[..k + 1], columns, fit, importances) ==
      if ms[k].0 == "random_forest" then FromPairs(ZipPairs(columns, importances(fit(ms[k].1))))
      else ImportanceAfter(importance, ms[..k], columns, fit, importances)
  {
    assert ms[..k + 1][..k] == ms[..k];
    assert FittedAll(ms[..k + 1], fit)[..k] == FittedAll(ms[..k], fit);
    assert EvaluatedAll(ms[..k + 1], fit, evaluate)[..k] == EvaluatedAll(ms[..k], fit, evaluate);
  }

  /** The candidates have distinct names, the forest first. */
  lemma CandidatesShape()
    ensures DistinctKeys(Candidates)
    ensures Candidates[0].0 == "random_forest" && Candidates[1].0 == "linear_regression"
  {
  }

  /** Both models end up under their own names: the forest with depth 10,
      split size 5 and seed 42 fitted, and the linear regression fitted;
      any other name keeps what it had. */
  lemma TrainedUnderNames(models: Dict<string, Estimator>, fit: Estimator -> Estimator, name: string)
    ensures var m := PutAll(models, FittedAll(Candidates, fit));
      && Get(m, "random_forest") == Some(fit(RandomForest(100, Some(10), 5, 42)))
      && Get(m, "linear_regression") == Some(fit(LinearRegression))
      && (name != "random_forest" && name != "linear_regression" ==> Get(m, name) == Get(models, name))
  {
    var ps := FittedAll(Candidates, fit);
    assert ps[0] == ("random_forest", fit(RandomForest(100, Some(10), 5, 42)));
    assert ps[1] == ("linear_regression", fit(LinearRegression));
    GetPutAllAt(models, ps, 0);
    GetPutAllAt(models, ps, 1);
    if name != "random_forest" && name != "linear_regression" {
      assert Keys(ps) == ["random_forest", "linear_regression"];
      GetPutAllOther(models, ps, name);
    }
  }

  /** The importance dict after training is the forest's: each column of X
      paired with the importance at the same position. */
  lemma ImportanceOfForest(old_: Dict<string, real>, columns: seq<string>,
                           fit: Estimator -> Estimator, importances: Estimator -> seq<real>)
    ensures ImportanceAfter(old_, Candidates, columns, fit, importances) ==
      FromPairs(ZipPairs(columns, importances(fit(RandomForest(100, Some(10), 5, 42)))))
  {
    assert Candidates[..1] == [("random_forest", RandomForest(100, Some(10), 5, 42))];
  }

  /** With distinct column names and one importance per column, the dict
      holds exactly the pairs (column i, importance i), in column order. */
  lemma ImportancePairs(columns: seq<string>, importances: seq<real>)
    requires |columns| == |importances|
    requires forall i, j :: 0 <= i < j < |columns| ==> columns[i] != columns[j]
    ensures var d := FromPairs(ZipPairs(columns, importances));
      |d| == |columns| && forall i :: 0 <= i < |d| ==> d[i] == (columns[i], importances[i])
  {
    var ps := ZipPairs(columns, importances);
    assert DistinctKeys(ps);
    FromDistinctPairs(ps);
  }

  /** dict(sorted(d.items(), key=lambda x: x[1], reverse=True)): the same
      (feature, importance) pairs, highest importance first, pairs of equal
      importance in their original order. */
  function SortedImportance(d: Dict<string, real>): (r: Dict<string, real>)
    requires DistinctKeys(d)
    ensures multiset(r) == multiset(d)
    ensures NonIncreasing(r)
    ensures forall v :: WithScore(r, v) == WithScore(d, v)
    ensures DistinctKeys(r)
  {
    var s := SortDesc(d);
    SortDescPermutes(d);
    SortDescOrdered(d);
    SortDescDistinct(d);
    forall v ensures WithScore(s, v) == WithScore(d, v) {
      SortDescStable(d, v);
    }
    FromDistinctPairs(s);
    FromPairs(s)
  }

  class ModelTrainer {
    const modelDir: string
    var models: Dict<string, Estimator>
    var featureImportance: Dict<string, real>
    /** The model files this trainer has written, by path. */
    var saved: map<string, Estimator>

    predicate Valid()
      reads this
    {
      DistinctKeys(models) && DistinctKeys(featureImportance)
    }

    /** ModelTrainer(model_dir); creating the directory is not modelled. */
    constructor (modelDir: string)
      ensures this.modelDir == modelDir && models == [] && featureImportance == [] && saved == map[]
      ensures Valid()
    {
      this.modelDir := modelDir;
      models := [];
      featureImportance := [];
      saved := map[];
    }

    /** train_models: fits each candidate, records its metrics, keeps it
        under its name, records the forest's importances and dumps it to
        its model file. */
    method TrainModels(columns: seq<string>, fit: Estimator -> Estimator,
                       importances: Estimator -> seq<real>, evaluate: Estimator -> Metrics)
      returns (results: Dict<string, Metrics>)
      requires Valid()
      modifies this
      ensures Valid()
      ensures models == PutAll(old(models), FittedAll(Candidates, fit))
      ensures featureImportance == ImportanceAfter(old(featureImportance), Candidates, columns, fit, importances)
      ensures saved == SavedAll(old(saved), modelDir, FittedAll(Candidates, fit))
      ensures results == FromPairs(EvaluatedAll(Candidates, fit, evaluate))
    {
      results := TrainEach(Candidates, columns, fit, importances, evaluate);
    }

    /** The loop of train_models over the named models ms. */
    method TrainEach(ms: seq<(string, Estimator)>, columns: seq<string>, fit: Estimator -> Estimator,
                     importances: Estimator -> seq<real>, evaluate: Estimator -> Metrics)
      returns (results: Dict<string, Metrics>)
      requires Valid()
      modifies this
      ensures Valid()
      ensures models == PutAll(old(models), FittedAll(ms, fit))
      ensures featureImportance == ImportanceAfter(old(featureImportance), ms, columns, fit, importances)
      ensures saved == SavedAll(old(saved), modelDir, FittedAll(ms, fit))
      ensures results == FromPairs(EvaluatedAll(ms, fit, evaluate))
    {
      ghost var models0 := models;
      ghost var importance0 := featureImportance;
      ghost var saved0 := saved;
      results := [];
      for k := 0 to |ms|
        invariant Valid()
        invariant models == PutAll(models0, FittedAll(ms[..k], fit))
        invariant featureImportance == ImportanceAfter(importance0, ms[..k], columns, fit, importances)
        invariant saved == SavedAll(saved0, modelDir, FittedAll(ms[..k], fit))
        invariant results == FromPairs(EvaluatedAll(ms[..k], fit, evaluate))
      {
        var name := ms[k].0;
        var model := fit(ms[k].1);
        TrainStep(ms, k, models0, importance0, saved0, modelDir, columns, fit, importances, evaluate);
        results := Put(results, name, evaluate(model));
        PutDistinct(models, name, model);
        models := Put(models, name, model);
        if name == "random_forest" {
          featureImportance := FromPairs(ZipPairs(columns, importances(model)));
          PutAllDistinct([], ZipPairs(columns, importances(model)));
        }
        saved := saved[ModelPath(modelDir, name) := model];
      }
      assert ms[..|ms|] == ms;
    }

    /** get_feature_importance: ValueError when no importance is recorded,
        the ranked importances otherwise. */
    method GetFeatureImportance() returns (r: Result<Dict<string, real>>)
      requires Valid()
      ensures featureImportance == [] ==> r == Raised(ValueError)
      ensures featureImportance != [] ==> r == Ok(SortedImportance(featureImportance))
    {
      if featureImportance == [] {
        return Raised(ValueError);
      }
      r := Ok(SortedImportance(featureImportance));
    }

    /** predict: the named model's predictions, or ValueError for a name
        that has not been trained. The caller always passes the name; the
        default 'random_forest' is not modelled. */
    method Predict<X>(x: X, modelName: string, predict: (Estimator, X) -> seq<real>) returns (r: Result<seq<real>>)
      ensures modelName !in Keys(models) ==> r == Raised(ValueError)
      ensures modelName in Keys(models) ==> r == Ok(predict(Get(models, modelName).value, x))
    {
      var m := Get(models, modelName);
      if m.None? {
        return Raised(ValueError);
      }
      r := Ok(predict(m.value, x));
    }
  }
}

=== FILE: ordering.dfy ===
/** Python's ordering of strings (lexicographic by code point) and the
    sorted list of distinct values that pandas derives from a column. */
module Ordering {

  /** a <= b for Python strings */
  predicate StrLe(a: string, b: string)
    decreases |a|
  {
    a == [] || (b != [] && (a[0] < b[0] || (a[0] == b[0] && StrLe(a[1..], b[1..]))))
  }

  predicate StrLt(a: string, b: string) { StrLe(a, b) && a != b }

  lemma {:induction false} StrLeTotal(a: string, b: string)
    ensures StrLe(a, b) || StrLe(b, a)
    decreases |a|
  {
    if a != [] && b != [] && a[0] == b[0] {
      StrLeTotal(a[1..], b[1..]);
    }
  }

  lemma {:induction false} StrLeAntisymmetric(a: string, b: string)
    requires StrLe(a, b) && StrLe(b, a)
    ensures a == b
    decreases |a|
  {
    if a != [] {
      StrLeAntisymmetric(a[1..], b[1..]);
      assert a == [a[0]] + a[1..] && b == [b[0]] + b[1..];
    }
  }

  lemma {:induction false} StrLeTransitive(a: string, b: string, c: string)
    requires StrLe(a, b) && StrLe(b, c)
    ensures StrLe(a, c)
    decreases |a|
  {
    if a != [] && a[0] == b[0] && b[0] == c[0] {
      StrLeTransitive(a[1..], b[1..], c[1..]);
    }
  }

  lemma StrLtTransitive(a: string, b: string, c: string)
    requires StrLt(a, b) && StrLt(b, c)
    ensures StrLt(a, c)
  {
    StrLeTransitive(a, b, c);
    if a == c {
      StrLeAntisymmetric(a, b);
    }
  }

  predicate StrictlyIncreasing(s: seq<string>)
  {
    forall i, j :: 0 <= i < j < |s| ==> StrLt(s[i], s[j])
  }

  lemma IncreasingDistinct(s: seq<string>, i: nat, j: nat)
    requires StrictlyIncreasing(s) && i < |s| && j < |s| && s[i] == s[j]
    ensures i == j
  {
  }

  /** A list whose neighbours are in strictly increasing order is strictly
      increasing. */
  lemma {:induction false} IncreasingOfAdjacent(s: seq<string>)
    requires forall i :: 0 <= i < |s| - 1 ==> StrLt(s[i], s[i + 1])
    ensures StrictlyIncreasing(s)
  {
    if |s| > 1 {
      var init := s[..|s| - 1];
      assert forall i :: 0 <= i < |init| ==> init[i] == s[i];
      IncreasingOfAdjacent(init);
      forall i, j | 0 <= i < j < |s| ensures StrLt(s[i], s[j]) {
        if j < |s| - 1 {
          assert init[i] == s[i] && init[j] == s[j];
        } else if i < j - 1 {
          assert init[i] == s[i] && init[j - 1] == s[j - 1];
          StrLtTransitive(s[i], s[j - 1], s[j]);
        }
      }
    }
  }

  /** Inserts x into a strictly increasing list, unless it is already there. */
  function InsertSorted(x: string, s: seq<string>): (r: seq<string>)
    requires StrictlyIncreasing(s)
    ensures StrictlyIncreasing(r)
    ensures forall y :: y in r <==> y == x || y in s
  {
    if s == [] then [x]
    else if x == s[0] then s
    else if StrLe(x, s[0]) then
      assert forall j :: 0 < j < |s| ==> StrLt(x, s[j]) by {
        forall j | 0 < j < |s| ensures StrLt(x, s[j]) {
          StrLtTransitive(x, s[0], s[j]);
        }
      }
      [x] + s
    else
      var t := InsertSorted(x, s[1..]);
      StrLeTotal(x, s[0]);
      assert forall y :: y in t ==> StrLt(s[0], y);
      [s[0]] + t
  }

  /** The distinct values of s in ascending order: the categories that
      pandas factorises a column into (sort=True). */
  function SortedDistinct(s: seq<string>): (r: seq<string>)
    ensures StrictlyIncreasing(r)
    ensures forall y :: y in r <==> y in s
  {
    if s == [] then [] else InsertSorted(s[0], SortedDistinct(s[1..]))
  }

  /** A strictly increasing list is determined by the set of its elements. */
  lemma {:induction false} IncreasingUnique(a: seq<string>, b: seq<string>)
    requires StrictlyIncreasing(a) && StrictlyIncreasing(b)
    requires forall y :: y in a <==> y in b
    ensures a == b
    decreases |a|
  {
    if a != [] {
      assert a[0] in b;
    }
    if b != [] {
      assert b[0] in a;
    }
    if a != [] && b != [] {
      if a[0] != b[0] {
        var i :| 0 <= i < |b| && b[i] == a[0];
        var j :| 0 <= j < |a| && a[j] == b[0];
        assert StrLt(b[0], a[0]) && StrLt(a[0], b[0]);
        StrLeAntisymmetric(a[0], b[0]);
        assert false;
      }
      forall y ensures y in a[1..] <==> y in b[1..] {
        if y in a[1..] {
          var k :| 1 <= k < |a| && a[k] == y;
          assert y != a[0] && y in b;
          var m :| 0 <= m < |b| && b[m] == y;
          assert m != 0 && b[1..][m - 1] == y;
        }
        if y in b[1..] {
          var k :| 1 <= k < |b| && b[k] == y;
          assert y != b[0] && y in a;
          var m :| 0 <= m < |a| && a[m] == y;
          assert m != 0 && a[1..][m - 1] == y;
        }
      }
      IncreasingUnique(a[1..], b[1..]);
    }
  }

  /** A list that is already strictly increasing is its own category list. */
  lemma SortedDistinctOfIncreasing(s: seq<string>)
    requires StrictlyIncreasing(s)
    ensures SortedDistinct(s) == s
  {
    IncreasingUnique(SortedDistinct(s), s);
  }
}

=== FILE: platform_apis.dfy ===
/** The field parsers and detail extractors of the three store wrappers
    (src/data/platform_apis.py). A fetched page is given as the values its
    selectors would find; HTTP and HTML parsing are not modelled. */
module PlatformApis {
  import opened Wrappers
  import opened PyStr

  /** What `soup.select_one(sel)` followed by an attribute or a
      `find_next` lookup yields: None when the element is absent,
      Some(None) when the element is there but the attribute (or the next
      element) is not, Some(Some(v)) otherwise. */
  type Lookup = Option<Option<string>>

  /** The dictionary built by get_app_details. */
  datatype AppRecord = AppRecord(
    appId: string,
    name: string,
    category: string,
    rating: real,
    reviews: int,
    size: real,
    price: real,
    downloads: int)

  // ---------------------------------------------------------------------
  // Number parsers shared by the stores

  /** ''.join(filter(str.isdigit, text)) */
  function DigitsOf(text: string): (ds: string)
    ensures AllDigits(ds)
  {
    Filter(text, IsDigit)
  }

  /** The digits kept are exactly the digits of the text. */
  lemma DigitsOfMembers(text: string)
    ensures forall c :: c in DigitsOf(text) <==> c in text && IsDigit(c)
  {
    FilterMembers(text, IsDigit);
  }

  /** _parse_size: float() of all the digits of the text, times 1024 when
      "GB" occurs in it; 0 when float() raises (no digits at all). */
  function ParseSize(text: string): real
  {
    match ParseFloat(DigitsOf(text))
    case None => 0.0
    case Some(number) => if Contains(text, "GB") then number * 1024.0 else number
  }

  /** The decimal point and the unit are ignored: the magnitude is the
      integer formed by every digit in order, scaled exactly when "GB"
      occurs. */
  lemma ParseSizeValue(text: string)
    ensures var ds := DigitsOf(text);
      ParseSize(text) ==
        if ds == [] then 0.0
        else if Contains(text, "GB") then DigitsValue(ds) as real * 1024.0
        else DigitsValue(ds) as real
  {
    ParseFloatOfDigits(DigitsOf(text));
  }

  lemma DigitsOfOneAndHalfGb()
    ensures DigitsOf("1.5 GB") == "15"
  {
    var tail := " GB";
    assert DigitsOf(tail) == "" by {
      assert tail == [' '] + ['G'] + ['B'];
      FilterAppend([' '] + ['G'], ['B'], IsDigit);
      FilterAppend([' '], ['G'], IsDigit);
    }
    assert "1.5 GB" == ['1'] + ['.'] + ['5'] + tail;
    FilterAppend(['1'] + ['.'] + ['5'], tail, IsDigit);
    FilterAppend(['1'] + ['.'], ['5'], IsDigit);
    FilterAppend(['1'], ['.'], IsDigit);
  }

  lemma ContainsGb()
    ensures Contains("1.5 GB", "GB")
  {
    assert "1.5 GB"[4..] == "GB";
    assert Contains("GB", "GB");
    assert Contains(" GB", "GB");
    assert Contains("5 GB", "GB");
    assert Contains(".5 GB", "GB");
  }

  lemma ParseSizeOfFifteenGb(text: string)
    requires DigitsOf(text) == "15" && Contains(text, "GB")
    ensures ParseSize(text) == 15360.0
  {
    ParseSizeValue(text);
    FifteenDigits();
  }

  lemma FifteenDigits()
    ensures DigitsValue("15") == 15
  {
    assert "15"[..1] == "1" && "1"[..0] == "";
  }

  /** "1.5 GB" is read as fifteen gigabytes. */
  lemma ParseSizeOneAndHalfGb()
    ensures ParseSize("1.5 GB") == 15360.0
  {
    DigitsOfOneAndHalfGb();
    ContainsGb();
    ParseSizeOfFifteenGb("1.5 GB");
  }

  /** int() of a non-negative real: truncation towards zero. */
  function Trunc(x: real): int
    requires x >= 0.0
  {
    x.Floor
  }

  /** _parse_downloads: the digits as a number, scaled by a million when
      "M" occurs, else by a thousand when "K" occurs; there is no billions
      multiplier. 0 when the text has no digit. */
  function ParseDownloads(text: string): int
  {
    match ParseFloat(DigitsOf(text))
    case None => 0
    case Some(number) =>
      if number < 0.0 then 0
      else if Contains(text, "M") then Trunc(number * 1000000.0)
      else if Contains(text, "K") then Trunc(number * 1000.0)
      else Trunc(number)
  }

  /** The digit count of the text, scaled by the first of M, K that occurs. */
  lemma ParseDownloadsValue(text: string)
    ensures var ds := DigitsOf(text);
      ParseDownloads(text) ==
        if ds == [] then 0
        else if Contains(text, "M") then DigitsValue(ds) * 1000000
        else if Contains(text, "K") then DigitsValue(ds) * 1000
        else DigitsValue(ds)
  {
    ParseFloatOfDigits(DigitsOf(text));
  }

  /** A text that mentions M and K is scaled by a million only, and a "B"
      suffix is not a multiplier at all. */
  lemma ParseDownloadsMBeforeK(text: string)
    requires Contains(text, "M") && Contains(text, "K") && DigitsOf(text) != []
    ensures ParseDownloads(text) == DigitsValue(DigitsOf(text)) * 1000000
  {
    ParseDownloadsValue(text);
  }

  lemma ParseDownloadsNoBillions(ds: string)
    requires AllDigits(ds) && ds != []
    ensures ParseDownloads(ds + "B") == DigitsValue(ds)
  {
    var t := ds + "B";
    assert DigitsOf(t) == ds by {
      FilterAppend(ds, "B", IsDigit);
      AllDigitsFilter(ds);
    }
    assert !Contains(t, "M") by {
      ContainsChar(t, 'M');
      assert forall i :: 0 <= i < |t| ==> t[i] != 'M';
    }
    assert !Contains(t, "K") by {
      ContainsChar(t, 'K');
      assert forall i :: 0 <= i < |t| ==> t[i] != 'K';
    }
    ParseDownloadsValue(t);
  }

  lemma {:induction false} AllDigitsFilter(ds: string)
    requires AllDigits(ds)
    ensures Filter(ds, IsDigit) == ds
  {
    if ds != [] {
      AllDigitsFilter(ds[1..]);
    }
  }

  // ---------------------------------------------------------------------
  // Extractors with a default for a missing element

  /** _extract_text: the stripped text, '' when the element is absent. */
  function ExtractText(e: Option<string>): (r: string)
    ensures e.None? ==> r == ""
    ensures r == [] || (!IsSpace(r[0]) && !IsSpace(r[|r| - 1]))
    ensures e.Some? ==> exists i :: StrippedAt(e.value, r, i)
  {
    match e
    case None => ""
    case Some(t) => StripIsSlice(t); Strip(t)
  }

  /** float(text) as a call: ValueError unless the text is a decimal
      literal. */
  function Float(text: string): Result<real>
  {
    match ParseFloat(text)
    case None => Raised(ValueError)
    case Some(v) => Ok(v)
  }

  /** Google _extract_rating: float(element['content']), 0.0 without the
      element, KeyError without the attribute. */
  function ExtractRating(e: Lookup): (r: Result<real>)
    ensures e.None? ==> r == Ok(0.0)
    ensures e == Some(None) ==> r == Raised(KeyError)
    ensures e.Some? && e.value.Some? ==>
      (r.Ok? <==> ParseFloat(e.value.value).Some?) &&
      (r.Ok? ==> Some(r.value) == ParseFloat(e.value.value)) &&
      (r.Raised? ==> r.exc == ValueError)
  {
    match e
    case None => Ok(0.0)
    case Some(None) => Raised(KeyError)
    case Some(Some(c)) => Float(c)
  }

  /** A rating content "<ip>.<fp>" is read as that decimal. */
  lemma ExtractRatingDecimal(ip: string, fp: string)
    requires AllDigits(ip) && AllDigits(fp) && ip != []
    ensures ExtractRating(Some(Some(ip + "." + fp))) ==
      Ok(DecimalValue(ip, fp))
  {
    ParseFloatOfDecimal(ip, fp);
  }

  /** int(text.replace(',', '')) */
  function CountOf(text: string): (r: Result<int>)
    ensures r.Ok? <==> ParseInt(RemoveAll(text, ",")).Some?
    ensures r.Ok? ==> Some(r.value) == ParseInt(RemoveAll(text, ","))
    ensures r.Raised? ==> r.exc == ValueError
  {
    match ParseInt(RemoveAll(text, ","))
    case None => Raised(ValueError)
    case Some(n) => Ok(n)
  }

  /** Google _extract_reviews_count: 0 without the element, KeyError
      without the attribute, else int() of the content without commas. */
  function ExtractReviewsCount(e: Lookup): (r: Result<int>)
    ensures e.None? ==> r == Ok(0)
    ensures e == Some(None) ==> r == Raised(KeyError)
    ensures e.Some? && e.value.Some? ==> r == CountOf(e.value.value)
  {
    match e
    case None => Ok(0)
    case Some(None) => Raised(KeyError)
    case Some(Some(c)) => CountOf(c)
  }

  /** Thousands separators do not change a count. */
  lemma CountIgnoresCommas(a: string, b: string)
    ensures CountOf(a + "," + b) == CountOf(a + b)
  {
    var c := RemoveAll(",", ",");
    assert c == [];
    RemoveCharAppend(a + ",", b, ',');
    RemoveCharAppend(a, ",", ',');
    RemoveCharAppend(a, b, ',');
    assert RemoveAll(a + "," + b, ",") == RemoveAll(a + b, ",");
  }

  /** A printed count reads back as itself. */
  lemma CountOfPrinted(n: nat)
    ensures CountOf(NatToString(n)) == Ok(n)
  {
    var s := NatToString(n);
    assert ',' !in s by {
      assert forall i :: 0 <= i < |s| ==> IsDigit(s[i]);
    }
    RemoveCharAbsent(s, ',');
    IntRoundTrip(n);
  }

  /** _extract_size for both stores: the label's next element's stripped
      text through ParseSize, 0 without the label, AttributeError when no
      next element follows. */
  function ExtractSize(e: Lookup): (r: Result<real>)
    ensures e.None? ==> r == Ok(0.0)
    ensures e == Some(None) ==> r == Raised(AttributeError)
    ensures e.Some? && e.value.Some? ==> r == Ok(ParseSize(e.value.value))
    ensures r.Ok? ==> r.value >= 0.0
  {
    match e
    case None => Ok(0.0)
    case Some(None) => Raised(AttributeError)
    case Some(Some(t)) =>
      StripKeepsParseSize(t);
      ParseSizeValue(t);
      Ok(ParseSize(Strip(t)))
  }

  /** strip() changes neither the digits nor whether "GB" occurs, so the
      size read from a padded text is the size of the text. */
  lemma StripKeepsParseSize(t: string)
    ensures ParseSize(Strip(t)) == ParseSize(t)
  {
    assert DigitsOf(Strip(t)) == DigitsOf(t) by {
      StripKeepsDigits(t);
    }
    StripKeepsContains(t, "GB");
    ParseSizeValue(t);
    ParseSizeValue(Strip(t));
  }

  /** Google _extract_price: 0.0 for "Free" or without the element, else
      float() of the content without '$'. */
  function GooglePrice(e: Lookup): (r: Result<real>)
    ensures e.None? || e == Some(Some("Free")) ==> r == Ok(0.0)
    ensures e == Some(None) ==> r == Raised(KeyError)
    ensures e.Some? && e.value.Some? && e.value.value != "Free" ==>
      (r.Ok? <==> ParseFloat(RemoveAll(e.value.value, "$")).Some?) &&
      (r.Ok? ==> Some(r.value) == ParseFloat(RemoveAll(e.value.value, "$"))) &&
      (r.Raised? ==> r.exc == ValueError)
  {
    match e
    case None => Ok(0.0)
    case Some(None) => Raised(KeyError)
    case Some(Some(p)) =>
      if p == "Free" then Ok(0.0)
      else
        match ParseFloat(RemoveAll(p, "$"))
        case None => Raised(ValueError)
        case Some(v) => Ok(v)
  }

  /** A dollar amount in whole dollars is read as that many dollars. */
  lemma GooglePriceDollars(ds: string)
    requires AllDigits(ds) && ds != []
    ensures GooglePrice(Some(Some("$" + ds))) == Ok(DigitsValue(ds) as real)
  {
    var p := "$" + ds;
    assert p != "Free" by {
      assert p[0] == '$';
    }
    RemoveCharAppend("$", ds, '$');
    assert RemoveAll("$", "$") == [];
    assert '$' !in ds by {
      assert forall i :: 0 <= i < |ds| ==> IsDigit(ds[i]);
    }
    RemoveCharAbsent(ds, '$');
    ParseFloatOfDigits(ds);
  }

  /** A price "$<ip>.<fp>", such as "$4.99", is read as that many dollars. */
  lemma GooglePriceDecimal(ip: string, fp: string)
    requires AllDigits(ip) && AllDigits(fp) && ip != []
    ensures GooglePrice(Some(Some("$" + ip + "." + fp))) == Ok(DecimalValue(ip, fp))
  {
    var p := "$" + ip + "." + fp;
    assert p != "Free" by {
      assert p[0] == '$';
    }
    DollarsRemoved(ip, fp);
    ParseFloatOfDecimal(ip, fp);
  }

  /** Google _extract_downloads: 0 without the label. */
  function ExtractDownloads(e: Lookup): (r: Result<int>)
    ensures e.None? ==> r == Ok(0)
    ensures e == Some(None) ==> r == Raised(AttributeError)
    ensures e.Some? && e.value.Some? ==> r == Ok(ParseDownloads(e.value.value))
    ensures r.Ok? ==> r.value >= 0
  {
    match e
    case None => Ok(0)
    case Some(None) => Raised(AttributeError)
    case Some(Some(t)) =>
      StripKeepsParseDownloads(t);
      ParseDownloadsValue(t);
      Ok(ParseDownloads(Strip(t)))
  }

  /** strip() changes neither the digits nor whether "M" or "K" occurs, so
      the count read from a padded text is the count of the text. */
  lemma StripKeepsParseDownloads(t: string)
    ensures ParseDownloads(Strip(t)) == ParseDownloads(t)
  {
    assert DigitsOf(Strip(t)) == DigitsOf(t) by {
      StripKeepsDigits(t);
    }
    StripKeepsContains(t, "M");
    StripKeepsContains(t, "K");
    ParseDownloadsValue(t);
    ParseDownloadsValue(Strip(t));
  }

  // ---------------------------------------------------------------------
  // Google Play

  /** What the selectors of GooglePlayAPI.get_app_details find on a page. */
  datatype GooglePage = GooglePage(
    title: Option<string>,
    genre: Option<string>,
    ratingValue: Lookup,
    reviewCount: Lookup,
    sizeLabel: Lookup,
    price: Lookup,
    downloadsLabel: Lookup)

  /** GooglePlayAPI.get_app_details: None when the request or any
      extractor raises, otherwise the record. */
  function GoogleDetails(appId: string, page: Result<GooglePage>): (r: Option<AppRecord>)
    ensures r.Some? <==>
      page.Ok? && ExtractRating(page.value.ratingValue).Ok? &&
      ExtractReviewsCount(page.value.reviewCount).Ok? &&
      ExtractSize(page.value.sizeLabel).Ok? && GooglePrice(page.value.price).Ok? &&
      ExtractDownloads(page.value.downloadsLabel).Ok?
    ensures r.Some? ==> r.value.appId == appId && r.value.size >= 0.0 && r.value.downloads >= 0
    ensures r.Some? ==>
      var g := page.value;
      && r.value.name == ExtractText(g.title)
      && r.value.category == ExtractText(g.genre)
      && r.value.rating == ExtractRating(g.ratingValue).value
      && r.value.reviews == ExtractReviewsCount(g.reviewCount).value
      && r.value.size == ExtractSize(g.sizeLabel).value
      && r.value.price == GooglePrice(g.price).value
      && r.value.downloads == ExtractDownloads(g.downloadsLabel).value
  {
    if page.Raised? then None
    else
      var g := page.value;
      var rating := ExtractRating(g.ratingValue);
      var reviews := ExtractReviewsCount(g.reviewCount);
      var size := ExtractSize(g.sizeLabel);
      var price := GooglePrice(g.price);
      var downloads := ExtractDownloads(g.downloadsLabel);
      if rating.Ok? && reviews.Ok? && size.Ok? && price.Ok? && downloads.Ok? then
        Some(AppRecord(appId, ExtractText(g.title), ExtractText(g.genre),
                       rating.value, reviews.value, size.value, price.value, downloads.value))
      else None
  }

  // ---------------------------------------------------------------------
  // Apple App Store

  /** A JSON value that get_app_details divides: a number, or anything
      else (a string, say), for which `/` raises TypeError. */
  datatype Json = JsonNumber(n: real) | JsonOther

  /** The keys of one entry of the iTunes lookup response that the record
      reads; None is a missing key. */
  datatype AppleResult = AppleResult(
    trackId: Option<int>,
    trackName: Option<string>,
    primaryGenreName: Option<string>,
    averageUserRating: Option<real>,
    userRatingCount: Option<int>,
    fileSizeBytes: Option<Json>,
    price: Option<real>)

  datatype AppleResponse = AppleResponse(resultCount: Option<int>, results: Option<seq<AppleResult>>)

  /** The lookup found something and its first entry has every key read
      with `[]`, with a numeric file size. */
  predicate AppleFound(data: AppleResponse)
  {
    && data.resultCount.Some? && data.resultCount.value > 0
    && data.results.Some? && data.results.value != []
    && var a := data.results.value[0];
    && a.trackId.Some? && a.trackName.Some? && a.primaryGenreName.Some?
    && a.fileSizeBytes.Some? && a.fileSizeBytes.value.JsonNumber? && a.price.Some?
  }

  /** AppleAppStoreAPI.get_app_details: None when the request fails, the
      lookup found nothing, a required key is missing (KeyError, or
      IndexError on an empty list) or the size is no number (TypeError). */
  function AppleDetails(response: Result<AppleResponse>): (r: Option<AppRecord>)
    ensures r.Some? <==> response.Ok? && AppleFound(response.value)
    ensures r.Some? ==> r.value.downloads == 0
    ensures response.Ok? && response.value.resultCount.Some? && response.value.resultCount.value <= 0 ==> r.None?
    ensures r.Some? ==>
      var a := response.value.results.value[0];
      && r.value.name == a.trackName.value
      && r.value.category == a.primaryGenreName.value
      && r.value.rating == (if a.averageUserRating.Some? then a.averageUserRating.value else 0.0)
      && r.value.reviews == (if a.userRatingCount.Some? then a.userRatingCount.value else 0)
      && r.value.size * 1048576.0 == a.fileSizeBytes.value.n
      && r.value.price == a.price.value
  {
    match response
    case Raised(_) => None
    case Ok(data) =>
      match data.resultCount
      case None => None
      case Some(count) =>
        if count <= 0 then None
        else
          match data.results
          case None => None
          case Some(results) =>
            if results == [] then None
            else
              var a := results[0];
              if a.trackId.None? || a.trackName.None? || a.primaryGenreName.None? ||
                 a.fileSizeBytes.None? || a.price.None? then None
              else
                match a.fileSizeBytes.value
                case JsonOther => None
                case JsonNumber(bytes) =>
                  Some(AppRecord(
                    IntToString(a.trackId.value),
                    a.trackName.value,
                    a.primaryGenreName.value,
                    match a.averageUserRating case None => 0.0 case Some(v) => v,
                    match a.userRatingCount case None => 0 case Some(n) => n,
                    bytes / (1024.0 * 1024.0),
                    a.price.value,
                    0))
  }

  /** The record of the first result carries its trackId as text that
      int() reads back. */
  lemma AppleRecordOfFirst(response: AppleResponse)
    requires AppleDetails(Ok(response)).Some?
    ensures ParseInt(AppleDetails(Ok(response)).value.appId) == response.results.value[0].trackId
  {
    IntRoundTrip(response.results.value[0].trackId.value);
  }

  // ---------------------------------------------------------------------
  // Amazon Appstore

  /** What the selectors of AmazonAppStoreAPI.get_app_details find: the
      breadcrumb links are None when the container is absent. */
  datatype AmazonPage = AmazonPage(
    title: Option<string>,
    breadcrumbs: Option<seq<string>>,
    ratingText: Option<string>,
    reviewCountText: Option<string>,
    fileSizeLabel: Lookup,
    priceWhole: Option<string>)

  /** Amazon _extract_category: the stripped text of the last breadcrumb
      link, '' when there is no container or no link. */
  function AmazonCategory(breadcrumbs: Option<seq<string>>): (r: string)
    ensures breadcrumbs.None? || breadcrumbs == Some([]) ==> r == ""
    ensures breadcrumbs.Some? && breadcrumbs.value != [] ==>
      r == Strip(breadcrumbs.value[|breadcrumbs.value| - 1])
  {
    match breadcrumbs
    case None => ""
    case Some(links) => if links == [] then "" else Strip(links[|links| - 1])
  }

  /** Amazon _extract_rating: float() of the text before the first space,
      0.0 without the element. */
  function AmazonRating(e: Option<string>): (r: Result<real>)
    ensures e.None? ==> r == Ok(0.0)
    ensures e.Some? ==>
      (r.Ok? <==> ParseFloat(SplitHead(e.value, ' ')).Some?) &&
      (r.Ok? ==> Some(r.value) == ParseFloat(SplitHead(e.value, ' '))) &&
      (r.Raised? ==> r.exc == ValueError)
  {
    match e
    case None => Ok(0.0)
    case Some(t) => Float(SplitHead(t, ' '))
  }

  /** "4.5 out of 5 stars" is read as 4.5: the words after the number do
      not matter. */
  lemma AmazonRatingFirstWord(ip: string, fp: string, rest: string)
    requires AllDigits(ip) && AllDigits(fp) && ip != []
    ensures AmazonRating(Some(ip + "." + fp + " " + rest)) ==
      Ok(DecimalValue(ip, fp))
  {
    var num := ip + "." + fp;
    assert ' ' !in num by {
      assert forall i :: 0 <= i < |num| ==> num[i] == '.' || IsDigit(num[i]);
    }
    assert num + " " + rest == num + [' '] + rest;
    SplitHeadAt(num, rest, ' ');
    ParseFloatOfDecimal(ip, fp);
  }

  /** Amazon _extract_reviews_count: 0 without the element, else int() of
      the text without commas. */
  function AmazonReviewsCount(e: Option<string>): (r: Result<int>)
    ensures e.None? ==> r == Ok(0)
    ensures e.Some? ==> r == CountOf(e.value)
  {
    match e
    case None => Ok(0)
    case Some(t) => CountOf(t)
  }

  /** Amazon _extract_price: float() of the text without '$', 0.0 without
      the element. */
  function AmazonPrice(e: Option<string>): (r: Result<real>)
    ensures e.None? ==> r == Ok(0.0)
    ensures e.Some? ==>
      (r.Ok? <==> ParseFloat(RemoveAll(e.value, "$")).Some?) &&
      (r.Ok? ==> Some(r.value) == ParseFloat(RemoveAll(e.value, "$"))) &&
      (r.Raised? ==> r.exc == ValueError)
  {
    match e
    case None => Ok(0.0)
    case Some(t) => Float(RemoveAll(t, "$"))
  }

  /** A price "$<ip>.<fp>" is read as that many dollars; "$4." is 4. */
  lemma AmazonPriceDollars(ip: string, fp: string)
    requires AllDigits(ip) && AllDigits(fp) && ip != []
    ensures AmazonPrice(Some("$" + ip + "." + fp)) ==
      Ok(DecimalValue(ip, fp))
  {
    DollarsRemoved(ip, fp);
    ParseFloatOfDecimal(ip, fp);
  }

  /** AmazonAppStoreAPI.get_app_details; downloads are always 0. */
  function AmazonDetails(appId: string, page: Result<AmazonPage>): (r: Option<AppRecord>)
    ensures r.Some? <==>
      page.Ok? && AmazonRating(page.value.ratingText).Ok? &&
      AmazonReviewsCount(page.value.reviewCountText).Ok? &&
      ExtractSize(page.value.fileSizeLabel).Ok? && AmazonPrice(page.value.priceWhole).Ok?
    ensures r.Some? ==>
      r.value.appId == appId && r.value.downloads == 0 &&
      r.value.category == AmazonCategory(page.value.breadcrumbs)
    ensures r.Some? ==>
      var g := page.value;
      && r.value.name == ExtractText(g.title)
      && r.value.rating == AmazonRating(g.ratingText).value
      && r.value.reviews == AmazonReviewsCount(g.reviewCountText).value
      && r.value.size == ExtractSize(g.fileSizeLabel).value
      && r.value.price == AmazonPrice(g.priceWhole).value
  {
    match page
    case Raised(_) => None
    case Ok(g) =>
      match (AmazonRating(g.ratingText), AmazonReviewsCount(g.reviewCountText),
             ExtractSize(g.fileSizeLabel), AmazonPrice(g.priceWhole))
      case (Ok(rating), Ok(reviews), Ok(size), Ok(price)) =>
        Some(AppRecord(appId, ExtractText(g.title), AmazonCategory(g.breadcrumbs), rating, reviews, size, price, 0))
      case _ => None
  }
}

=== FILE: platform_reviews.dfy ===
/** get_app_reviews of the three store wrappers
    (src/data/platform_apis.py). The headless browser is a Browser object
    whose successive find_elements calls return the snapshots it was
    launched with; a ghost flag records whether the session is still open,
    so that the contracts can say that every session is quit. */
module PlatformReviews {
  import opened Wrappers
  import opened PyStr

  /** One review dictionary: its text, its rating and its date. */
  datatype RawReview = RawReview(text: string, rating: real, date: string)

  /** A review element on Google Play or the App Store: the text of the
      body and date sub-elements (None when find_element raises) and the
      number of star sub-elements. */
  datatype StarElement = StarElement(body: Option<string>, stars: nat, date: Option<string>)

  /** A review element on Amazon: the body, the textContent of the star
      rating and the date. */
  datatype AmazonElement = AmazonElement(body: Option<string>, starText: Option<string>, date: Option<string>)

  /** The review of a Google Play or App Store element: the rating is the
      count of star sub-elements. */
  function ReadStarElement(e: StarElement): (r: Result<RawReview>)
    ensures r.Ok? <==> e.body.Some? && e.date.Some?
    ensures r.Ok? ==> r.value == RawReview(e.body.value, e.stars as real, e.date.value)
  {
    match (e.body, e.date)
    case (Some(body), Some(date)) => Ok(RawReview(body, e.stars as real, date))
    case _ => Raised(BrowserError)
  }

  /** The review of an Amazon element: the rating is float() of the star
      text before its first '.'. */
  function ReadAmazonElement(e: AmazonElement): Result<RawReview>
  {
    match (e.body, e.starText, e.date)
    case (Some(body), Some(stars), Some(date)) =>
      (match ParseFloat(SplitHead(stars, '.'))
       case None => Raised(ValueError)
       case Some(rating) => Ok(RawReview(body, rating, date)))
    case _ => Raised(BrowserError)
  }

  /** "4.0 out of 5 stars" is read as 4.0: only the whole part counts. */
  lemma AmazonRatingIsWholeStars(body: string, ds: string, rest: string, date: string)
    requires AllDigits(ds) && ds != []
    ensures ReadAmazonElement(AmazonElement(Some(body), Some(ds + "." + rest), Some(date)))
      == Ok(RawReview(body, DigitsValue(ds) as real, date))
  {
    assert '.' !in ds by {
      assert forall i :: 0 <= i < |ds| ==> IsDigit(ds[i]);
    }
    SplitHeadAt(ds, rest, '.');
    ParseFloatOfDigits(ds);
  }

  /** The reviews of a list of elements in order; the first element that
      cannot be read raises. */
  function ReadAll<E>(es: seq<E>, read: E -> Result<RawReview>): (r: Result<seq<RawReview>>)
    ensures r.Ok? <==> forall i :: 0 <= i < |es| ==> read(es[i]).Ok?
    ensures r.Ok? ==> |r.value| == |es| && forall i :: 0 <= i < |es| ==> r.value[i] == read(es[i]).value
  {
    if es == [] then Ok([])
    else
      var last := es[|es| - 1];
      assert forall i :: 0 <= i < |es| - 1 ==> es[..|es| - 1][i] == es[i];
      match ReadAll(es[..|es| - 1], read)
      case Raised(x) => Raised(x)
      case Ok(rs) =>
        match read(last)
        case Raised(x) => Raised(x)
        case Ok(v) => Ok(rs + [v])
  }

  /** What the browser environment does for one call: whether Chrome
      starts, whether the review elements appear before the wait times out,
      and the successive results of find_elements. */
  datatype Session<E> = Session(launches: bool, loads: bool, pages: seq<seq<E>>)

  class Browser<E> {
    ghost var open: bool
    const loads: bool
    const pages: seq<seq<E>>
    var served: nat

    /** webdriver.Chrome(...) followed by driver.get(url). */
    constructor Launch(loads: bool, pages: seq<seq<E>>)
      ensures open && this.loads == loads && this.pages == pages && served == 0
    {
      this.loads := loads;
      this.pages := pages;
      served := 0;
      open := true;
    }

    /** WebDriverWait(driver, 10).until(...): false is the timeout. */
    method WaitForReviews() returns (ok: bool)
      requires open
      ensures ok == loads
    {
      ok := loads;
    }

    /** driver.find_elements(...): the next snapshot of the page, None when
        the page has nothing more to show. */
    method FindElements() returns (r: Option<seq<E>>)
      requires open
      modifies this
      ensures open && served == old(served) + 1
      ensures r == if old(served) < |pages| then Some(pages[old(served)]) else None
    {
      if served < |pages| {
        r := Some(pages[served]);
      } else {
        r := None;
      }
      served := served + 1;
    }

    /** driver.quit() */
    method Quit()
      modifies this
      ensures !open && served == old(served)
    {
      open := false;
    }
  }

  /** The for-loop over the elements: reads each in order, stopping at the
      first failure. */
  method ReadEach<E>(es: seq<E>, read: E -> Result<RawReview>) returns (r: Result<seq<RawReview>>)
    ensures r == ReadAll(es, read)
  {
    var acc: seq<RawReview> := [];
    var i := 0;
    while i < |es|
      invariant 0 <= i <= |es|
      invariant ReadAll(es[..i], read) == Ok(acc)
    {
      assert es[..i + 1][..i] == es[..i];
      var v := read(es[i]);
      if v.Raised? {
        assert ReadAll(es[..i + 1], read) == Raised(v.exc);
        ReadAllKeepsRaised(es, i + 1, read, v.exc);
        return Raised(v.exc);
      }
      acc := acc + [v.value];
      i := i + 1;
    }
    assert es[..i] == es;
    r := Ok(acc);
  }

  /** A failure in a prefix is the failure of the whole list. */
  lemma {:induction false} ReadAllKeepsRaised<E>(es: seq<E>, n: nat, read: E -> Result<RawReview>, x: Exc)
    requires n <= |es| && ReadAll(es[..n], read) == Raised(x)
    ensures ReadAll(es, read) == Raised(x)
    decreases |es| - n
  {
    if n < |es| {
      assert es[..n + 1][..n] == es[..n];
      ReadAllKeepsRaised(es, n + 1, read, x);
    } else {
      assert es[..n] == es;
    }
  }

  // ---------------------------------------------------------------------
  // Google Play: scroll until enough reviews

  /** The list the scrolling loop ends with, given the snapshots still to
      come and the reviews gathered so far: every snapshot is appended
      whole, so elements already seen are appended again. None when the
      page stops yielding snapshots or an element cannot be read. */
  function Scroll<E>(pages: seq<seq<E>>, read: E -> Result<RawReview>, limit: int, acc: seq<RawReview>)
    : (r: Option<seq<RawReview>>)
    ensures r.Some? ==> |r.value| >= limit && |acc| <= |r.value| && r.value[..|acc|] == acc
    decreases |pages|
  {
    if |acc| >= limit then Some(acc)
    else if pages == [] then None
    else
      match ReadAll(pages[0], read)
      case Raised(_) => None
      case Ok(rs) => Scroll(pages[1..], read, limit, acc + rs)
  }

  /** GooglePlayAPI.get_app_reviews: the gathered list cut to limit, []
      when anything fails. */
  function GoogleReviewsOf<E>(s: Session<E>, read: E -> Result<RawReview>, limit: int): (r: seq<RawReview>)
    ensures !s.launches || !s.loads ==> r == []
    ensures limit >= 0 ==> |r| <= limit
    ensures limit <= 0 ==> r == []
  {
    if !s.launches || !s.loads then []
    else
      match Scroll(s.pages, read, limit, [])
      case None => []
      case Some(acc) => PrefixSlice(acc, limit)
  }

  method GoogleReviews<E>(s: Session<E>, read: E -> Result<RawReview>, limit: int)
    returns (reviews: seq<RawReview>, ghost driver: Browser?<E>)
    ensures reviews == GoogleReviewsOf(s, read, limit)
    ensures (driver != null) == s.launches
    ensures driver != null ==> !driver.open
  {
    driver := null;
    if !s.launches {
      return [], driver;
    }
    var d := new Browser.Launch(s.loads, s.pages);
    driver := d;
    var ok := d.WaitForReviews();
    if !ok {
      d.Quit();
      return [], driver;
    }
    var acc: seq<RawReview> := [];
    while |acc| < limit
      invariant d.open && d.pages == s.pages && d.served <= |s.pages|
      invariant Scroll(s.pages, read, limit, []) == Scroll(s.pages[d.served..], read, limit, acc)
      decreases |s.pages| - d.served
    {
      var page := d.FindElements();
      if page.None? {
        d.Quit();
        return [], driver;
      }
      assert s.pages[d.served - 1..][1..] == s.pages[d.served..];
      var rs := ReadEach(page.value, read);
      if rs.Raised? {
        d.Quit();
        return [], driver;
      }
      acc := acc + rs.value;
    }
    reviews := PrefixSlice(acc, limit);
    d.Quit();
  }

  /** The reviews of a run of snapshots read one after the other, each
      appended whole; the first element that cannot be read raises. */
  function ReadPages<E>(pages: seq<seq<E>>, read: E -> Result<RawReview>): Result<seq<RawReview>>
  {
    if pages == [] then Ok([])
    else
      match ReadPages(pages[..|pages| - 1], read)
      case Raised(x) => Raised(x)
      case Ok(g) =>
        match ReadAll(pages[|pages| - 1], read)
        case Raised(x) => Raised(x)
        case Ok(rs) => Ok(g + rs)
  }

  /** After the first j snapshots the loop is still short of limit. */
  predicate Short<E>(pages: seq<seq<E>>, read: E -> Result<RawReview>, limit: int, j: nat)
  {
    j <= |pages| && ReadPages(pages[..j], read).Ok? && |ReadPages(pages[..j], read).value| < limit
  }

  /** k is the first number of snapshots whose reviews reach limit. */
  predicate FirstFull<E>(pages: seq<seq<E>>, read: E -> Result<RawReview>, limit: int, k: nat)
  {
    k <= |pages| && ReadPages(pages[..k], read).Ok? && |ReadPages(pages[..k], read).value| >= limit
    && forall j :: 0 <= j < k ==> Short(pages, read, limit, j)
  }

  /** While the loop stays short of limit, it reads the snapshots one by
      one and carries all their reviews. */
  lemma {:induction false} ScrollSkip<E>(pages: seq<seq<E>>, read: E -> Result<RawReview>, limit: int, j: nat)
    requires j <= |pages| && ReadPages(pages[..j], read).Ok?
    requires forall i :: 0 <= i < j ==> Short(pages, read, limit, i)
    ensures Scroll(pages, read, limit, []) == Scroll(pages[j..], read, limit, ReadPages(pages[..j], read).value)
  {
    if j == 0 {
      assert pages[..0] == [] && pages[0..] == pages;
    } else {
      assert Short(pages, read, limit, j - 1);
      ScrollSkip(pages, read, limit, j - 1);
      var g := ReadPages(pages[..j - 1], read).value;
      assert pages[..j][..j - 1] == pages[..j - 1];
      assert pages[j - 1..][0] == pages[j - 1] && pages[j - 1..][1..] == pages[j..];
    }
  }

  /** The scroll succeeds with exactly the reviews of the snapshots read
      up to the first count that reaches limit. */
  lemma {:induction false} ScrollGathers<E>(pages: seq<seq<E>>, read: E -> Result<RawReview>, limit: int, j: nat)
    requires j <= |pages| && forall i :: 0 <= i < j ==> Short(pages, read, limit, i)
    ensures Scroll(pages, read, limit, []).Some? ==>
      exists k: nat ::
        FirstFull(pages, read, limit, k) &&
        Scroll(pages, read, limit, []).value == ReadPages(pages[..k], read).value
    decreases |pages| - j
  {
    if Short(pages, read, limit, j) {
      if j == |pages| {
        ScrollSkip(pages, read, limit, j);
      } else {
        ScrollGathers(pages, read, limit, j + 1);
      }
    } else if ReadPages(pages[..j], read).Ok? {
      ScrollSkip(pages, read, limit, j);
      assert FirstFull(pages, read, limit, j);
    } else {
      assert j > 0 by {
        assert pages[..0] == [];
      }
      assert Short(pages, read, limit, j - 1);
      ScrollSkip(pages, read, limit, j - 1);
      assert pages[..j][..j - 1] == pages[..j - 1];
      assert pages[j - 1..][0] == pages[j - 1];
    }
  }

  /** get_app_reviews on Google Play returns only the first limit reviews
      of the snapshots read until limit is reached. */
  lemma GoogleOnlyGathered<E>(s: Session<E>, read: E -> Result<RawReview>, limit: int)
    requires GoogleReviewsOf(s, read, limit) != []
    ensures exists k: nat ::
      FirstFull(s.pages, read, limit, k) &&
      GoogleReviewsOf(s, read, limit) == PrefixSlice(ReadPages(s.pages[..k], read).value, limit)
  {
    ScrollGathers(s.pages, read, limit, 0);
  }

  /** Once the first k snapshots reach limit, the result is the first limit
      of their reviews, in reading order. */
  lemma GoogleGathered<E>(s: Session<E>, read: E -> Result<RawReview>, limit: int, k: nat)
    requires s.launches && s.loads && FirstFull(s.pages, read, limit, k)
    ensures GoogleReviewsOf(s, read, limit) == PrefixSlice(ReadPages(s.pages[..k], read).value, limit)
  {
    ScrollSkip(s.pages, read, limit, k);
  }

  /** An unreadable element in any snapshot read before limit is reached
      makes the whole call return []. */
  lemma GoogleReadFailure<E>(s: Session<E>, read: E -> Result<RawReview>, limit: int, k: nat, i: nat)
    requires k < |s.pages| && forall j :: 0 <= j <= k ==> Short(s.pages, read, limit, j)
    requires i < |s.pages[k]| && read(s.pages[k][i]).Raised?
    ensures GoogleReviewsOf(s, read, limit) == []
  {
    assert Short(s.pages, read, limit, k);
    ScrollSkip(s.pages, read, limit, k);
    assert s.pages[k..][0] == s.pages[k];
  }

  /** A page that stops yielding snapshots before limit is reached makes
      the whole call return []. */
  lemma GoogleRunsOut<E>(s: Session<E>, read: E -> Result<RawReview>, limit: int)
    requires forall j :: 0 <= j <= |s.pages| ==> Short(s.pages, read, limit, j)
    ensures GoogleReviewsOf(s, read, limit) == []
  {
    assert Short(s.pages, read, limit, |s.pages|);
    ScrollSkip(s.pages, read, limit, |s.pages|);
  }

  /** When the first snapshot already holds enough reviews, the result is
      its first limit reviews. */
  lemma GoogleFirstSnapshotSuffices<E>(s: Session<E>, read: E -> Result<RawReview>, limit: int, rs: seq<RawReview>)
    requires s.launches && s.loads && s.pages != []
    requires ReadAll(s.pages[0], read) == Ok(rs) && 0 <= limit <= |rs|
    ensures GoogleReviewsOf(s, read, limit) == rs[..limit]
  {
    if limit > 0 {
      assert [] + rs == rs;
      assert Scroll(s.pages[1..], read, limit, rs) == Some(rs);
    }
  }

  /** A second snapshot showing the same elements appends them again: the
      result may hold the same review twice. */
  lemma GoogleRepeatsSnapshot<E>(s: Session<E>, read: E -> Result<RawReview>, limit: int, rs: seq<RawReview>)
    requires s.launches && s.loads && |s.pages| == 2 && s.pages[0] == s.pages[1]
    requires ReadAll(s.pages[0], read) == Ok(rs) && |rs| < limit <= 2 * |rs|
    ensures GoogleReviewsOf(s, read, limit) == (rs + rs)[..limit]
  {
    assert [] + rs == rs;
    assert s.pages[1..][0] == s.pages[0];
    assert Scroll(s.pages[1..][1..], read, limit, rs + rs) == Some(rs + rs);
    assert Scroll(s.pages[1..], read, limit, rs) == Some(rs + rs);
    assert Scroll(s.pages, read, limit, []) == Some(rs + rs);
  }

  /** An element of the first snapshot that cannot be read makes the
      whole call return []. */
  lemma GoogleUnreadableElement<E>(s: Session<E>, read: E -> Result<RawReview>, limit: int, i: nat)
    requires s.pages != [] && i < |s.pages[0]| && read(s.pages[0][i]).Raised? && limit > 0
    ensures GoogleReviewsOf(s, read, limit) == []
  {
  }

  // ---------------------------------------------------------------------
  // App Store and Amazon: one snapshot, cut to limit

  /** AppleAppStoreAPI.get_app_reviews and AmazonAppStoreAPI.get_app_reviews:
      the reviews of the first limit elements of one snapshot, [] when
      anything fails. */
  function ListedReviewsOf<E>(s: Session<E>, read: E -> Result<RawReview>, limit: int): (r: seq<RawReview>)
    ensures !s.launches || !s.loads || s.pages == [] ==> r == []
    ensures limit >= 0 ==> |r| <= limit
  {
    if !s.launches || !s.loads || s.pages == [] then []
    else
      match ReadAll(PrefixSlice(s.pages[0], limit), read)
      case Raised(_) => []
      case Ok(rs) => rs
  }

  method ListedReviews<E>(s: Session<E>, read: E -> Result<RawReview>, limit: int)
    returns (reviews: seq<RawReview>, ghost driver: Browser?<E>)
    ensures reviews == ListedReviewsOf(s, read, limit)
    ensures (driver != null) == s.launches
    ensures driver != null ==> !driver.open
  {
    driver := null;
    if !s.launches {
      return [], driver;
    }
    var d := new Browser.Launch(s.loads, s.pages);
    driver := d;
    var ok := d.WaitForReviews();
    if !ok {
      d.Quit();
      return [], driver;
    }
    var page := d.FindElements();
    if page.None? {
      d.Quit();
      return [], driver;
    }
    var rs := ReadEach(PrefixSlice(page.value, limit), read);
    reviews := if rs.Raised? then [] else rs.value;
    d.Quit();
  }

  /** When every element can be read, the result is the review of each of
      the first limit elements, in page order. */
  lemma ListedReviewsAreFirstElements<E>(s: Session<E>, read: E -> Result<RawReview>, limit: int)
    requires s.launches && s.loads && s.pages != []
    requires forall i :: 0 <= i < |PrefixSlice(s.pages[0], limit)| ==> read(s.pages[0][i]).Ok?
    ensures var r := ListedReviewsOf(s, read, limit);
      |r| == |PrefixSlice(s.pages[0], limit)| &&
      forall i :: 0 <= i < |r| ==> r[i] == read(s.pages[0][i]).value
  {
    var es := PrefixSlice(s.pages[0], limit);
    assert forall i :: 0 <= i < |es| ==> es[i] == s.pages[0][i];
  }

  /** An unreadable element among the first limit makes the whole call
      return []. */
  lemma ListedUnreadableElement<E>(s: Session<E>, read: E -> Result<RawReview>, limit: int, i: nat)
    requires s.pages != [] && i < |PrefixSlice(s.pages[0], limit)| && read(s.pages[0][i]).Raised?
    ensures ListedReviewsOf(s, read, limit) == []
  {
    var es := PrefixSlice(s.pages[0], limit);
    assert es[i] == s.pages[0][i];
  }
}

=== FILE: predict.dfy ===
/** Rating prediction for one app (src/predict.py): the app's fields are
    encoded against a frozen column list, the regressor is applied and its
    output is rounded and clamped to the rating scale. The regressor is an
    opaque function from a feature row to a number. */
module Predict {
  import opened Wrappers
  import opened PyStr
  import opened Ordering
  import opened PyDict
  import opened Preprocessor

  const AppTypes: seq<string> :=
    ["communication", "education", "entertainment", "music", "productivity", "social", "travel", "video"]

  const Stores: seq<string> := ["amazon", "apple", "google_play"]

  /** The column order the saved model was trained on: the numeric
      features, then app_type_ before each app type and store_ before each
      store. FeaturesAsWritten spells the fourteen names out. */
  const Features: seq<string> := NumericFeatures + Prefixed("app_type_", AppTypes) + Prefixed("store_", Stores)

  lemma FeaturesAsWritten()
    ensures Features == [
      "app_size_mb", "price_usd", "downloads",
      "app_type_communication", "app_type_education",
      "app_type_entertainment", "app_type_music",
      "app_type_productivity", "app_type_social",
      "app_type_travel", "app_type_video",
      "store_amazon", "store_apple", "store_google_play"]
  {
    AppTypeColumnsLow();
    AppTypeColumnsHigh();
    StoreColumns();
  }

  lemma AppTypeColumnsLow()
    ensures Features[3] == "app_type_communication" && Features[4] == "app_type_education"
    ensures Features[5] == "app_type_entertainment" && Features[6] == "app_type_music"
  {
    assert Features[3] == "app_type_" + "communication";
    assert Features[4] == "app_type_" + "education";
    assert Features[5] == "app_type_" + "entertainment";
    assert Features[6] == "app_type_" + "music";
  }

  lemma AppTypeColumnsHigh()
    ensures Features[7] == "app_type_productivity" && Features[8] == "app_type_social"
    ensures Features[9] == "app_type_travel" && Features[10] == "app_type_video"
  {
    assert Features[7] == "app_type_" + "productivity";
    assert Features[8] == "app_type_" + "social";
    assert Features[9] == "app_type_" + "travel";
    assert Features[10] == "app_type_" + "video";
  }

  lemma StoreColumns()
    ensures Features[11] == "store_amazon" && Features[12] == "store_apple" && Features[13] == "store_google_play"
  {
    assert Features[11] == "store_" + "amazon";
    assert Features[12] == "store_" + "apple";
    assert Features[13] == "store_" + "google_play";
  }

  lemma AppTypesIncreasing()
    ensures StrictlyIncreasing(AppTypes)
  {
    assert StrLt(AppTypes[0], AppTypes[1]);
    assert StrLe(AppTypes[1][1..], AppTypes[2][1..]);
    assert StrLt(AppTypes[1], AppTypes[2]);
    assert StrLt(AppTypes[2], AppTypes[3]);
    assert StrLt(AppTypes[3], AppTypes[4]);
    assert StrLt(AppTypes[4], AppTypes[5]);
    assert StrLt(AppTypes[5], AppTypes[6]);
    assert StrLt(AppTypes[6], AppTypes[7]);
    IncreasingOfAdjacent(AppTypes);
  }

  lemma StoresIncreasing()
    ensures StrictlyIncreasing(Stores)
  {
    assert StrLe(Stores[0][1..], Stores[1][1..]);
    assert StrLt(Stores[0], Stores[1]);
    assert StrLt(Stores[1], Stores[2]);
    IncreasingOfAdjacent(Stores);
  }

  /** The layout agreement between training and inference: whenever the
      training table holds exactly the eight app types and the three
      stores, the columns get_dummies produces are the frozen list, in the
      same order. */
  lemma TrainingColumnsAreFeatures(types: seq<string>, stores: seq<string>)
    requires forall t :: t in types <==> t in AppTypes
    requires forall s :: s in stores <==> s in Stores
    ensures DummyColumns(types, stores) == Features
  {
    AppTypesIncreasing();
    StoresIncreasing();
    IncreasingUnique(SortedDistinct(types), AppTypes);
    IncreasingUnique(SortedDistinct(stores), Stores);
  }

  // ---------------------------------------------------------------------
  // The input record

  /** A value of the app_data dict: a number, or text. */
  datatype Value = Number(n: real) | Text(s: string)

  type AppData = Dict<string, Value>

  /** float(app_data[key]) */
  function FloatField(appData: AppData, key: string): (r: Result<real>)
    ensures key !in Keys(appData) ==> r == Raised(KeyError)
    ensures key in Keys(appData) && Get(appData, key).value.Number? ==> r == Ok(Get(appData, key).value.n)
    ensures key in Keys(appData) && Get(appData, key).value.Text? ==>
      match ParseFloat(Get(appData, key).value.s)
      case None => r == Raised(ValueError)
      case Some(x) => r == Ok(x)
  {
    match Get<string, Value>(appData, key)
    case None => Raised(KeyError)
    case Some(Number(x)) => Ok(x)
    case Some(Text(s)) =>
      match ParseFloat(s)
      case None => Raised(ValueError)
      case Some(x) => Ok(x)
  }

  /** app_data[key].lower(); a number has no lower(). */
  function LowerField(appData: AppData, key: string): (r: Result<string>)
    ensures key !in Keys(appData) ==> r == Raised(KeyError)
    ensures key in Keys(appData) && Get(appData, key).value.Number? ==> r == Raised(AttributeError)
    ensures key in Keys(appData) && Get(appData, key).value.Text? ==>
      r == Ok(Lower(Get(appData, key).value.s))
    ensures r.Ok? ==> Lower(r.value) == r.value
  {
    match Get<string, Value>(appData, key)
    case None => Raised(KeyError)
    case Some(Number(_)) => Raised(AttributeError)
    case Some(Text(s)) =>
      LowerIdempotent(s);
      Ok(Lower(s))
  }

  /** The five fields the encoder reads, converted. */
  datatype Inputs = Inputs(size: real, price: real, downloads: real, appType: string, store: string)

  /** The fields read in the order _create_features reads them; the first
      that is missing or does not convert raises. */
  function ReadInputs(appData: AppData): (r: Result<Inputs>)
    ensures r.Ok? <==>
      && FloatField(appData, "app_size_mb").Ok? && FloatField(appData, "price_usd").Ok?
      && FloatField(appData, "downloads").Ok? && LowerField(appData, "app_type").Ok?
      && LowerField(appData, "store").Ok?
  {
    match FloatField(appData, "app_size_mb")
    case Raised(e) => Raised(e)
    case Ok(size) =>
      match FloatField(appData, "price_usd")
      case Raised(e) => Raised(e)
      case Ok(price) =>
        match FloatField(appData, "downloads")
        case Raised(e) => Raised(e)
        case Ok(downloads) =>
          match LowerField(appData, "app_type")
          case Raised(e) => Raised(e)
          case Ok(appType) =>
            match LowerField(appData, "store")
            case Raised(e) => Raised(e)
            case Ok(store) => Ok(Inputs(size, price, downloads, appType, store))
  }

  /** The feature row of converted inputs, laid out as the frozen list: the
      numbers, then the app type indicators, then the store indicators. */
  function Encoded(inp: Inputs): seq<real>
  {
    [inp.size, inp.price, inp.downloads] + Indicator(Some(inp.appType), AppTypes) + Indicator(Some(inp.store), Stores)
  }

  /** The feature row _create_features returns for app_data. */
  function CreatedFeatures(appData: AppData): Result<seq<real>>
  {
    match ReadInputs(appData)
    case Raised(e) => Raised(e)
    case Ok(inp) => Ok(Encoded(inp))
  }

  /** What the encoder logs at warning level. */
  datatype Warning = UnknownAppType(appType: string) | UnknownStore(store: string)

  /** The warning logged for an app type, if any. */
  function TypeWarnings(t: string): (w: seq<Warning>)
    ensures w == [] <==> t in AppTypes
    ensures t !in AppTypes ==> w == [UnknownAppType(t)]
  {
    if t in AppTypes then [] else [UnknownAppType(t)]
  }

  /** The warning logged for a store, if any. */
  function StoreWarnings(s: string): (w: seq<Warning>)
    ensures w == [] <==> s in Stores
    ensures s !in Stores ==> w == [UnknownStore(s)]
  {
    if s in Stores then [] else [UnknownStore(s)]
  }

  /** The warnings logged while encoding: one per unknown app type or
      store, as far as encoding got before raising. */
  function Warnings(appData: AppData): seq<Warning>
  {
    if !(FloatField(appData, "app_size_mb").Ok? && FloatField(appData, "price_usd").Ok?
         && FloatField(appData, "downloads").Ok? && LowerField(appData, "app_type").Ok?)
    then []
    else
      TypeWarnings(LowerField(appData, "app_type").value) +
      match LowerField(appData, "store")
      case Raised(_) => []
      case Ok(s) => StoreWarnings(s)
  }

  lemma EncodedParts(inp: Inputs)
    ensures var v := Encoded(inp);
      && |v| == |Features| == 14
      && v[..3] == [inp.size, inp.price, inp.downloads]
      && v[3..11] == Indicator(Some(inp.appType), AppTypes)
      && v[11..] == Indicator(Some(inp.store), Stores)
  {
  }

  /** The encoded row has the 14 columns and its numbers are the converted
      inputs; exactly one app type indicator is set when the lower-cased
      app type is known and none otherwise, and the same for the store. */
  lemma EncodedGroups(inp: Inputs)
    ensures var v := Encoded(inp);
      && |v| == |Features|
      && v[..3] == [inp.size, inp.price, inp.downloads]
      && Ones(v[3..11]) == (if inp.appType in AppTypes then 1 else 0)
      && Ones(v[11..]) == (if inp.store in Stores then 1 else 0)
  {
    EncodedParts(inp);
    AppTypesIncreasing();
    StoresIncreasing();
    IndicatorOnes(Some(inp.appType), AppTypes);
    IndicatorOnes(Some(inp.store), Stores);
  }

  /** An indicator of the encoded row is set exactly under the column of
      the row's own app type or store, and every indicator is 0 or 1. */
  lemma EncodedIndicators(inp: Inputs)
    ensures var v := Encoded(inp);
      && |v| == |Features|
      && (forall j :: 3 <= j < |v| ==> (v[j] == 1.0 <==> Features[j] == "app_type_" + inp.appType || Features[j] == "store_" + inp.store))
      && (forall j :: 3 <= j < |v| ==> v[j] == 0.0 || v[j] == 1.0)
  {
    var v := Encoded(inp);
    EncodedParts(inp);
    forall j | 3 <= j < 14
      ensures v[j] == 1.0 <==> Features[j] == "app_type_" + inp.appType || Features[j] == "store_" + inp.store
      ensures v[j] == 0.0 || v[j] == 1.0
    {
      IndicatorAt(inp, j);
    }
  }

  lemma IndicatorAt(inp: Inputs, j: int)
    requires 3 <= j < 14
    ensures var v := Encoded(inp);
      && |v| == 14
      && (v[j] == 1.0 <==> Features[j] == "app_type_" + inp.appType || Features[j] == "store_" + inp.store)
      && (v[j] == 0.0 || v[j] == 1.0)
  {
    var v := Encoded(inp);
    EncodedParts(inp);
    if j < 11 {
      TypeKeyAt(j, inp.appType, inp.store);
      assert v[j] == v[3..11][j - 3];
    } else {
      StoreKeyAt(j, inp.appType, inp.store);
      assert v[j] == v[11..][j - 11];
    }
  }

  /** Training and inference encode alike: when the combined table holds
      exactly the eight app types and the three stores, get_training_data
      lays out the frozen feature columns, and its row i, for a row with a
      size, a price and an app type, holds the numbers of that row followed
      by the same indicator cells the inference encoder gives for the same
      values. */
  lemma TrainingRowMatchesInference(rows: seq<Row>, i: nat, size: real, price: real)
    requires i < |rows|
    requires forall t :: t in Present(CatColumn(rows, AppType)) <==> t in AppTypes
    requires forall s :: s in StoreColumn(rows) <==> s in Stores
    requires rows[i].appSizeMb == Some(size) && rows[i].priceUsd == Some(price) && rows[i].appType.Some?
    ensures var d := Encode(rows);
      var dl := rows[i].downloads as real;
      && d.columns == Features
      && d.x[i].numeric == [Some(size), Some(price), Some(dl)]
      && [size, price, dl] + d.x[i].appTypes + d.x[i].stores ==
           Encoded(Inputs(size, price, dl, rows[i].appType.value, rows[i].store))
  {
    EncodeAt(rows, i);
    TrainingColumnsAreFeatures(Present(CatColumn(rows, AppType)), StoreColumn(rows));
    AppTypesIncreasing();
    StoresIncreasing();
    IncreasingUnique(TypeVocab(rows), AppTypes);
    IncreasingUnique(StoreVocab(rows), Stores);
  }

  // ---------------------------------------------------------------------
  // Building the row step by step

  /** pd.DataFrame([d])[cols]: the values of d under cols, in that order. */
  function Project(d: Dict<string, real>, cols: seq<string>): (row: seq<real>)
    requires forall k :: k in cols ==> k in Keys(d)
    ensures |row| == |cols| && forall i :: 0 <= i < |cols| ==> Get(d, cols[i]) == Some(row[i])
  {
    seq(|cols|, i requires 0 <= i < |cols| => Get(d, cols[i]).value)
  }

  lemma TypeFeature(j: int)
    requires 3 <= j < 11
    ensures Features[j] == "app_type_" + AppTypes[j - 3] && Features[j][0] == 'a' && Features[j][4] == 't'
  {
  }

  lemma StoreFeature(j: int)
    requires 11 <= j < 14
    ensures Features[j] == "store_" + Stores[j - 11] && Features[j][0] == 's'
  {
  }

  /** A number's column is neither an app type key nor a store key. */
  lemma NumberNotGroupKey(j: int, t: string, s: string)
    requires 0 <= j < 3
    ensures Features[j] == NumericFeatures[j]
    ensures Features[j] != "app_type_" + t && Features[j] != "store_" + s
  {
    var tk := "app_type_" + t;
    var sk := "store_" + s;
    assert tk[0] == 'a' && tk[4] == 't' && sk[0] == 's';
    assert Features[0][4] == 's' && Features[1][0] == 'p' && Features[2][0] == 'd';
  }

  /** The columns after the numbers are not a number's key. */
  lemma NotNumberKey(j: int)
    requires 3 <= j < 14
    ensures Features[j] != "app_size_mb" && Features[j] != "price_usd" && Features[j] != "downloads"
  {
    if j < 11 {
      TypeFeature(j);
    } else {
      StoreFeature(j);
    }
  }

  /** An app type column is the key of app type t exactly when it is the
      column of t, and never the key of a store. */
  lemma TypeKeyAt(j: int, t: string, s: string)
    requires 3 <= j < 11
    ensures Features[j] == "app_type_" + t <==> AppTypes[j - 3] == t
    ensures Features[j] != "store_" + s
  {
    TypeFeature(j);
    if Features[j] == "app_type_" + t {
      PrefixCancel("app_type_", AppTypes[j - 3], t);
    }
    assert ("store_" + s)[0] == 's';
  }

  /** A store column is the key of store s exactly when it is the column of
      s, and never the key of an app type. */
  lemma StoreKeyAt(j: int, t: string, s: string)
    requires 11 <= j < 14
    ensures Features[j] == "store_" + s <==> Stores[j - 11] == s
    ensures Features[j] != "app_type_" + t
  {
    StoreFeature(j);
    if Features[j] == "store_" + s {
      PrefixCancel("store_", Stores[j - 11], s);
    }
    assert ("app_type_" + t)[0] == 'a';
  }

  /** The key of an app type is among the features exactly when the app
      type is a known one. */
  lemma TypeKeyKnown(t: string)
    ensures "app_type_" + t in Features <==> t in AppTypes
  {
    forall j | 0 <= j < 14
      ensures Features[j] == "app_type_" + t <==> 3 <= j < 11 && AppTypes[j - 3] == t
    {
      if j < 3 {
        NumberNotGroupKey(j, t, "");
      } else if j < 11 {
        TypeKeyAt(j, t, "");
      } else {
        StoreKeyAt(j, t, "");
      }
    }
    if t in AppTypes {
      var i :| 0 <= i < 8 && AppTypes[i] == t;
      assert Features[i + 3] == "app_type_" + t;
    }
  }

  /** The key of a store is among the features exactly when the store is
      a known one. */
  lemma StoreKeyKnown(s: string)
    ensures "store_" + s in Features <==> s in Stores
  {
    forall j | 0 <= j < 14
      ensures Features[j] == "store_" + s <==> 11 <= j && Stores[j - 11] == s
    {
      if j < 3 {
        NumberNotGroupKey(j, "", s);
      } else if j < 11 {
        TypeKeyAt(j, "", s);
      } else {
        StoreKeyAt(j, "", s);
      }
    }
    if s in Stores {
      var i :| 0 <= i < 3 && Stores[i] == s;
      assert Features[i + 11] == "store_" + s;
    }
  }

  /** The numbers' keys are features. */
  lemma NumbersAreFeatures()
    ensures "app_size_mb" in Features && "price_usd" in Features && "downloads" in Features
  {
    NumberNotGroupKey(0, "", "");
    NumberNotGroupKey(1, "", "");
    NumberNotGroupKey(2, "", "");
  }

  /** The value each feature holds once the numbers and the indicators of
      inp have been written into the zero dict. */
  function Expected(inp: Inputs, k: string): real
  {
    if k == "app_size_mb" then inp.size
    else if k == "price_usd" then inp.price
    else if k == "downloads" then inp.downloads
    else if k == "app_type_" + inp.appType || k == "store_" + inp.store then 1.0
    else 0.0
  }

  /** Feature by feature, the value written into the dict is the cell of
      the encoded row. */
  lemma ExpectedAt(inp: Inputs, j: int)
    requires 0 <= j < 14
    ensures |Encoded(inp)| == 14 && Expected(inp, Features[j]) == Encoded(inp)[j]
  {
    var v := Encoded(inp);
    EncodedParts(inp);
    if j < 3 {
      NumberNotGroupKey(j, inp.appType, inp.store);
      assert v[j] == v[..3][j];
    } else {
      NotNumberKey(j);
      IndicatorAt(inp, j);
    }
  }

  /** Reading the dict back in feature order gives the encoded row. */
  lemma ProjectExpected(inp: Inputs, d: Dict<string, real>)
    requires Keys(d) == Features
    requires forall k :: k in Features ==> Get(d, k) == Some(Expected(inp, k))
    ensures Project(d, Features) == Encoded(inp)
  {
    var row := Project(d, Features);
    var v := Encoded(inp);
    forall j | 0 <= j < |Features| ensures row[j] == v[j] {
      assert Features[j] in Features;
      ExpectedAt(inp, j);
    }
  }

  /** The dict _create_features has filled in for converted inputs: zeros
      under keys, the three numbers, then the indicator of the app type and
      of the store when their keys are among keys. */
  ghost function Built(keys: seq<string>, inp: Inputs): Dict<string, real>
  {
    var d3 := WithNumbers(keys, inp.size, inp.price, inp.downloads);
    var d4 := if "app_type_" + inp.appType in keys then Put(d3, "app_type_" + inp.appType, 1.0) else d3;
    if "store_" + inp.store in keys then Put(d4, "store_" + inp.store, 1.0) else d4
  }

  /** The zero dict with the three numbers written in. */
  ghost function WithNumbers(keys: seq<string>, size: real, price: real, downloads: real): Dict<string, real>
  {
    Put(Put(Put(FromKeys(keys, 0.0), "app_size_mb", size), "price_usd", price), "downloads", downloads)
  }

  /** Writing the numbers adds no key when their keys are already there. */
  lemma NumbersKeys(keys: seq<string>, size: real, price: real, downloads: real)
    requires "app_size_mb" in keys && "price_usd" in keys && "downloads" in keys
    ensures Keys(WithNumbers(keys, size, price, downloads)) == keys
  {
  }

  /** The keys written into the dict are pairwise different. */
  lemma WrittenKeysDistinct(t: string, s: string)
    ensures var tk := "app_type_" + t; var sk := "store_" + s;
      && tk != sk
      && tk != "app_size_mb" && tk != "price_usd" && tk != "downloads"
      && sk != "app_size_mb" && sk != "price_usd" && sk != "downloads"
  {
    var tk := "app_type_" + t;
    var sk := "store_" + s;
    assert tk[0] == 'a' && tk[4] == 't' && sk[0] == 's';
    assert "app_size_mb"[4] == 's';
  }

  lemma BuiltGet(keys: seq<string>, inp: Inputs, k: string)
    requires k in keys
    ensures Get(Built(keys, inp), k) == Some(Expected(inp, k))
  {
    var tk := "app_type_" + inp.appType;
    var sk := "store_" + inp.store;
    var d0 := FromKeys(keys, 0.0);
    var d1 := Put(d0, "app_size_mb", inp.size);
    var d2 := Put(d1, "price_usd", inp.price);
    var d3 := Put(d2, "downloads", inp.downloads);
    var d4 := if tk in keys then Put(d3, tk, 1.0) else d3;
    WrittenKeysDistinct(inp.appType, inp.store);
    GetFromKeys(keys, 0.0, k);
    GetPut(d0, "app_size_mb", inp.size, k);
    GetPut(d1, "price_usd", inp.price, k);
    GetPut(d2, "downloads", inp.downloads, k);
    var n := if k == "app_size_mb" then inp.size else if k == "price_usd" then inp.price
      else if k == "downloads" then inp.downloads else 0.0;
    assert Get(d3, k) == Some(n);
    if tk in keys {
      GetPut(d3, tk, 1.0, k);
    }
    assert Get(d4, k) == if k == tk then Some(1.0) else Some(n);
    if sk in keys {
      GetPut(d4, sk, 1.0, k);
    }
    assert Built(keys, inp) == if sk in keys then Put(d4, sk, 1.0) else d4;
    assert Get(Built(keys, inp), k) == if k == sk || k == tk then Some(1.0) else Some(n);
    assert Expected(inp, k) == if k == sk || k == tk then 1.0 else n;
  }

  /** The filled dict has the features as its keys, in order, and reads
      back as the encoded row. */
  lemma BuiltRow(inp: Inputs)
    ensures Keys(Built(Features, inp)) == Features
    ensures Project(Built(Features, inp), Features) == Encoded(inp)
  {
    forall k | k in Features ensures Get(Built(Features, inp), k) == Some(Expected(inp, k)) {
      BuiltGet(Features, inp, k);
    }
    ProjectExpected(inp, Built(Features, inp));
  }

  /** Once every field has been read and converted, the row is the
      encoding of the inputs and the warnings are those of the app type
      and of the store. */
  lemma CreatedFromInputs(appData: AppData, inp: Inputs)
    requires FloatField(appData, "app_size_mb") == Ok(inp.size)
    requires FloatField(appData, "price_usd") == Ok(inp.price)
    requires FloatField(appData, "downloads") == Ok(inp.downloads)
    requires LowerField(appData, "app_type") == Ok(inp.appType)
    requires LowerField(appData, "store") == Ok(inp.store)
    ensures CreatedFeatures(appData) == Ok(Encoded(inp))
    ensures Warnings(appData) == TypeWarnings(inp.appType) + StoreWarnings(inp.store)
  {
  }

  /** Fields are read in order and the first one missing or unconvertible
      raises; only an app type read before the failure can have been
      warned about. */
  lemma ErrorsInFieldOrder(appData: AppData)
    ensures var size := FloatField(appData, "app_size_mb");
      size.Raised? ==> CreatedFeatures(appData) == Raised(size.exc) && Warnings(appData) == []
    ensures var size := FloatField(appData, "app_size_mb"); var price := FloatField(appData, "price_usd");
      size.Ok? && price.Raised? ==> CreatedFeatures(appData) == Raised(price.exc) && Warnings(appData) == []
    ensures var size := FloatField(appData, "app_size_mb"); var price := FloatField(appData, "price_usd");
      var downloads := FloatField(appData, "downloads");
      size.Ok? && price.Ok? && downloads.Raised? ==> CreatedFeatures(appData) == Raised(downloads.exc) && Warnings(appData) == []
    ensures var size := FloatField(appData, "app_size_mb"); var price := FloatField(appData, "price_usd");
      var downloads := FloatField(appData, "downloads"); var appType := LowerField(appData, "app_type");
      size.Ok? && price.Ok? && downloads.Ok? && appType.Raised? ==>
        CreatedFeatures(appData) == Raised(appType.exc) && Warnings(appData) == []
    ensures var size := FloatField(appData, "app_size_mb"); var price := FloatField(appData, "price_usd");
      var downloads := FloatField(appData, "downloads"); var appType := LowerField(appData, "app_type");
      var store := LowerField(appData, "store");
      size.Ok? && price.Ok? && downloads.Ok? && appType.Ok? && store.Raised? ==>
        CreatedFeatures(appData) == Raised(store.exc) && Warnings(appData) == TypeWarnings(appType.value)
  {
  }

  /** if col in features: features[col] = 1 */
  method SetIndicator(d: Dict<string, real>, col: string) returns (d': Dict<string, real>, known: bool)
    ensures known == (col in Keys(d))
    ensures d' == if known then Put(d, col, 1.0) else d
  {
    known := col in Keys(d);
    d' := d;
    if known {
      d' := Put(d, col, 1.0);
    }
  }

  class AppRatingPredictor {
    /** The loaded regressor: model.predict on a one-row frame. */
    const model: seq<real> -> real

    /** self.features: the column order of the saved model. */
    const features: seq<string>

    /** AppRatingPredictor() with the model it loaded. */
    constructor (model: seq<real> -> real)
      ensures this.model == model && Valid()
    {
      this.model := model;
      features := Features;
    }

    predicate Valid()
    {
      features == Features
    }

    /** _create_features: a dict of zeros over the features, the numbers
        written in, the one indicator of a known app type and of a known
        store set (an unknown one is only logged), then read back in
        feature order. A missing or unconvertible field raises. */
    method CreateFeatures(appData: AppData) returns (r: Result<seq<real>>, warnings: seq<Warning>)
      requires Valid()
      ensures r == CreatedFeatures(appData)
      ensures warnings == Warnings(appData)
    {
      ErrorsInFieldOrder(appData);
      warnings := [];
      var features := FromKeys(this.features, 0.0);
      var size := FloatField(appData, "app_size_mb");
      if size.Raised? {
        return Raised(size.exc), warnings;
      }
      var price := FloatField(appData, "price_usd");
      if price.Raised? {
        return Raised(price.exc), warnings;
      }
      var downloads := FloatField(appData, "downloads");
      if downloads.Raised? {
        return Raised(downloads.exc), warnings;
      }
      features := Put(features, "app_size_mb", size.value);
      features := Put(features, "price_usd", price.value);
      features := Put(features, "downloads", downloads.value);
      assert features == WithNumbers(this.features, size.value, price.value, downloads.value);
      NumbersAreFeatures();
      NumbersKeys(this.features, size.value, price.value, downloads.value);
      var appType := LowerField(appData, "app_type");
      if appType.Raised? {
        return Raised(appType.exc), warnings;
      }
      var known;
      features, known := SetIndicator(features, "app_type_" + appType.value);
      TypeKeyKnown(appType.value);
      warnings := if known then [] else [UnknownAppType(appType.value)];
      assert warnings == TypeWarnings(appType.value);
      var store := LowerField(appData, "store");
      if store.Raised? {
        return Raised(store.exc), warnings;
      }
      features, known := SetIndicator(features, "store_" + store.value);
      warnings := warnings + if known then [] else [UnknownStore(store.value)];
      ghost var inp := Inputs(size.value, price.value, downloads.value, appType.value, store.value);
      StoreKeyKnown(inp.store);
      CreatedFromInputs(appData, inp);
      assert features == Built(this.features, inp);
      BuiltRow(inp);
      r := Ok(Project(features, this.features));
    }

    /** predict_rating: the model's output for the encoded row, rounded to
        two decimals and clamped to [1.0, 5.0]; an encoding error is
        re-raised. */
    method PredictRating(appData: AppData) returns (r: Result<real>)
      requires Valid()
      ensures r == PredictedRating(model, appData)
    {
      var x, _ := CreateFeatures(appData);
      if x.Raised? {
        return Raised(x.exc);
      }
      r := Ok(Clamp(Round2(model(x.value))));
    }
  }

  // ---------------------------------------------------------------------
  // Rounding and clamping

  /** round(y) for a real: to the nearest integer, ties to the even one. */
  function RoundHalfEven(y: real): (n: int)
    ensures y - 0.5 <= n as real <= y + 0.5
    ensures y - y.Floor as real != 0.5 ==> y - 0.5 < n as real < y + 0.5
    ensures y - y.Floor as real == 0.5 ==> n % 2 == 0
  {
    var f := y.Floor;
    var frac := y - f as real;
    if frac < 0.5 then f
    else if frac > 0.5 then f + 1
    else if f % 2 == 0 then f else f + 1
  }

  /** round(x, 2) */
  function Round2(x: real): (y: real)
    ensures x - 0.005 <= y <= x + 0.005
    ensures (y * 100.0).Floor as real == y * 100.0
  {
    var n := RoundHalfEven(x * 100.0);
    assert (n as real / 100.0) * 100.0 == n as real;
    n as real / 100.0
  }

  /** max(1.0, min(5.0, x)) */
  function Clamp(x: real): (y: real)
  {
    if x > 5.0 then 5.0 else if x < 1.0 then 1.0 else x
  }

  function PredictedRating(model: seq<real> -> real, appData: AppData): Result<real>
  {
    match CreatedFeatures(appData)
    case Raised(e) => Raised(e)
    case Ok(x) => Ok(Clamp(Round2(model(x))))
  }

  /** Every predicted rating lies on the rating scale, and is the rounded
      model output whenever that output is on the scale already. */
  lemma PredictedRatingOnScale(model: seq<real> -> real, appData: AppData)
    requires PredictedRating(model, appData).Ok?
    ensures var y := PredictedRating(model, appData).value;
      && 1.0 <= y <= 5.0
      && (1.0 <= Round2(model(CreatedFeatures(appData).value)) <= 5.0 ==>
            y == Round2(model(CreatedFeatures(appData).value)))
  {
  }

  /** A model output with at most two decimals is kept as it is. */
  lemma Round2OfHundredths(n: int)
    ensures Round2(n as real / 100.0) == n as real / 100.0
  {
    assert (n as real / 100.0) * 100.0 == n as real;
    assert (n as real).Floor == n;
  }

  /** Encoding errors propagate: without the field, predict_rating raises
      KeyError. */
  lemma MissingFieldRaises(model: seq<real> -> real, appData: AppData)
    requires "app_size_mb" !in Keys(appData)
    ensures PredictedRating(model, appData) == Raised(KeyError)
  {
  }
}

=== FILE: preprocessor.dfy ===
/** DataPreprocessor (src/data/preprocessor.py): the cleaners that turn the
    stores' text cells into numbers, the combination of the three store
    tables, the gap filling over the combined table and the one-hot
    training encoding. A pandas cell is an Option: None is NaN, and for the
    text columns also any cell that is not a str. */
module Preprocessor {
  import opened Wrappers
  import opened PyStr
  import opened Ordering
  import opened Stats
  import opened PyDict

  // ---------------------------------------------------------------------
  // Cleaners

  /** clean_app_size: float() of the text with every " MB" removed; NaN
      when that raises (a "GB" size, a missing cell). */
  function CleanAppSize(cell: Option<string>): Option<real>
  {
    match cell
    case None => None
    case Some(s) => ParseFloat(RemoveAll(s, " MB"))
  }

  lemma {:induction false} RemoveUnitSuffix(ds: string, unit: string)
    requires AllDigits(ds) && unit != [] && !IsDigit(unit[0])
    ensures RemoveAll(ds + unit, unit) == ds
  {
    if ds == [] {
      assert (ds + unit)[|unit|..] == [];
      assert ds + unit == unit;
    } else {
      assert (ds + unit)[..|unit|][0] == ds[0];
      assert (ds + unit)[1..] == ds[1..] + unit;
      RemoveUnitSuffix(ds[1..], unit);
    }
  }

  /** "<digits> MB" is read as that many megabytes. */
  lemma CleanAppSizeMb(ds: string)
    requires AllDigits(ds) && ds != []
    ensures CleanAppSize(Some(ds + " MB")) == Some(DigitsValue(ds) as real)
  {
    RemoveUnitSuffix(ds, " MB");
    ParseFloatOfDigits(ds);
  }

  /** A size in any other unit is not converted: it becomes NaN. */
  lemma CleanAppSizeOtherUnit(ds: string)
    requires AllDigits(ds)
    ensures CleanAppSize(Some(ds + " GB")) == None
  {
    var s := ds + " GB";
    assert s[|ds| + 1] == 'G';
    RemoveAllKeeps(s, " MB", 'G');
    ParseFloatRejectsStray(RemoveAll(s, " MB"), 'G');
  }

  /** clean_app_price: 0.0 for exactly "Free" or "Free with In-App
      Purchases", else float() of the text without '$', NaN when that
      raises. */
  function CleanAppPrice(cell: Option<string>): (r: Option<real>)
    ensures cell == Some("Free") || cell == Some("Free with In-App Purchases") ==> r == Some(0.0)
    ensures cell.Some? && cell.value != "Free" && cell.value != "Free with In-App Purchases" ==>
      r == ParseFloat(RemoveAll(cell.value, "$"))
  {
    match cell
    case None => None
    case Some(s) =>
      if s == "Free" || s == "Free with In-App Purchases" then Some(0.0)
      else ParseFloat(RemoveAll(s, "$"))
  }

  /** "$<ip>.<fp>", such as "$4.99", is read as that many dollars. */
  lemma CleanAppPriceDecimal(ip: string, fp: string)
    requires AllDigits(ip) && AllDigits(fp) && ip != []
    ensures CleanAppPrice(Some("$" + ip + "." + fp)) == Some(DecimalValue(ip, fp))
  {
    var s := "$" + ip + "." + fp;
    assert s != "Free" && s != "Free with In-App Purchases" by {
      assert s[0] == '$';
    }
    DollarsRemoved(ip, fp);
    ParseFloatOfDecimal(ip, fp);
  }

  /** Any other wording with a letter or another stray character is NaN,
      "free" and "Free " included. */
  lemma CleanAppPriceOnlyExactFree(s: string, c: char)
    requires s != "Free" && s != "Free with In-App Purchases"
    requires c in s && Stray(c) && c != '$'
    ensures CleanAppPrice(Some(s)) == None
  {
    RemoveAllKeeps(s, "$", c);
    ParseFloatRejectsStray(RemoveAll(s, "$"), c);
  }

  /** "$<digits>" is read as that many dollars. */
  lemma CleanAppPriceDollars(ds: string)
    requires AllDigits(ds) && ds != []
    ensures CleanAppPrice(Some("$" + ds)) == Some(DigitsValue(ds) as real)
  {
    var s := "$" + ds;
    assert s != "Free" && s != "Free with In-App Purchases" by {
      assert s[0] == '$';
    }
    RemoveCharAppend("$", ds, '$');
    assert RemoveAll("$", "$") == [];
    assert '$' !in ds by {
      assert forall i :: 0 <= i < |ds| ==> IsDigit(ds[i]);
    }
    RemoveCharAbsent(ds, '$');
    ParseFloatOfDigits(ds);
  }

  /** The multiplier of the first of K, M, B (in that order) found anywhere
      in the text. */
  function Multiplier(s: string): int
  {
    if 'K' in s then 1000 else if 'M' in s then 1000000 else if 'B' in s then 1000000000 else 1
  }

  /** int() of a real: truncation towards zero. */
  function TruncZero(x: real): (n: int)
    ensures x >= 0.0 ==> n == x.Floor
    ensures x < 0.0 ==> n == -((-x).Floor)
  {
    if x >= 0.0 then x.Floor else -((-x).Floor)
  }

  /** downloads_str.replace('+', '').split('K')[0].split('M')[0].split('B')[0] */
  function DownloadsMagnitude(s: string): string
  {
    SplitHead(SplitHead(SplitHead(RemoveAll(s, "+"), 'K'), 'M'), 'B')
  }

  /** int(number * mult) with the multiplier of the text. */
  function Scaled(number: real, s: string): int
  {
    TruncZero(number * Multiplier(s) as real)
  }

  /** clean_downloads: the magnitude times the multiplier, truncated; 0
      when float() raises or the cell is not a str. */
  function CleanDownloads(cell: Option<string>): int
  {
    match cell
    case None => 0
    case Some(s) =>
      match ParseFloat(DownloadsMagnitude(s))
      case None => 0
      case Some(number) => Scaled(number, s)
  }

  lemma DigitsNotIn(ds: string, c: char)
    requires AllDigits(ds) && !IsDigit(c)
    ensures c !in ds
  {
    assert forall i :: 0 <= i < |ds| ==> IsDigit(ds[i]);
  }

  lemma PlusRemoved(ds: string, m: char)
    requires AllDigits(ds) && m != '+'
    ensures RemoveAll(ds + [m] + "+", "+") == ds + [m]
  {
    RemoveCharAppend(ds + [m], "+", '+');
    assert RemoveAll("+", "+") == [];
    DigitsNotIn(ds, '+');
    assert '+' !in ds + [m];
    RemoveCharAbsent(ds + [m], '+');
  }

  lemma UnitSplitOff(ds: string, m: char)
    requires AllDigits(ds) && (m == 'K' || m == 'M' || m == 'B')
    ensures SplitHead(SplitHead(SplitHead(ds + [m], 'K'), 'M'), 'B') == ds
  {
    DigitsNotIn(ds, 'K');
    DigitsNotIn(ds, 'M');
    DigitsNotIn(ds, 'B');
    assert ds + [m] == ds + [m] + [];
    if m == 'K' {
      SplitHeadAt(ds, [], 'K');
      SplitHeadAbsent(ds, 'M');
      SplitHeadAbsent(ds, 'B');
    } else if m == 'M' {
      SplitHeadAbsent(ds + [m], 'K');
      SplitHeadAt(ds, [], 'M');
      SplitHeadAbsent(ds, 'B');
    } else {
      SplitHeadAbsent(ds + [m], 'K');
      SplitHeadAbsent(ds + [m], 'M');
      SplitHeadAt(ds, [], 'B');
    }
  }

  lemma ScaledWhole(n: nat, s: string)
    requires Multiplier(s) >= 0
    ensures Scaled(n as real, s) == n * Multiplier(s)
  {
    var k := Multiplier(s);
    assert n as real * k as real == (n * k) as real;
  }

  /** The multiplier of one suffix letter. */
  function UnitMultiplier(m: char): int
  {
    if m == 'K' then 1000 else if m == 'M' then 1000000 else 1000000000
  }

  lemma SuffixMultiplier(ds: string, m: char)
    requires AllDigits(ds) && (m == 'K' || m == 'M' || m == 'B')
    ensures Multiplier(ds + [m] + "+") == UnitMultiplier(m)
  {
    var s := ds + [m] + "+";
    DigitsNotIn(ds, 'K');
    DigitsNotIn(ds, 'M');
    assert forall c :: c in s <==> c in ds || c == m || c == '+';
  }

  /** "<digits><K|M|B>+" is read as the digits times the unit. */
  lemma CleanDownloadsSuffix(ds: string, m: char)
    requires AllDigits(ds) && ds != [] && (m == 'K' || m == 'M' || m == 'B')
    ensures CleanDownloads(Some(ds + [m] + "+")) == DigitsValue(ds) * UnitMultiplier(m)
  {
    var s := ds + [m] + "+";
    PlusRemoved(ds, m);
    UnitSplitOff(ds, m);
    assert DownloadsMagnitude(s) == ds;
    ParseFloatOfDigits(ds);
    var n := DigitsValue(ds);
    assert ParseFloat(DownloadsMagnitude(s)) == Some(n as real);
    assert CleanDownloads(Some(s)) == Scaled(n as real, s);
    SuffixMultiplier(ds, m);
    ScaledWhole(n, s);
  }

  /** A count written with thousands separators is not understood: it
      counts as 0. */
  lemma CleanDownloadsRejectsStray(s: string, c: char)
    requires 'K' !in s && 'M' !in s && 'B' !in s
    requires c in s && Stray(c) && c != '+'
    ensures CleanDownloads(Some(s)) == 0
  {
    var t := RemoveAll(s, "+");
    RemoveAllKeeps(s, "+", c);
    RemoveCharIsFilter(s, '+');
    assert forall i :: 0 <= i < |t| ==> t[i] in s;
    SplitHeadAbsent(t, 'K');
    SplitHeadAbsent(t, 'M');
    SplitHeadAbsent(t, 'B');
    ParseFloatRejectsStray(t, c);
  }

  lemma ThousandsSeparated()
    ensures CleanDownloads(Some("1,000,000+")) == 0
  {
    var s := "1,000,000+";
    assert s[1] == ',';
    assert forall i :: 0 <= i < |s| ==> s[i] != 'K' && s[i] != 'M' && s[i] != 'B';
    CleanDownloadsRejectsStray(s, ',');
  }

  // ---------------------------------------------------------------------
  // Tables

  /** One row of a store's CSV file as pandas reads it, by column: App Name,
      App Size, App Price, Downloads, App Type, App Version, User Rating. */
  datatype RawRow = RawRow(
    appName: Option<string>,
    appSize: Option<string>,
    appPrice: Option<string>,
    downloads: Option<string>,
    appType: Option<string>,
    appVersion: Option<string>,
    userRating: Option<real>)

  /** One row of the combined table; the fields follow its columns
      app_name, app_size_mb, price_usd, app_type, app_version, user_rating,
      downloads, store. */
  datatype Row = Row(
    appName: Option<string>,
    appSizeMb: Option<real>,
    priceUsd: Option<real>,
    appType: Option<string>,
    appVersion: Option<string>,
    userRating: Option<real>,
    downloads: int,
    store: string)

  /** Series.str.lower(): NaN for a cell that is not a str. */
  function LowerCell(cell: Option<string>): (r: Option<string>)
    ensures r.None? <==> cell.None?
    ensures r.Some? ==> |r.value| == |cell.value| && Lower(r.value) == r.value
  {
    match cell
    case None => None
    case Some(t) =>
      LowerIdempotent(t);
      Some(Lower(t))
  }

  /** The cleaned, tagged and renamed row that preprocess_data derives from
      a raw row of the given store. */
  function CanonicalRow(store: string, r: RawRow): Row
  {
    Row(r.appName, CleanAppSize(r.appSize), CleanAppPrice(r.appPrice), LowerCell(r.appType),
        r.appVersion, r.userRating, CleanDownloads(r.downloads), store)
  }

  /** The loop body of preprocess_data for one loaded table: every row is
      kept, in order, tagged with the store, with its text columns as read,
      its app type lower-cased (NaN staying NaN) and its size, price and
      downloads cleaned. */
  function ProcessStore(store: string, rows: seq<RawRow>): (r: seq<Row>)
    ensures |r| == |rows|
    ensures forall i :: 0 <= i < |rows| ==>
      && r[i].store == store && r[i].appName == rows[i].appName
      && r[i].appVersion == rows[i].appVersion && r[i].userRating == rows[i].userRating
      && r[i].appType == LowerCell(rows[i].appType)
      && r[i].appSizeMb == CleanAppSize(rows[i].appSize) && r[i].priceUsd == CleanAppPrice(rows[i].appPrice)
      && r[i].downloads == CleanDownloads(rows[i].downloads)
  {
    seq(|rows|, i requires 0 <= i < |rows| => CanonicalRow(store, rows[i]))
  }

  /** self.store_data: store name to its table, None when loading failed. */
  type StoreData = Dict<string, Option<seq<RawRow>>>

  const StoreFiles: Dict<string, string> :=
    [("google_play", "google_play_store.csv"), ("apple", "apple_app_store.csv"), ("amazon", "amazon_app_store.csv")]

  /** The store data after loading the given files in order; csv maps a
      path to its table, None when read_csv raises. */
  function LoadFiles(sd: StoreData, files: Dict<string, string>, dataDir: string, csv: string -> Option<seq<RawRow>>)
    : StoreData
  {
    if files == [] then sd
    else
      var last := files[|files| - 1];
      Put(LoadFiles(sd, files[..|files| - 1], dataDir, csv), last.0, csv(dataDir + "/" + last.1))
  }

  /** A loaded table with rows but no text in its App Type column: pandas
      reads such a column as numbers (NaN when it is empty), and
      .str.lower() raises AttributeError on it. */
  predicate TypeNotText(frame: Option<seq<RawRow>>)
  {
    frame.Some? && |frame.value| > 0 && forall k :: 0 <= k < |frame.value| ==> frame.value[k].appType.None?
  }

  /** Some loaded table makes preprocess_data raise AttributeError. */
  predicate LowerFails(sd: StoreData)
  {
    sd != [] && (LowerFails(sd[..|sd| - 1]) || TypeNotText(sd[|sd| - 1].1))
  }

  /** The AttributeError is raised exactly when some loaded table has
      rows and no text in its App Type column. */
  lemma {:induction false} LowerFailsAt(sd: StoreData)
    ensures LowerFails(sd) <==> exists i :: 0 <= i < |sd| && TypeNotText(sd[i].1)
  {
    if sd != [] {
      var init := sd[..|sd| - 1];
      LowerFailsAt(init);
      assert forall i :: 0 <= i < |init| ==> init[i] == sd[i];
    }
  }

  /** A table that raises in a prefix makes the whole store data raise. */
  lemma {:induction false} LowerFailsPrefix(sd: StoreData, n: nat)
    requires n <= |sd| && LowerFails(sd[..n])
    ensures LowerFails(sd)
    decreases |sd| - n
  {
    if n < |sd| {
      assert sd[..n + 1][..n] == sd[..n];
      LowerFailsPrefix(sd, n + 1);
    } else {
      assert sd[..n] == sd;
    }
  }

  /** The processed tables of the stores that loaded, in store order. */
  function Surviving(sd: StoreData): seq<seq<Row>>
  {
    if sd == [] then []
    else
      var (store, frame) := sd[|sd| - 1];
      Surviving(sd[..|sd| - 1]) + match frame case None => [] case Some(rows) => [ProcessStore(store, rows)]
  }

  /** The for-loop of preprocess_data over the store data: the processed
      table of each store that loaded, in store order, or the
      AttributeError of the first table whose App Type is not text. */
  method ProcessTables(sd: StoreData) returns (r: Result<seq<seq<Row>>>)
    ensures r == if LowerFails(sd) then Raised(AttributeError) else Ok(Surviving(sd))
  {
    var processed: seq<seq<Row>> := [];
    for i := 0 to |sd|
      invariant processed == Surviving(sd[..i])
      invariant !LowerFails(sd[..i])
    {
      assert sd[..i + 1][..i] == sd[..i];
      var (store, frame) := sd[i];
      if TypeNotText(frame) {
        LowerFailsPrefix(sd, i + 1);
        return Raised(AttributeError);
      }
      if frame.Some? {
        processed := processed + [ProcessStore(store, frame.value)];
      }
    }
    assert sd[..|sd|] == sd;
    r := Ok(processed);
  }

  /** pd.concat(frames, ignore_index=True) */
  function Concat(frames: seq<seq<Row>>): seq<Row>
  {
    if frames == [] then [] else Concat(frames[..|frames| - 1]) + frames[|frames| - 1]
  }

  /** The number of rows of the stores that loaded. */
  function LoadedRows(sd: StoreData): nat
  {
    if sd == [] then 0
    else LoadedRows(sd[..|sd| - 1]) + match sd[|sd| - 1].1 case None => 0 case Some(rows) => |rows|
  }

  /** The combined table has one row per row of every store that loaded. */
  lemma {:induction false} CombinedRowCount(sd: StoreData)
    ensures |Concat(Surviving(sd))| == LoadedRows(sd)
  {
    if sd != [] {
      CombinedRowCount(sd[..|sd| - 1]);
      var frames := Surviving(sd[..|sd| - 1]);
      match sd[|sd| - 1].1 {
        case None =>
          assert frames + [] == frames;
          assert Surviving(sd) == frames;
        case Some(rows) =>
          var f := frames + [ProcessStore(sd[|sd| - 1].0, rows)];
          assert f[..|f| - 1] == frames;
      }
    }
  }

  /** The rows one store contributes: none when its table did not load. */
  function StoreRows(store: string, frame: Option<seq<RawRow>>): seq<Row>
  {
    match frame
    case None => []
    case Some(rows) => ProcessStore(store, rows)
  }

  lemma {:induction false} ConcatOfSurviving(sd: StoreData)
    ensures Concat(Surviving(sd)) ==
      if sd == [] then [] else Concat(Surviving(sd[..|sd| - 1])) + StoreRows(sd[|sd| - 1].0, sd[|sd| - 1].1)
  {
    if sd != [] {
      var frames := Surviving(sd[..|sd| - 1]);
      match sd[|sd| - 1].1 {
        case None =>
          assert frames + [] == frames;
          assert Surviving(sd) == frames;
        case Some(rows) =>
          var f := frames + [ProcessStore(sd[|sd| - 1].0, rows)];
          assert f[..|f| - 1] == frames;
      }
    }
  }

  /** Loading one more file puts its table under its store. */
  lemma LoadFilesStep(sd: StoreData, files: Dict<string, string>, k: nat, dataDir: string, csv: string -> Option<seq<RawRow>>)
    requires k < |files|
    ensures LoadFiles(sd, files[..k + 1], dataDir, csv) ==
      Put(LoadFiles(sd, files[..k], dataDir, csv), files[k].0, csv(dataDir + "/" + files[k].1))
  {
    assert files[..k + 1][..k] == files[..k];
  }

  /** Loading three files with distinct stores into an empty store_data
      lists the stores in file order. */
  lemma LoadThreeFromEmpty(files: Dict<string, string>, dataDir: string, csv: string -> Option<seq<RawRow>>)
    requires |files| == 3 && files[0].0 != files[1].0 && files[0].0 != files[2].0 && files[1].0 != files[2].0
    ensures LoadFiles([], files, dataDir, csv) ==
      [(files[0].0, csv(dataDir + "/" + files[0].1)),
       (files[1].0, csv(dataDir + "/" + files[1].1)),
       (files[2].0, csv(dataDir + "/" + files[2].1))]
  {
    var e0 := (files[0].0, csv(dataDir + "/" + files[0].1));
    var e1 := (files[1].0, csv(dataDir + "/" + files[1].1));
    var e2 := (files[2].0, csv(dataDir + "/" + files[2].1));
    assert files[..0] == [] && files[..3] == files;
    LoadFilesStep([], files, 0, dataDir, csv);
    LoadFilesStep([], files, 1, dataDir, csv);
    LoadFilesStep([], files, 2, dataDir, csv);
    var s1 := [e0];
    assert LoadFiles([], files[..1], dataDir, csv) == s1;
    assert Put(s1, e1.0, e1.1) == [e0] + Put(s1[1..], e1.0, e1.1);
    var s2 := [e0, e1];
    assert LoadFiles([], files[..2], dataDir, csv) == s2;
    assert s2[1..] == [e1] && s2[1..][1..] == [];
    assert Put(s2[1..], e2.0, e2.1) == [e1] + Put(s2[1..][1..], e2.0, e2.1);
    assert Put(s2, e2.0, e2.1) == [e0] + Put(s2[1..], e2.0, e2.1);
  }

  /** Loading into an empty store_data gives the three stores in the order
      google_play, apple, amazon. */
  lemma LoadedFromEmpty(dataDir: string, csv: string -> Option<seq<RawRow>>)
    ensures LoadFiles([], StoreFiles, dataDir, csv) ==
      [("google_play", csv(dataDir + "/google_play_store.csv")),
       ("apple", csv(dataDir + "/apple_app_store.csv")),
       ("amazon", csv(dataDir + "/amazon_app_store.csv"))]
  {
    assert "google_play"[0] != "apple"[0] && "google_play"[0] != "amazon"[0] && "apple"[1] != "amazon"[1];
    assert dataDir + "/" + "google_play_store.csv" == dataDir + "/google_play_store.csv";
    assert dataDir + "/" + "apple_app_store.csv" == dataDir + "/apple_app_store.csv";
    assert dataDir + "/" + "amazon_app_store.csv" == dataDir + "/amazon_app_store.csv";
    LoadThreeFromEmpty(StoreFiles, dataDir, csv);
  }

  /** From an empty store_data the combined table is the rows of
      google_play, apple and amazon in that order, each row tagged with its
      store. */
  lemma CombinedInStoreOrder(dataDir: string, csv: string -> Option<seq<RawRow>>)
    ensures var g := csv(dataDir + "/google_play_store.csv");
      var a := csv(dataDir + "/apple_app_store.csv");
      var z := csv(dataDir + "/amazon_app_store.csv");
      Concat(Surviving(LoadFiles([], StoreFiles, dataDir, csv))) ==
        StoreRows("google_play", g) + StoreRows("apple", a) + StoreRows("amazon", z)
  {
    var g := csv(dataDir + "/google_play_store.csv");
    var a := csv(dataDir + "/apple_app_store.csv");
    var z := csv(dataDir + "/amazon_app_store.csv");
    LoadedFromEmpty(dataDir, csv);
    var sd := LoadFiles([], StoreFiles, dataDir, csv);
    var s2: StoreData := [("google_play", g), ("apple", a)];
    var s1: StoreData := [("google_play", g)];
    assert sd[..2] == s2 && s2[..1] == s1 && s1[..0] == [];
    ConcatOfSurviving(s1);
    assert Concat(Surviving(s1)) == StoreRows("google_play", g);
    ConcatOfSurviving(s2);
    assert Concat(Surviving(s2)) == StoreRows("google_play", g) + StoreRows("apple", a);
    ConcatOfSurviving(sd);
  }

  // ---------------------------------------------------------------------
  // Filling gaps

  datatype NumericColumn = AppSizeMb | PriceUsd | DownloadsColumn
  datatype CategoricalColumn = AppType | AppVersion

  const NumericColumns: seq<NumericColumn> := [AppSizeMb, PriceUsd, DownloadsColumn]
  const CategoricalColumns: seq<CategoricalColumn> := [AppType, AppVersion]

  function NumCell(row: Row, c: NumericColumn): Option<real>
  {
    match c
    case AppSizeMb => row.appSizeMb
    case PriceUsd => row.priceUsd
    case DownloadsColumn => Some(row.downloads as real)
  }

  function CatCell(row: Row, c: CategoricalColumn): Option<string>
  {
    match c
    case AppType => row.appType
    case AppVersion => row.appVersion
  }

  function NumColumn(rows: seq<Row>, c: NumericColumn): (col: seq<Option<real>>)
    ensures |col| == |rows| && forall i :: 0 <= i < |rows| ==> col[i] == NumCell(rows[i], c)
  {
    seq(|rows|, i requires 0 <= i < |rows| => NumCell(rows[i], c))
  }

  function CatColumn(rows: seq<Row>, c: CategoricalColumn): (col: seq<Option<string>>)
    ensures |col| == |rows| && forall i :: 0 <= i < |rows| ==> col[i] == CatCell(rows[i], c)
  {
    seq(|rows|, i requires 0 <= i < |rows| => CatCell(rows[i], c))
  }

  /** The values of a column that are not NaN, in row order. */
  function Present<T(!new)>(cells: seq<Option<T>>): (r: seq<T>)
    ensures |r| <= |cells|
    ensures forall x :: x in r <==> Some(x) in cells
  {
    if cells == [] then []
    else
      assert forall c :: c in cells <==> c == cells[0] || c in cells[1..];
      (match cells[0] case None => [] case Some(x) => [x]) + Present(cells[1..])
  }

  /** df[col].median() of a numeric column over every store: None (NaN)
      when the column has no value. */
  function ColumnMedian(rows: seq<Row>, c: NumericColumn): (m: Option<real>)
    ensures m.None? <==> Present(NumColumn(rows, c)) == []
  {
    var present := Present(NumColumn(rows, c));
    if present == [] then None else Some(Median(present))
  }

  /** The median that fills a numeric column lies between the least and
      the greatest value present in it. */
  lemma ColumnMedianWithinRange(rows: seq<Row>, c: NumericColumn)
    requires ColumnMedian(rows, c).Some?
    ensures var present := Present(NumColumn(rows, c));
      present != [] && MinOf(present) <= ColumnMedian(rows, c).value <= MaxOf(present)
  {
    MedianWithinRange(Present(NumColumn(rows, c)));
  }

  /** df[col].mode()[0] of a categorical column: None when the column has
      no value, where indexing the empty mode raises. */
  function ColumnMode(rows: seq<Row>, cc: CategoricalColumn): (m: Option<string>)
    ensures m.None? <==> Present(CatColumn(rows, cc)) == []
  {
    var present := Present(CatColumn(rows, cc));
    if present == [] then None else Some(Mode(present))
  }

  /** The mode that fills a categorical column is one of its values, and
      no value of the column is more frequent. */
  lemma ColumnModeIsMostFrequent(rows: seq<Row>, cc: CategoricalColumn)
    requires ColumnMode(rows, cc).Some?
    ensures var present := Present(CatColumn(rows, cc));
      var m := ColumnMode(rows, cc).value;
      && Some(m) in CatColumn(rows, cc)
      && forall v :: v in present ==> Count(present, v) <= Count(present, m)
  {
  }

  /** fillna(v) on one cell. */
  function FillWith<T>(cell: Option<T>, v: Option<T>): Option<T>
  {
    if cell.None? then v else cell
  }

  /** fillna(v) on one numeric cell; downloads are never NaN. */
  function FillNumCell(row: Row, c: NumericColumn, v: Option<real>): Row
  {
    match c
    case AppSizeMb => row.(appSizeMb := FillWith(row.appSizeMb, v))
    case PriceUsd => row.(priceUsd := FillWith(row.priceUsd, v))
    case DownloadsColumn => row
  }

  function FillCatCell(row: Row, cc: CategoricalColumn, v: string): Row
  {
    match cc
    case AppType => row.(appType := FillWith(row.appType, Some(v)))
    case AppVersion => row.(appVersion := FillWith(row.appVersion, Some(v)))
  }

  function FillNumericWith(rows: seq<Row>, c: NumericColumn, v: Option<real>): (r: seq<Row>)
    ensures |r| == |rows|
  {
    seq(|rows|, i requires 0 <= i < |rows| => FillNumCell(rows[i], c, v))
  }

  function FillCategoricalWith(rows: seq<Row>, cc: CategoricalColumn, v: string): (r: seq<Row>)
    ensures |r| == |rows|
  {
    seq(|rows|, i requires 0 <= i < |rows| => FillCatCell(rows[i], cc, v))
  }

  /** df[col] = df[col].fillna(df[col].median()) */
  function FillNumeric(rows: seq<Row>, c: NumericColumn): seq<Row>
  {
    FillNumericWith(rows, c, ColumnMedian(rows, c))
  }

  /** df[col] = df[col].fillna(df[col].mode()[0]) */
  function FillCategorical(rows: seq<Row>, cc: CategoricalColumn): Result<seq<Row>>
  {
    match ColumnMode(rows, cc)
    case None => Raised(KeyError)
    case Some(m) => Ok(FillCategoricalWith(rows, cc, m))
  }

  function FillNumerics(rows: seq<Row>, cs: seq<NumericColumn>): (r: seq<Row>)
  {
    if cs == [] then rows else FillNumeric(FillNumerics(rows, cs[..|cs| - 1]), cs[|cs| - 1])
  }

  /** The table after filling the given columns, and whether a fill raised
      (the table is then as the failing fill found it). */
  datatype Outcome = Outcome(table: seq<Row>, failed: bool)

  /** One pass of the categorical loop: nothing more happens once a fill
      has raised. */
  function CategoricalStep(o: Outcome, cc: CategoricalColumn): Outcome
  {
    if o.failed then o
    else
      match FillCategorical(o.table, cc)
      case Raised(_) => Outcome(o.table, true)
      case Ok(t) => Outcome(t, false)
  }

  function FillCategoricals(rows: seq<Row>, cs: seq<CategoricalColumn>): Outcome
  {
    if cs == [] then Outcome(rows, false)
    else CategoricalStep(FillCategoricals(rows, cs[..|cs| - 1]), cs[|cs| - 1])
  }

  /** handle_missing_values applied to a table. The columns are filled in
      place, so when mode()[0] raises the fills already made remain. */
  function MissingFilled(rows: seq<Row>): Outcome
  {
    FillCategoricals(FillNumerics(rows, NumericColumns), CategoricalColumns)
  }

  /** Filling a numeric cell changes that cell only when it was NaN and
      leaves every other cell of the row as it was. */
  lemma FillNumCellFields(row: Row, c: NumericColumn, v: Option<real>)
    ensures var r := FillNumCell(row, c, v);
      && NumCell(r, c) == FillWith(NumCell(row, c), v)
      && (forall c' :: c' != c ==> NumCell(r, c') == NumCell(row, c'))
      && (forall cc :: CatCell(r, cc) == CatCell(row, cc))
      && r.appName == row.appName && r.userRating == row.userRating
      && r.downloads == row.downloads && r.store == row.store
  {
  }

  /** Filling a categorical cell changes that cell only when it was NaN and
      leaves every other cell of the row as it was. */
  lemma FillCatCellFields(row: Row, cc: CategoricalColumn, v: string)
    ensures var r := FillCatCell(row, cc, v);
      && CatCell(r, cc) == FillWith(CatCell(row, cc), Some(v))
      && (forall cc' :: cc' != cc ==> CatCell(r, cc') == CatCell(row, cc'))
      && (forall c :: NumCell(r, c) == NumCell(row, c))
      && r.appName == row.appName && r.userRating == row.userRating
      && r.downloads == row.downloads && r.store == row.store
  {
  }

  lemma NumColumnAfterFill(rows: seq<Row>, c: NumericColumn, v: Option<real>, c': NumericColumn)
    requires c != c'
    ensures NumColumn(FillNumericWith(rows, c, v), c') == NumColumn(rows, c')
  {
    forall i | 0 <= i < |rows| ensures NumColumn(FillNumericWith(rows, c, v), c')[i] == NumColumn(rows, c')[i] {
      FillNumCellFields(rows[i], c, v);
    }
  }

  lemma CatColumnAfterNumericFill(rows: seq<Row>, c: NumericColumn, v: Option<real>, cc: CategoricalColumn)
    ensures CatColumn(FillNumericWith(rows, c, v), cc) == CatColumn(rows, cc)
  {
    forall i | 0 <= i < |rows| ensures CatColumn(FillNumericWith(rows, c, v), cc)[i] == CatColumn(rows, cc)[i] {
      FillNumCellFields(rows[i], c, v);
    }
  }

  lemma CatColumnAfterFill(rows: seq<Row>, cc: CategoricalColumn, v: string, cc': CategoricalColumn)
    requires cc != cc'
    ensures CatColumn(FillCategoricalWith(rows, cc, v), cc') == CatColumn(rows, cc')
  {
    forall i | 0 <= i < |rows| ensures CatColumn(FillCategoricalWith(rows, cc, v), cc')[i] == CatColumn(rows, cc')[i] {
      FillCatCellFields(rows[i], cc, v);
    }
  }

  /** Filling downloads changes nothing: the column never holds NaN. */
  lemma FillDownloadsNoOp(rows: seq<Row>, v: Option<real>)
    ensures FillNumericWith(rows, DownloadsColumn, v) == rows
  {
  }

  lemma FillNumericsOfThree(rows: seq<Row>, a: NumericColumn, b: NumericColumn, c: NumericColumn)
    ensures FillNumerics(rows, [a, b, c]) == FillNumeric(FillNumeric(FillNumeric(rows, a), b), c)
  {
    var cs := [a, b, c];
    assert cs[..0] == [] && cs[..3] == cs;
    NumericFillsStep(rows, cs, 0);
    NumericFillsStep(rows, cs, 1);
    NumericFillsStep(rows, cs, 2);
  }

  lemma FillCategoricalsOfTwo(rows: seq<Row>, a: CategoricalColumn, b: CategoricalColumn)
    ensures FillCategoricals(rows, [a, b]) == CategoricalStep(CategoricalStep(Outcome(rows, false), a), b)
  {
    var cs := [a, b];
    assert cs[..0] == [] && cs[..2] == cs;
    CategoricalFillsStep(rows, cs, 0);
    CategoricalFillsStep(rows, cs, 1);
  }

  /** The numeric part of handle_missing_values: NaN sizes and prices get
      the column's median, every other cell is kept. */
  lemma NumericStage(rows: seq<Row>)
    ensures var r := FillNumerics(rows, NumericColumns);
      && |r| == |rows|
      && CatColumn(r, AppType) == CatColumn(rows, AppType)
      && CatColumn(r, AppVersion) == CatColumn(rows, AppVersion)
      && forall i :: 0 <= i < |rows| ==>
        r[i] == rows[i].(appSizeMb := FillWith(rows[i].appSizeMb, ColumnMedian(rows, AppSizeMb)),
                         priceUsd := FillWith(rows[i].priceUsd, ColumnMedian(rows, PriceUsd)))
  {
    var sizes := ColumnMedian(rows, AppSizeMb);
    var r1 := FillNumericWith(rows, AppSizeMb, sizes);
    NumColumnAfterFill(rows, AppSizeMb, sizes, PriceUsd);
    var prices := ColumnMedian(rows, PriceUsd);
    assert ColumnMedian(r1, PriceUsd) == prices;
    var r2 := FillNumericWith(r1, PriceUsd, prices);
    FillNumericsOfThree(rows, AppSizeMb, PriceUsd, DownloadsColumn);
    FillDownloadsNoOp(r2, ColumnMedian(r2, DownloadsColumn));
    assert FillNumerics(rows, NumericColumns) == r2;
    CatColumnAfterNumericFill(rows, AppSizeMb, sizes, AppType);
    CatColumnAfterNumericFill(rows, AppSizeMb, sizes, AppVersion);
    CatColumnAfterNumericFill(r1, PriceUsd, prices, AppType);
    CatColumnAfterNumericFill(r1, PriceUsd, prices, AppVersion);
  }

  /** The categorical part: a NaN app type gets the column's mode, then a
      NaN app version gets its mode; when a column has no value at all the
      fill raises and the later one does not happen. */
  lemma CategoricalStage(rows: seq<Row>)
    ensures var o := FillCategoricals(rows, CategoricalColumns);
      var types := ColumnMode(rows, AppType);
      var versions := ColumnMode(rows, AppVersion);
      && |o.table| == |rows|
      && (o.failed <==> types.None? || versions.None?)
      && forall i :: 0 <= i < |rows| ==>
        o.table[i] == rows[i].(appType := FillWith(rows[i].appType, types),
                               appVersion := if types.None? then rows[i].appVersion else FillWith(rows[i].appVersion, versions))
  {
    FillCategoricalsOfTwo(rows, AppType, AppVersion);
    if ColumnMode(rows, AppType).Some? {
      CategoricalStageTyped(rows);
    }
  }

  /** When app_type has a value, its NaNs are filled first and the app
      version column the second fill sees is the original one. */
  lemma CategoricalStageTyped(rows: seq<Row>)
    requires ColumnMode(rows, AppType).Some?
    ensures var types := ColumnMode(rows, AppType);
      var versions := ColumnMode(rows, AppVersion);
      var o := CategoricalStep(CategoricalStep(Outcome(rows, false), AppType), AppVersion);
      && |o.table| == |rows|
      && (o.failed <==> versions.None?)
      && forall i :: 0 <= i < |rows| ==>
        o.table[i] == rows[i].(appType := FillWith(rows[i].appType, types),
                               appVersion := FillWith(rows[i].appVersion, versions))
  {
    var t := ColumnMode(rows, AppType).value;
    var r3 := FillCategoricalWith(rows, AppType, t);
    assert CategoricalStep(Outcome(rows, false), AppType) == Outcome(r3, false);
    CatColumnAfterFill(rows, AppType, t, AppVersion);
    var versions := ColumnMode(r3, AppVersion);
    assert versions == ColumnMode(rows, AppVersion);
    if versions.None? {
      assert CategoricalStep(Outcome(r3, false), AppVersion) == Outcome(r3, true);
      forall i | 0 <= i < |rows| ensures r3[i] == rows[i].(appType := FillWith(rows[i].appType, Some(t))) {
      }
    } else {
      var r4 := FillCategoricalWith(r3, AppVersion, versions.value);
      assert CategoricalStep(Outcome(r3, false), AppVersion) == Outcome(r4, false);
    }
  }

  /** handle_missing_values, stated on the table it was given: a present
      value is never changed; a NaN in app_size_mb or price_usd becomes the
      median of the whole column, over every store; a NaN in app_type or
      app_version becomes the most frequent value of the column. When
      app_type has no value at all, mode()[0] raises and app_version is left
      as it was; when app_version has none, it raises after app_type was
      filled. Every other cell and the row count are kept. */
  lemma HandleMissingValuesFills(rows: seq<Row>)
    ensures var o := MissingFilled(rows);
      var types := ColumnMode(rows, AppType);
      var versions := ColumnMode(rows, AppVersion);
      && |o.table| == |rows|
      && (o.failed <==> types.None? || versions.None?)
      && forall i :: 0 <= i < |rows| ==>
        o.table[i] == rows[i].(appSizeMb := FillWith(rows[i].appSizeMb, ColumnMedian(rows, AppSizeMb)),
                               priceUsd := FillWith(rows[i].priceUsd, ColumnMedian(rows, PriceUsd)),
                               appType := FillWith(rows[i].appType, types),
                               appVersion := if types.None? then rows[i].appVersion else FillWith(rows[i].appVersion, versions))
  {
    var r := FillNumerics(rows, NumericColumns);
    NumericStage(rows);
    var types := ColumnMode(rows, AppType);
    var versions := ColumnMode(rows, AppVersion);
    assert ColumnMode(r, AppType) == types;
    assert ColumnMode(r, AppVersion) == versions;
    CategoricalStage(r);
    var o := MissingFilled(rows);
    forall i | 0 <= i < |rows|
      ensures o.table[i] == rows[i].(appSizeMb := FillWith(rows[i].appSizeMb, ColumnMedian(rows, AppSizeMb)),
                                     priceUsd := FillWith(rows[i].priceUsd, ColumnMedian(rows, PriceUsd)),
                                     appType := FillWith(rows[i].appType, types),
                                     appVersion := if types.None? then rows[i].appVersion else FillWith(rows[i].appVersion, versions))
    {
      assert r[i].appType == rows[i].appType && r[i].appVersion == rows[i].appVersion;
    }
  }

  // ---------------------------------------------------------------------
  // Training data

  const NumericFeatures: seq<string> := ["app_size_mb", "price_usd", "downloads"]

  function Prefixed(p: string, vs: seq<string>): (r: seq<string>)
    ensures |r| == |vs| && forall i :: 0 <= i < |vs| ==> r[i] == p + vs[i]
  {
    seq(|vs|, i requires 0 <= i < |vs| => p + vs[i])
  }

  /** The columns of pd.get_dummies(df[features], columns=['app_type',
      'store']): the numeric features, then one column per distinct app
      type and one per distinct store, each group in ascending order. */
  function DummyColumns(types: seq<string>, stores: seq<string>): seq<string>
  {
    NumericFeatures + Prefixed("app_type_", SortedDistinct(types)) + Prefixed("store_", SortedDistinct(stores))
  }

  /** Where each dummy column sits. */
  lemma DummyColumnsLayout(types: seq<string>, stores: seq<string>)
    ensures var c := DummyColumns(types, stores);
      var t := SortedDistinct(types);
      var s := SortedDistinct(stores);
      && |c| == 3 + |t| + |s|
      && (forall j :: 0 <= j < |t| ==> c[3 + j] == "app_type_" + t[j])
      && (forall j :: 0 <= j < |s| ==> c[3 + |t| + j] == "store_" + s[j])
  {
  }

  /** The dummy cells of one value against the categories of its column:
      1.0 under the value's own category, 0.0 elsewhere; a NaN is 0.0
      everywhere. */
  function Indicator(v: Option<string>, vocab: seq<string>): (r: seq<real>)
    ensures |r| == |vocab|
    ensures forall i :: 0 <= i < |vocab| ==> r[i] == if v == Some(vocab[i]) then 1.0 else 0.0
  {
    if vocab == [] then [] else [if v == Some(vocab[0]) then 1.0 else 0.0] + Indicator(v, vocab[1..])
  }

  /** The number of cells set to 1.0. */
  function Ones(r: seq<real>): nat
  {
    if r == [] then 0 else (if r[0] == 1.0 then 1 else 0) + Ones(r[1..])
  }

  /** One-hot: over distinct categories exactly one dummy is set when the
      value is one of them, none otherwise. */
  lemma {:induction false} IndicatorOnes(v: Option<string>, vocab: seq<string>)
    requires StrictlyIncreasing(vocab)
    ensures Ones(Indicator(v, vocab)) == if v.Some? && v.value in vocab then 1 else 0
  {
    if vocab != [] {
      var tail := vocab[1..];
      assert StrictlyIncreasing(tail) by {
        forall i, j | 0 <= i < j < |tail| ensures StrLt(tail[i], tail[j]) {
          assert tail[i] == vocab[i + 1] && tail[j] == vocab[j + 1];
        }
      }
      IndicatorOnes(v, tail);
      assert Indicator(v, vocab)[1..] == Indicator(v, tail);
      assert forall y :: y in vocab <==> y == vocab[0] || y in tail;
      if v == Some(vocab[0]) {
        forall j | 0 <= j < |tail| ensures tail[j] != vocab[0] {
          assert StrLt(vocab[0], vocab[j + 1]);
        }
      }
    }
  }

  /** One row of X: the numeric features, then the app type dummies, then
      the store dummies. */
  datatype DummyRow = DummyRow(numeric: seq<Option<real>>, appTypes: seq<real>, stores: seq<real>)

  /** X with its column names, and y. */
  datatype TrainingData = TrainingData(columns: seq<string>, x: seq<DummyRow>, y: seq<Option<real>>)

  function StoreColumn(rows: seq<Row>): (col: seq<string>)
    ensures |col| == |rows| && forall i :: 0 <= i < |rows| ==> col[i] == rows[i].store
  {
    seq(|rows|, i requires 0 <= i < |rows| => rows[i].store)
  }

  function TypeVocab(rows: seq<Row>): seq<string>
  {
    SortedDistinct(Present(CatColumn(rows, AppType)))
  }

  function StoreVocab(rows: seq<Row>): seq<string>
  {
    SortedDistinct(StoreColumn(rows))
  }

  function EncodeRow(row: Row, types: seq<string>, stores: seq<string>): DummyRow
  {
    DummyRow([row.appSizeMb, row.priceUsd, Some(row.downloads as real)],
             Indicator(row.appType, types), Indicator(Some(row.store), stores))
  }

  /** get_training_data on a combined table. */
  function Encode(rows: seq<Row>): (d: TrainingData)
    ensures |d.x| == |d.y| == |rows|
    ensures forall i :: 0 <= i < |rows| ==> d.y[i] == rows[i].userRating
  {
    var types := TypeVocab(rows);
    var stores := StoreVocab(rows);
    TrainingData(
      DummyColumns(Present(CatColumn(rows, AppType)), StoreColumn(rows)),
      seq(|rows|, i requires 0 <= i < |rows| => EncodeRow(rows[i], types, stores)),
      seq(|rows|, i requires 0 <= i < |rows| => rows[i].userRating))
  }

  lemma PrefixCancel(p: string, a: string, b: string)
    requires p + a == p + b
    ensures a == b
  {
    assert a == (p + a)[|p|..];
    assert b == (p + b)[|p|..];
  }

  /** A dummy is set exactly when its column name is the prefixed value. */
  lemma IndicatorKey(p: string, v: Option<string>, vocab: seq<string>, j: nat)
    requires j < |vocab|
    ensures |Indicator(v, vocab)| == |vocab|
    ensures Indicator(v, vocab)[j] == 1.0 <==> v.Some? && p + vocab[j] == p + v.value
  {
    if v.Some? && p + vocab[j] == p + v.value {
      PrefixCancel(p, vocab[j], v.value);
    }
  }

  /** The dummies f of a value v sit in cols from position off on, and a
      dummy is set exactly when its column is named p + v. */
  predicate NamedDummies(f: seq<real>, cols: seq<string>, off: nat, p: string, v: Option<string>)
  {
    off + |f| <= |cols| && forall j :: 0 <= j < |f| ==> (f[j] == 1.0 <==> v.Some? && cols[off + j] == p + v.value)
  }

  /** The dummies of one value against a strictly increasing vocabulary
      whose prefixed names sit in cols from position off on: at most one is
      set, the one named after the value, and exactly one when the value is
      in the vocabulary. */
  lemma GroupDummies(p: string, v: Option<string>, vocab: seq<string>, cols: seq<string>, off: nat)
    requires StrictlyIncreasing(vocab)
    requires GroupAt(cols, off, p, vocab)
    ensures Ones(Indicator(v, vocab)) == (if v.Some? && v.value in vocab then 1 else 0)
    ensures NamedDummies(Indicator(v, vocab), cols, off, p, v)
  {
    IndicatorOnes(v, vocab);
    forall j | 0 <= j < |vocab|
      ensures Indicator(v, vocab)[j] == 1.0 <==> v.Some? && cols[off + j] == p + v.value
    {
      IndicatorKey(p, v, vocab, j);
    }
  }

  /** cols holds the names p + vocab[j] from position off on. */
  predicate GroupAt(cols: seq<string>, off: nat, p: string, vocab: seq<string>)
  {
    off + |vocab| <= |cols| && forall j :: 0 <= j < |vocab| ==> cols[off + j] == p + vocab[j]
  }

  /** Row i of X is the encoding of row i against the table's vocabularies,
      and the columns are laid out group by group. */
  lemma EncodeAt(rows: seq<Row>, i: nat)
    requires i < |rows|
    ensures var d := Encode(rows);
      var types := TypeVocab(rows);
      var stores := StoreVocab(rows);
      && d.x[i] == EncodeRow(rows[i], types, stores)
      && |d.columns| == 3 + |types| + |stores|
      && GroupAt(d.columns, 3, "app_type_", types)
      && GroupAt(d.columns, 3 + |types|, "store_", stores)
      && (rows[i].appType.Some? ==> rows[i].appType.value in types)
      && rows[i].store in stores
  {
    DummyColumnsLayout(Present(CatColumn(rows, AppType)), StoreColumn(rows));
    assert CatColumn(rows, AppType)[i] == rows[i].appType;
    assert StoreColumn(rows)[i] == rows[i].store;
  }

  /** The app type dummies of a row: one per distinct app type of the
      table, exactly one set when the row has an app type (the one of its
      own type) and none when it is NaN; each set dummy's column is named
      after the row's type. */
  lemma TypeDummies(rows: seq<Row>, i: nat)
    requires i < |rows|
    ensures var d := Encode(rows);
      var f := d.x[i];
      && Ones(f.appTypes) == (if rows[i].appType.Some? then 1 else 0)
      && NamedDummies(f.appTypes, d.columns, 3, "app_type_", rows[i].appType)
  {
    EncodeAt(rows, i);
    var types := TypeVocab(rows);
    GroupDummies("app_type_", rows[i].appType, types, Encode(rows).columns, 3);
    assert Encode(rows).x[i].appTypes == Indicator(rows[i].appType, types);
  }

  /** The store dummies of a row: they fill the columns after the app type
      dummies, exactly one is set, and it is the one of the row's own
      store. */
  lemma StoreDummies(rows: seq<Row>, i: nat)
    requires i < |rows|
    ensures var d := Encode(rows);
      var f := d.x[i];
      && 3 + |f.appTypes| + |f.stores| == |d.columns|
      && Ones(f.stores) == 1
      && NamedDummies(f.stores, d.columns, 3 + |f.appTypes|, "store_", Some(rows[i].store))
  {
    EncodeAt(rows, i);
    var types := TypeVocab(rows);
    var stores := StoreVocab(rows);
    GroupDummies("store_", Some(rows[i].store), stores, Encode(rows).columns, 3 + |types|);
    assert Encode(rows).x[i].appTypes == Indicator(rows[i].appType, types);
    assert Encode(rows).x[i].stores == Indicator(Some(rows[i].store), stores);
  }

  lemma NumericFillsStep(rows: seq<Row>, cs: seq<NumericColumn>, k: nat)
    requires k < |cs|
    ensures FillNumerics(rows, cs[..k + 1]) == FillNumeric(FillNumerics(rows, cs[..k]), cs[k])
  {
    assert cs[..k + 1][..k] == cs[..k];
  }

  lemma CategoricalFillsStep(rows: seq<Row>, cs: seq<CategoricalColumn>, k: nat)
    requires k < |cs|
    ensures FillCategoricals(rows, cs[..k + 1]) == CategoricalStep(FillCategoricals(rows, cs[..k]), cs[k])
  {
    assert cs[..k + 1][..k] == cs[..k];
  }

  /** Once a categorical fill has raised, the later columns are not
      filled. */
  lemma {:induction false} FailedFillStays(rows: seq<Row>, cs: seq<CategoricalColumn>, n: nat)
    requires n <= |cs| && FillCategoricals(rows, cs[..n]).failed
    ensures FillCategoricals(rows, cs) == FillCategoricals(rows, cs[..n])
  {
    if n < |cs| {
      var init := cs[..|cs| - 1];
      assert init[..n] == cs[..n];
      FailedFillStays(rows, init, n);
    } else {
      assert cs[..n] == cs;
    }
  }

  // ---------------------------------------------------------------------
  // The preprocessor

  /** The state of a DataPreprocessor: the directory it reads, the tables
      it loaded by store, and the combined table once built. Reading a CSV
      file is the function csv from a path to its rows, None when read_csv
      raises. */
  class DataPreprocessor {
    const dataDir: string
    var storeData: StoreData
    var combinedData: Option<seq<Row>>

    /** DataPreprocessor(data_dir); the default directory is src/data/raw. */
    constructor (dataDir: string)
      ensures this.dataDir == dataDir && storeData == [] && combinedData == None
    {
      this.dataDir := dataDir;
      storeData := [];
      combinedData := None;
    }

    /** load_data: every store file is read in turn; one that fails to
        load is recorded as None and does not stop the others. */
    method LoadData(csv: string -> Option<seq<RawRow>>)
      modifies this
      ensures storeData == LoadFiles(old(storeData), StoreFiles, dataDir, csv)
      ensures combinedData == old(combinedData)
    {
      for i := 0 to |StoreFiles|
        invariant storeData == LoadFiles(old(storeData), StoreFiles[..i], dataDir, csv)
        invariant combinedData == old(combinedData)
      {
        LoadFilesStep(old(storeData), StoreFiles, i, dataDir, csv);
        var (store, filename) := StoreFiles[i];
        storeData := Put(storeData, store, csv(dataDir + "/" + filename));
      }
      assert StoreFiles[..|StoreFiles|] == StoreFiles;
    }

    /** handle_missing_values on the combined table, which it fills in
        place: failed reports that mode()[0] raised, after the fills made
        so far. */
    method HandleMissingValues() returns (failed: bool)
      requires combinedData.Some?
      modifies this
      ensures storeData == old(storeData)
      ensures var o := MissingFilled(old(combinedData).value);
        combinedData == Some(o.table) && failed == o.failed
    {
      ghost var rows := combinedData.value;
      for k := 0 to |NumericColumns|
        invariant combinedData == Some(FillNumerics(rows, NumericColumns[..k]))
        invariant storeData == old(storeData)
      {
        NumericFillsStep(rows, NumericColumns, k);
        combinedData := Some(FillNumeric(combinedData.value, NumericColumns[k]));
      }
      assert NumericColumns[..|NumericColumns|] == NumericColumns;
      ghost var numeric := combinedData.value;
      for k := 0 to |CategoricalColumns|
        invariant combinedData.Some? && storeData == old(storeData)
        invariant FillCategoricals(numeric, CategoricalColumns[..k]) == Outcome(combinedData.value, false)
      {
        CategoricalFillsStep(numeric, CategoricalColumns, k);
        var filled := FillCategorical(combinedData.value, CategoricalColumns[k]);
        if filled.Raised? {
          FailedFillStays(numeric, CategoricalColumns, k + 1);
          return true;
        }
        combinedData := Some(filled.value);
      }
      assert CategoricalColumns[..|CategoricalColumns|] == CategoricalColumns;
      failed := false;
    }

    /** preprocess_data: loads the files when nothing is loaded yet, cleans
        and tags each loaded table, concatenates them and fills the gaps.
        With no table loaded pd.concat raises ValueError and the combined
        table is not replaced; neither is it when lower-casing the App Type
        column of a loaded table raises AttributeError; when a fill raises,
        the combined table is already replaced by the partly filled one. */
    method PreprocessData(csv: string -> Option<seq<RawRow>>) returns (r: Result<seq<Row>>)
      modifies this
      ensures storeData == if old(storeData) == [] then LoadFiles([], StoreFiles, dataDir, csv) else old(storeData)
      ensures LowerFails(storeData) ==> r == Raised(AttributeError) && combinedData == old(combinedData)
      ensures !LowerFails(storeData) ==>
        var frames := Surviving(storeData);
        && (frames == [] ==> r == Raised(ValueError) && combinedData == old(combinedData))
        && (frames != [] ==>
              var o := MissingFilled(Concat(frames));
              combinedData == Some(o.table) && r == if o.failed then Raised(KeyError) else Ok(o.table))
    {
      if storeData == [] {
        LoadData(csv);
      }
      var tables := ProcessTables(storeData);
      if tables.Raised? {
        r := Raised(tables.exc);
        return;
      }
      var processed := tables.value;
      if processed == [] {
        r := Raised(ValueError);
        return;
      }
      combinedData := Some(Concat(processed));
      var failed := HandleMissingValues();
      r := if failed then Raised(KeyError) else Ok(combinedData.value);
    }

    /** get_training_data: the dummy-encoded features and the ratings of
        the combined table, which is built first when there is none. A
        table left partly filled by an earlier failure is encoded as it
        is. */
    method GetTrainingData(csv: string -> Option<seq<RawRow>>) returns (r: Result<TrainingData>)
      modifies this
      ensures old(combinedData).Some? ==>
        storeData == old(storeData) && combinedData == old(combinedData) && r == Ok(Encode(combinedData.value))
      ensures old(combinedData).None? ==>
        && storeData == (if old(storeData) == [] then LoadFiles([], StoreFiles, dataDir, csv) else old(storeData))
        && (LowerFails(storeData) ==> r == Raised(AttributeError) && combinedData == None)
        && (!LowerFails(storeData) ==>
              var frames := Surviving(storeData);
              && (frames == [] ==> r == Raised(ValueError) && combinedData == None)
              && (frames != [] ==>
                    var o := MissingFilled(Concat(frames));
                    combinedData == Some(o.table) && r == if o.failed then Raised(KeyError) else Ok(Encode(o.table))))
    {
      if combinedData.None? {
        var built := PreprocessData(csv);
        if built.Raised? {
          return Raised(built.exc);
        }
      }
      r := Ok(Encode(combinedData.value));
    }
  }
}

=== FILE: pydict.dfy ===
/** Python dictionaries as association lists: a key keeps the position of
    its first insertion, and assigning an existing key replaces its value
    in place. */
module PyDict {
  import opened Wrappers

  type Dict<K, V> = seq<(K, V)>

  function Keys<K, V>(d: Dict<K, V>): (ks: seq<K>)
    ensures |ks| == |d| && forall i :: 0 <= i < |d| ==> ks[i] == d[i].0
  {
    if d == [] then [] else [d[0].0] + Keys(d[1..])
  }

  predicate DistinctKeys<K(==), V>(d: Dict<K, V>)
  {
    forall i, j :: 0 <= i < j < |d| ==> d[i].0 != d[j].0
  }

  /** d.get(k) */
  function Get<K(==), V>(d: Dict<K, V>, k: K): (r: Option<V>)
    ensures r.None? <==> k !in Keys(d)
    ensures r.Some? ==> exists i :: 0 <= i < |d| && d[i] == (k, r.value)
  {
    if d == [] then None
    else if d[0].0 == k then Some(d[0].1)
    else
      var r := Get(d[1..], k);
      assert Keys(d) == [d[0].0] + Keys(d[1..]);
      assert forall i :: 0 <= i < |d[1..]| ==> d[1..][i] == d[i + 1];
      r
  }

  /** d[k] = v */
  function Put<K(==), V>(d: Dict<K, V>, k: K, v: V): (r: Dict<K, V>)
    ensures |r| == |d| + (if k in Keys(d) then 0 else 1)
    ensures k in Keys(d) ==> Keys(r) == Keys(d)
    ensures k !in Keys(d) ==> Keys(r) == Keys(d) + [k]
  {
    if d == [] then [(k, v)]
    else if d[0].0 == k then [(k, v)] + d[1..]
    else
      assert Keys(d) == [d[0].0] + Keys(d[1..]);
      [d[0]] + Put(d[1..], k, v)
  }

  /** Reading back an assignment: the new value under k, the old values
      under every other key. */
  lemma {:induction false} GetPut<K, V>(d: Dict<K, V>, k: K, v: V, k': K)
    ensures Get(Put(d, k, v), k') == if k' == k then Some(v) else Get(d, k')
  {
    if d != [] && d[0].0 != k {
      GetPut(d[1..], k, v, k');
    }
  }

  /** Assignment keeps the keys distinct. */
  lemma PutDistinct<K, V>(d: Dict<K, V>, k: K, v: V)
    requires DistinctKeys(d)
    ensures DistinctKeys(Put(d, k, v))
  {
    var r := Put(d, k, v);
    forall i, j | 0 <= i < j < |r| ensures r[i].0 != r[j].0 {
      assert Keys(r)[i] == r[i].0 && Keys(r)[j] == r[j].0;
      if k !in Keys(d) && j == |d| {
        assert Keys(d)[i] == d[i].0;
      } else {
        assert Keys(d)[i] == d[i].0 && Keys(d)[j] == d[j].0;
      }
    }
  }

  /** The value of a key present in a dictionary with distinct keys is the
      one stored at its position. */
  lemma {:induction false} GetAt<K, V>(d: Dict<K, V>, i: nat)
    requires DistinctKeys(d) && i < |d|
    ensures Get(d, d[i].0) == Some(d[i].1)
  {
    if i > 0 {
      assert d[0].0 != d[i].0;
      GetAt(d[1..], i - 1);
    }
  }

  /** Assigning a new key appends it. */
  lemma {:induction false} PutNew<K, V>(d: Dict<K, V>, k: K, v: V)
    requires k !in Keys(d)
    ensures Put(d, k, v) == d + [(k, v)]
  {
    if d != [] {
      assert Keys(d) == [d[0].0] + Keys(d[1..]);
      PutNew(d[1..], k, v);
      assert d == [d[0]] + d[1..];
    }
  }

  /** d.update(pairs) on a copy: the pairs assigned one after the other. */
  function PutAll<K(==), V>(d: Dict<K, V>, ps: seq<(K, V)>): Dict<K, V>
  {
    if ps == [] then d else Put(PutAll(d, ps[..|ps| - 1]), ps[|ps| - 1].0, ps[|ps| - 1].1)
  }

  /** dict(pairs) */
  function FromPairs<K(==), V>(ps: seq<(K, V)>): Dict<K, V>
  {
    PutAll([], ps)
  }

  /** Assignments keep the keys distinct. */
  lemma {:induction false} PutAllDistinct<K, V>(d: Dict<K, V>, ps: seq<(K, V)>)
    requires DistinctKeys(d)
    ensures DistinctKeys(PutAll(d, ps))
  {
    if ps != [] {
      PutAllDistinct(d, ps[..|ps| - 1]);
      PutDistinct(PutAll(d, ps[..|ps| - 1]), ps[|ps| - 1].0, ps[|ps| - 1].1);
    }
  }

  /** After assigning pairs with distinct keys, each of their keys holds its
      own value. */
  lemma {:induction false} GetPutAllAt<K, V>(d: Dict<K, V>, ps: seq<(K, V)>, i: nat)
    requires DistinctKeys(ps) && i < |ps|
    ensures Get(PutAll(d, ps), ps[i].0) == Some(ps[i].1)
  {
    var init := ps[..|ps| - 1];
    var last := ps[|ps| - 1];
    GetPut(PutAll(d, init), last.0, last.1, ps[i].0);
    if i < |ps| - 1 {
      assert DistinctKeys(init) && init[i] == ps[i];
      assert ps[i].0 != last.0;
      GetPutAllAt(d, init, i);
    }
  }

  /** Assigning pairs leaves every key they do not name as it was. */
  lemma {:induction false} GetPutAllOther<K, V>(d: Dict<K, V>, ps: seq<(K, V)>, k: K)
    requires k !in Keys(ps)
    ensures Get(PutAll(d, ps), k) == Get(d, k)
  {
    if ps != [] {
      var init := ps[..|ps| - 1];
      var last := ps[|ps| - 1];
      assert Keys(ps)[|ps| - 1] == last.0;
      assert k !in Keys(init) by {
        forall j | 0 <= j < |init| ensures Keys(init)[j] != k {
          assert Keys(ps)[j] == ps[j].0;
        }
      }
      GetPutAllOther(d, init, k);
      GetPut(PutAll(d, init), last.0, last.1, k);
    }
  }

  /** Pairs whose keys are already distinct make a dictionary that holds
      them unchanged and in the same order. */
  lemma {:induction false} FromDistinctPairs<K, V>(ps: seq<(K, V)>)
    requires DistinctKeys(ps)
    ensures FromPairs(ps) == ps
  {
    if ps != [] {
      var init := ps[..|ps| - 1];
      var last := ps[|ps| - 1];
      assert DistinctKeys(init);
      FromDistinctPairs(init);
      assert last.0 !in Keys(init) by {
        forall i | 0 <= i < |init| ensures Keys(init)[i] != last.0 {
          assert ps[i].0 != ps[|ps| - 1].0;
        }
      }
      PutNew(init, last.0, last.1);
      assert init + [last] == ps;
    }
  }

  /** zip(ks, vs): pairs up to the shorter of the two lists. */
  function ZipPairs<K, V>(ks: seq<K>, vs: seq<V>): (ps: seq<(K, V)>)
    ensures |ps| == if |ks| <= |vs| then |ks| else |vs|
    ensures forall i :: 0 <= i < |ps| ==> ps[i] == (ks[i], vs[i])
  {
    seq(if |ks| <= |vs| then |ks| else |vs|, i requires 0 <= i < |ks| && i < |vs| => (ks[i], vs[i]))
  }

  /** {k: v for k in keys}: every key maps to v, in the order given. */
  function FromKeys<K, V>(keys: seq<K>, v: V): (d: Dict<K, V>)
    ensures Keys(d) == keys && forall i :: 0 <= i < |d| ==> d[i].1 == v
  {
    var d := seq(|keys|, i requires 0 <= i < |keys| => (keys[i], v));
    assert Keys(d) == keys;
    d
  }

  lemma GetFromKeys<K, V>(keys: seq<K>, v: V, k: K)
    requires k in keys
    ensures Get(FromKeys(keys, v), k) == Some(v)
  {
    var d := FromKeys(keys, v);
    var r := Get(d, k);
    var i :| 0 <= i < |d| && d[i] == (k, r.value);
  }
}

=== FILE: pystr.dfy ===
/** The Python string operations the pipeline relies on: whitespace,
    ASCII lower-casing, strip, replace-with-empty, substring test,
    split-and-take-first, and the int()/float() text parsers. */
module PyStr {
  import opened Wrappers

  /** Python's str.isspace(): the characters str.split() and the regex
      class \s treat as whitespace. */
  predicate IsSpace(c: char) {
    var n := c as int;
    (9 <= n <= 13) || (28 <= n <= 32) || n == 0x85 || n == 0xA0 || n == 0x1680
    || (0x2000 <= n <= 0x200A) || n == 0x2028 || n == 0x2029 || n == 0x202F
    || n == 0x205F || n == 0x3000
  }

  predicate IsDigit(c: char) { '0' <= c <= '9' }
  predicate IsUpper(c: char) { 'A' <= c <= 'Z' }
  predicate IsLower(c: char) { 'a' <= c <= 'z' }
  predicate IsLetter(c: char) { IsUpper(c) || IsLower(c) }

  lemma LetterNotSpace(c: char)
    requires IsLetter(c)
    ensures !IsSpace(c)
  {
    assert 65 <= c as int <= 90 || 97 <= c as int <= 122;
  }

  function LowerChar(c: char): (d: char)
    ensures IsUpper(c) ==> IsLower(d) && d as int == c as int + 32
    ensures !IsUpper(c) ==> d == c
  {
    if IsUpper(c) then (c as int + 32) as char else c
  }

  /** str.lower() on the ASCII range. */
  function Lower(s: string): (r: string)
    ensures |r| == |s|
    ensures forall i :: 0 <= i < |s| ==> r[i] == LowerChar(s[i])
  {
    if s == [] then [] else [LowerChar(s[0])] + Lower(s[1..])
  }

  lemma {:induction false} LowerIdempotent(s: string)
    ensures Lower(Lower(s)) == Lower(s)
  {
    if s != [] {
      LowerIdempotent(s[1..]);
    }
  }

  lemma {:induction false} LowerAppend(a: string, b: string)
    ensures Lower(a + b) == Lower(a) + Lower(b)
  {
    if a != [] {
      assert (a + b)[0] == a[0] && (a + b)[1..] == a[1..] + b;
      LowerAppend(a[1..], b);
    }
  }

  /** Keeps the characters for which p holds, in order. */
  function Filter(s: string, p: char -> bool): (r: string)
    ensures |r| <= |s|
    ensures forall i :: 0 <= i < |r| ==> p(r[i]) && r[i] in s
  {
    if s == [] then [] else (if p(s[0]) then [s[0]] else []) + Filter(s[1..], p)
  }

  /** filter keeps exactly the characters of s for which p holds. */
  lemma {:induction false} FilterMembers(s: string, p: char -> bool)
    ensures forall c :: c in Filter(s, p) <==> c in s && p(c)
  {
    if s != [] {
      FilterMembers(s[1..], p);
      assert s == [s[0]] + s[1..];
    }
  }

  lemma FilterAppend(a: string, b: string, p: char -> bool)
    ensures Filter(a + b, p) == Filter(a, p) + Filter(b, p)
  {
    if a != [] {
      assert (a + b)[0] == a[0] && (a + b)[1..] == a[1..] + b;
      FilterAppend(a[1..], b, p);
    } else {
      assert a + b == b;
    }
  }

  /** str.lstrip() */
  function LStrip(s: string): (r: string)
    ensures |r| <= |s| && r == s[|s| - |r|..]
    ensures r == [] || !IsSpace(r[0])
    ensures forall i :: 0 <= i < |s| - |r| ==> IsSpace(s[i])
  {
    if s != [] && IsSpace(s[0]) then LStrip(s[1..]) else s
  }

  /** str.rstrip() */
  function RStrip(s: string): (r: string)
    ensures |r| <= |s| && r == s[..|r|]
    ensures r == [] || !IsSpace(r[|r| - 1])
    ensures forall i :: |r| <= i < |s| ==> IsSpace(s[i])
  {
    if s != [] && IsSpace(s[|s| - 1]) then RStrip(s[..|s| - 1]) else s
  }

  /** str.strip(): drops leading and trailing whitespace. */
  function Strip(s: string): (r: string)
    ensures r == [] || (!IsSpace(r[0]) && !IsSpace(r[|r| - 1]))
    ensures |r| <= |s|
  {
    RStrip(LStrip(s))
  }

  /** strip() keeps a slice of s and drops only whitespace around it. */
  lemma StripIsSlice(s: string)
    ensures exists i :: StrippedAt(s, Strip(s), i)
  {
    var l := LStrip(s);
    var r := RStrip(l);
    assert r == Strip(s);
    assert r == s[|s| - |l|..][..|r|];
    assert StrippedAt(s, r, |s| - |l|);
  }

  /** r is s[i..i + |r|], and everything of s around it is whitespace. */
  predicate StrippedAt(s: string, r: string, i: int)
  {
    0 <= i && i + |r| <= |s| && r == s[i..i + |r|]
    && (forall k :: 0 <= k < i ==> IsSpace(s[k]))
    && (forall k :: i + |r| <= k < |s| ==> IsSpace(s[k]))
  }

  /** Filtering a string none of whose characters pass gives ''. */
  lemma {:induction false} FilterNone(s: string, p: char -> bool)
    requires forall i :: 0 <= i < |s| ==> !p(s[i])
    ensures Filter(s, p) == []
  {
    if s != [] {
      FilterNone(s[1..], p);
    }
  }

  /** Whitespace around a slice holds no digit. */
  lemma DigitsAround(s: string, r: string, i: int)
    requires StrippedAt(s, r, i)
    ensures Filter(r, IsDigit) == Filter(s, IsDigit)
  {
    var pre, post := s[..i], s[i + |r|..];
    assert s == pre + r + post;
    assert Filter(pre, IsDigit) == [] by {
      FilterNone(pre, IsDigit);
    }
    assert Filter(post, IsDigit) == [] by {
      FilterNone(post, IsDigit);
    }
    FilterAppend(pre + r, post, IsDigit);
    FilterAppend(pre, r, IsDigit);
  }

  /** strip() drops no digit. */
  lemma StripKeepsDigits(s: string)
    ensures Filter(Strip(s), IsDigit) == Filter(s, IsDigit)
  {
    StripIsSlice(s);
    var i :| StrippedAt(s, Strip(s), i);
    DigitsAround(s, Strip(s), i);
  }

  /** sub is the slice of s that starts at k. */
  predicate OccursAt(s: string, sub: string, k: nat)
  {
    k + |sub| <= |s| && s[k..k + |sub|] == sub
  }

  /** sub occurs in s exactly when it is some slice of s. */
  lemma {:induction false} ContainsAt(s: string, sub: string)
    ensures Contains(s, sub) <==> exists k: nat :: OccursAt(s, sub, k)
    decreases |s|
  {
    if |sub| <= |s| {
      if s[..|sub|] == sub {
        assert OccursAt(s, sub, 0);
      } else if s != [] {
        ContainsAt(s[1..], sub);
        if Contains(s[1..], sub) {
          var k: nat :| OccursAt(s[1..], sub, k);
          assert OccursAt(s, sub, k + 1);
        }
        if exists k: nat :: OccursAt(s, sub, k) {
          var k: nat :| OccursAt(s, sub, k);
          assert k != 0;
          assert OccursAt(s[1..], sub, k - 1);
        }
      }
    }
  }

  lemma OccursWiden(s: string, r: string, i: int, sub: string, k: nat)
    requires StrippedAt(s, r, i) && OccursAt(r, sub, k)
    ensures OccursAt(s, sub, i + k)
  {
    var w := s[i + k..i + k + |sub|];
    assert forall j :: 0 <= j < |w| ==> w[j] == r[k + j];
    assert w == r[k..k + |sub|];
  }

  lemma OccursNarrow(s: string, r: string, i: int, sub: string, k: nat)
    requires StrippedAt(s, r, i) && OccursAt(s, sub, k)
    requires sub != [] && !IsSpace(sub[0]) && !IsSpace(sub[|sub| - 1])
    ensures i <= k && OccursAt(r, sub, k - i)
  {
    assert s[k] == sub[0];
    assert s[k + |sub| - 1] == sub[|sub| - 1];
    var w := r[k - i..k - i + |sub|];
    assert forall j :: 0 <= j < |w| ==> w[j] == s[k + j];
    assert w == s[k..k + |sub|];
  }

  /** Whitespace around a slice holds no occurrence of a text that neither
      starts nor ends with whitespace. */
  lemma ContainsAround(s: string, r: string, i: int, sub: string)
    requires StrippedAt(s, r, i)
    requires sub != [] && !IsSpace(sub[0]) && !IsSpace(sub[|sub| - 1])
    ensures Contains(r, sub) <==> Contains(s, sub)
  {
    ContainsAt(r, sub);
    ContainsAt(s, sub);
    if Contains(r, sub) {
      var k: nat :| OccursAt(r, sub, k);
      OccursWiden(s, r, i, sub, k);
    }
    if Contains(s, sub) {
      var k: nat :| OccursAt(s, sub, k);
      OccursNarrow(s, r, i, sub, k);
    }
  }

  /** strip() neither makes nor breaks an occurrence of a text that
      neither starts nor ends with whitespace. */
  lemma StripKeepsContains(s: string, sub: string)
    requires sub != [] && !IsSpace(sub[0]) && !IsSpace(sub[|sub| - 1])
    ensures Contains(Strip(s), sub) <==> Contains(s, sub)
  {
    StripIsSlice(s);
    var i :| StrippedAt(s, Strip(s), i);
    ContainsAround(s, Strip(s), i, sub);
  }

  lemma StripNoEdgeSpace(s: string)
    requires s == [] || (!IsSpace(s[0]) && !IsSpace(s[|s| - 1]))
    ensures Strip(s) == s
  {
  }

  /** s.replace(pat, ''): removes the non-overlapping occurrences of pat found
      scanning from the left. */
  function RemoveAll(s: string, pat: string): (r: string)
    requires pat != []
    ensures |r| <= |s|
    decreases |s|
  {
    if |s| < |pat| then s
    else if s[..|pat|] == pat then RemoveAll(s[|pat|..], pat)
    else [s[0]] + RemoveAll(s[1..], pat)
  }

  /** Removing a one-character pattern keeps exactly the other characters. */
  lemma {:induction false} RemoveCharIsFilter(s: string, c: char)
    ensures RemoveAll(s, [c]) == Filter(s, x => x != c)
  {
    if s != [] {
      RemoveCharIsFilter(s[1..], c);
    }
  }

  lemma {:induction false} RemoveCharAppend(a: string, b: string, c: char)
    ensures RemoveAll(a + b, [c]) == RemoveAll(a, [c]) + RemoveAll(b, [c])
  {
    if a == [] {
      assert a + b == b;
    } else {
      assert (a + b)[..1] == a[..1] && (a + b)[1..] == a[1..] + b;
      RemoveCharAppend(a[1..], b, c);
    }
  }

  lemma {:induction false} RemoveCharAbsent(s: string, c: char)
    requires c !in s
    ensures RemoveAll(s, [c]) == s
  {
    if s != [] {
      assert s[..1] != [c] by {
        assert s[0] != c;
      }
      RemoveCharAbsent(s[1..], c);
    }
  }

  /** Removing a pattern keeps every character foreign to it. */
  lemma {:induction false} RemoveAllKeeps(s: string, pat: string, c: char)
    requires pat != [] && c in s && c !in pat
    ensures c in RemoveAll(s, pat)
    decreases |s|
  {
    var i :| 0 <= i < |s| && s[i] == c;
    if |s| < |pat| {
    } else if s[..|pat|] == pat {
      assert forall k :: 0 <= k < |pat| ==> s[k] == pat[k];
      assert |pat| <= i;
      assert s[|pat|..][i - |pat|] == c;
      RemoveAllKeeps(s[|pat|..], pat, c);
    } else if s[0] != c {
      assert s[1..][i - 1] == c;
      RemoveAllKeeps(s[1..], pat, c);
    }
  }

  /** sub in s */
  predicate Contains(s: string, sub: string)
    decreases |s|
  {
    |sub| <= |s| && (s[..|sub|] == sub || Contains(s[1..], sub))
  }

  lemma {:induction false} ContainsChar(s: string, c: char)
    ensures Contains(s, [c]) <==> c in s
  {
    if s != [] {
      ContainsChar(s[1..], c);
      assert s == [s[0]] + s[1..];
    }
  }

  /** s.split(c)[0]: the text before the first c (all of s when c is absent). */
  function SplitHead(s: string, c: char): (r: string)
    ensures |r| <= |s| && r == s[..|r|]
    ensures c !in r
    ensures |r| < |s| ==> s[|r|] == c
  {
    if s == [] then [] else if s[0] == c then [] else [s[0]] + SplitHead(s[1..], c)
  }

  /** The text before the first separator is everything before it. */
  lemma {:induction false} SplitHeadAt(a: string, b: string, c: char)
    requires c !in a
    ensures SplitHead(a + [c] + b, c) == a
  {
    if a == [] {
      assert (a + [c] + b)[0] == c;
    } else {
      assert (a + [c] + b)[0] == a[0] && (a + [c] + b)[1..] == a[1..] + [c] + b;
      SplitHeadAt(a[1..], b, c);
    }
  }

  lemma SplitHeadAbsent(s: string, c: char)
    requires c !in s
    ensures SplitHead(s, c) == s
  {
    var r := SplitHead(s, c);
    assert |r| == |s|;
  }

  // ---------------------------------------------------------------------
  // Decimal numbers

  function DigitValue(c: char): nat
    requires IsDigit(c)
  {
    c as int - '0' as int
  }

  predicate AllDigits(s: string) { forall i :: 0 <= i < |s| ==> IsDigit(s[i]) }

  /** The value of a string of decimal digits, most significant first. */
  function DigitsValue(ds: string): nat
    requires AllDigits(ds)
  {
    if ds == [] then 0 else DigitsValue(ds[..|ds| - 1]) * 10 + DigitValue(ds[|ds| - 1])
  }

  function Pow10(k: nat): (r: nat)
    ensures r >= 1
  {
    if k == 0 then 1 else 10 * Pow10(k - 1)
  }

  /** The longest prefix of s made of digits. */
  function DigitPrefix(s: string): (r: string)
    ensures |r| <= |s| && r == s[..|r|] && AllDigits(r)
    ensures |r| < |s| ==> !IsDigit(s[|r|])
  {
    if s != [] && IsDigit(s[0]) then [s[0]] + DigitPrefix(s[1..]) else []
  }

  lemma {:induction false} DigitPrefixOfDigits(s: string)
    requires AllDigits(s)
    ensures DigitPrefix(s) == s
  {
    if s != [] {
      DigitPrefixOfDigits(s[1..]);
    }
  }

  /** An unsigned decimal literal: digits, optionally followed by '.' and
      more digits, with at least one digit overall. */
  function ParseUnsignedDecimal(t: string): (r: Option<real>)
    ensures r.Some? ==> r.value >= 0.0
  {
    var ip := DigitPrefix(t);
    var rest := t[|ip|..];
    if rest == [] then
      if ip == [] then None else Some(DigitsValue(ip) as real)
    else if rest[0] != '.' then None
    else
      var fp := rest[1..];
      if !AllDigits(fp) || (ip == [] && fp == []) then None
      else Some(DecimalValue(ip, fp))
  }

  /** The value of the literal "<ip>.<fp>". */
  function DecimalValue(ip: string, fp: string): real
    requires AllDigits(ip) && AllDigits(fp)
  {
    DigitsValue(ip) as real + DigitsValue(fp) as real / Pow10(|fp|) as real
  }

  /** float(s) for decimal literals: surrounding whitespace, an optional sign,
      and an unsigned decimal literal. None stands for the ValueError. */
  function ParseFloat(s: string): Option<real>
  {
    var t := Strip(s);
    if t != [] && (t[0] == '+' || t[0] == '-') then
      match ParseUnsignedDecimal(t[1..])
      case None => None
      case Some(v) => Some(if t[0] == '-' then -v else v)
    else ParseUnsignedDecimal(t)
  }

  /** int(s): surrounding whitespace, an optional sign, and at least one
      digit. None stands for the ValueError. */
  function ParseInt(s: string): Option<int>
  {
    var t := Strip(s);
    var neg := t != [] && t[0] == '-';
    var body := if t != [] && (t[0] == '+' || t[0] == '-') then t[1..] else t;
    if body == [] || !AllDigits(body) then None
    else Some(if neg then -(DigitsValue(body) as int) else DigitsValue(body) as int)
  }

  /** A character that float() accepts nowhere in a decimal literal. */
  predicate Stray(c: char)
  {
    !IsDigit(c) && c != '.' && c != '+' && c != '-' && !IsSpace(c)
  }

  lemma StripKeeps(s: string, i: nat)
    requires i < |s| && !IsSpace(s[i])
    ensures s[i] in Strip(s)
  {
    var l := LStrip(s);
    var k := |s| - |l|;
    assert k <= i;
    assert l[i - k] == s[i];
    var r := RStrip(l);
    assert i - k < |r|;
    assert r[i - k] == s[i];
  }

  lemma UnsignedRejectsStray(u: string, c: char)
    requires c in u && Stray(c)
    ensures ParseUnsignedDecimal(u) == None
  {
    var ip := DigitPrefix(u);
    var j :| 0 <= j < |u| && u[j] == c;
    assert forall k :: 0 <= k < |ip| ==> u[k] == ip[k];
    assert |ip| <= j;
    var rest := u[|ip|..];
    assert rest[j - |ip|] == c;
    if rest[0] == '.' {
      assert 1 <= j - |ip|;
      assert rest[1..][j - |ip| - 1] == c;
    }
  }

  /** float() raises on a text holding a stray character: a letter, a
      comma, a unit. */
  lemma ParseFloatRejectsStray(s: string, c: char)
    requires c in s && Stray(c)
    ensures ParseFloat(s) == None
  {
    var i :| 0 <= i < |s| && s[i] == c;
    StripKeeps(s, i);
    var t := Strip(s);
    if t != [] && (t[0] == '+' || t[0] == '-') {
      var j :| 0 <= j < |t| && t[j] == c;
      assert 0 < j && t[1..][j - 1] == c;
      UnsignedRejectsStray(t[1..], c);
    } else {
      UnsignedRejectsStray(t, c);
    }
  }

  /** float() of a non-empty digit string is its decimal value, and float('')
      raises. */
  lemma ParseFloatOfDigits(ds: string)
    requires AllDigits(ds)
    ensures ParseFloat(ds) == if ds == [] then None else Some(DigitsValue(ds) as real)
  {
    if ds != [] {
      assert !IsSpace(ds[0]) && !IsSpace(ds[|ds| - 1]);
      StripNoEdgeSpace(ds);
      assert Strip(ds) == ds;
      assert ds[0] != '+' && ds[0] != '-';
      DigitPrefixOfDigits(ds);
      assert ds[|ds|..] == [];
      assert ParseUnsignedDecimal(ds) == Some(DigitsValue(ds) as real);
    }
  }

  /** The digit prefix of "<ip>.<fp>" is ip. */
  lemma DigitPrefixBeforePoint(ip: string, rest: string)
    requires AllDigits(ip) && rest != [] && !IsDigit(rest[0])
    ensures DigitPrefix(ip + rest) == ip
  {
    var s := ip + rest;
    var r := DigitPrefix(s);
    assert s[|ip|] == rest[0];
  }

  lemma UnsignedOfDecimal(ip: string, fp: string)
    requires AllDigits(ip) && AllDigits(fp) && ip != []
    ensures ParseUnsignedDecimal(ip + "." + fp) ==
      Some(DecimalValue(ip, fp))
  {
    var rest := ['.'] + fp;
    var s := ip + rest;
    assert ip + "." + fp == s;
    assert DigitPrefix(s) == ip by {
      DigitPrefixBeforePoint(ip, rest);
    }
    assert s[|ip|..] == rest;
    assert rest[1..] == fp;
  }

  /** Removing '$' from "$<ip>.<fp>" leaves the decimal literal. */
  lemma DollarsRemoved(ip: string, fp: string)
    requires AllDigits(ip) && AllDigits(fp)
    ensures RemoveAll("$" + ip + "." + fp, "$") == ip + "." + fp
  {
    var num := ip + "." + fp;
    assert '$' !in num by {
      assert forall i :: 0 <= i < |num| ==> num[i] == '.' || IsDigit(num[i]);
    }
    assert "$" + ip + "." + fp == "$" + num;
    RemoveCharAppend("$", num, '$');
    assert RemoveAll("$", "$") == [];
    RemoveCharAbsent(num, '$');
  }

  /** float() of "<ip>.<fp>", digits before and after the point, is that
      decimal; the fraction may be empty, as in "4.". */
  lemma ParseFloatOfDecimal(ip: string, fp: string)
    requires AllDigits(ip) && AllDigits(fp) && ip != []
    ensures ParseFloat(ip + "." + fp) ==
      Some(DecimalValue(ip, fp))
  {
    var s := ip + "." + fp;
    assert s[0] == ip[0];
    assert !IsSpace(s[|s| - 1]) by {
      if fp == [] {
        assert s[|s| - 1] == '.';
      } else {
        assert s[|s| - 1] == fp[|fp| - 1];
      }
    }
    StripNoEdgeSpace(s);
    UnsignedOfDecimal(ip, fp);
  }

  // ---------------------------------------------------------------------
  // str() of integers

  function DigitChar(d: nat): (c: char)
    requires d < 10
    ensures IsDigit(c) && DigitValue(c) == d
  {
    ('0' as int + d) as char
  }

  /** str(n) for n >= 0 */
  function NatToString(n: nat): (s: string)
    ensures s != [] && AllDigits(s) && DigitsValue(s) == n
  {
    if n < 10 then [DigitChar(n)]
    else
      var s := NatToString(n / 10) + [DigitChar(n % 10)];
      assert s[..|s| - 1] == NatToString(n / 10);
      s
  }

  /** str(i) */
  function IntToString(i: int): string
  {
    if i < 0 then "-" + NatToString(-i) else NatToString(i)
  }

  /** int(str(i)) == i */
  lemma IntRoundTrip(i: int)
    ensures ParseInt(IntToString(i)) == Some(i)
  {
    if i < 0 {
      var d := NatToString(-i);
      var s := IntToString(i);
      assert s == "-" + d && s[1..] == d;
      NegativeDigits(s);
    } else {
      var d := NatToString(i);
      assert IntToString(i) == d;
      PlainDigits(d);
    }
  }

  /** A run of digits parses to its value. */
  lemma PlainDigits(d: string)
    requires d != [] && AllDigits(d)
    ensures ParseInt(d) == Some(DigitsValue(d) as int)
  {
    assert IsDigit(d[0]) && IsDigit(d[|d| - 1]);
    StripNoEdgeSpace(d);
  }

  /** A minus sign before a run of digits parses to the negated value. */
  lemma NegativeDigits(s: string)
    requires |s| >= 2 && s[0] == '-' && AllDigits(s[1..])
    ensures ParseInt(s) == Some(-(DigitsValue(s[1..]) as int))
  {
    assert IsDigit(s[1..][|s| - 2]);
    StripNoEdgeSpace(s);
  }

  // ---------------------------------------------------------------------
  // Slicing

  /** s[:n] for a list or a string; a negative n counts from the end. */
  function PrefixSlice<T>(s: seq<T>, n: int): (r: seq<T>)
    ensures |r| <= |s| && r == s[..|r|]
    ensures n >= 0 ==> |r| == if n <= |s| then n else |s|
    ensures n < 0 ==> |r| == if |s| + n >= 0 then |s| + n else 0
  {
    if n >= 0 then (if n <= |s| then s[..n] else s)
    else if |s| + n >= 0 then s[..|s| + n] else []
  }
}

=== FILE: ranking.dfy ===
/** Ordering (feature, importance) pairs by importance, highest first, the
    way Python's sorted(..., key=score, reverse=True) does: a stable sort,
    so pairs with equal scores keep their original order. */
module Ranking {
  import opened PyDict

  type Scored = (string, real)

  predicate NonIncreasing(s: seq<Scored>)
  {
    forall i, j :: 0 <= i < j < |s| ==> s[i].1 >= s[j].1
  }

  /** The pairs scoring exactly v, in their order in s. */
  function WithScore(s: seq<Scored>, v: real): (r: seq<Scored>)
    ensures |r| <= |s|
  {
    if s == [] then [] else (if s[0].1 == v then [s[0]] else []) + WithScore(s[1..], v)
  }

  /** x placed in front of the first pair that does not score more. */
  function InsertDesc(x: Scored, s: seq<Scored>): (r: seq<Scored>)
    ensures |r| == |s| + 1
  {
    if s == [] || s[0].1 <= x.1 then [x] + s else [s[0]] + InsertDesc(x, s[1..])
  }

  /** sorted(s, key=lambda p: p[1], reverse=True) */
  function SortDesc(s: seq<Scored>): (r: seq<Scored>)
    ensures |r| == |s|
  {
    if s == [] then [] else InsertDesc(s[0], SortDesc(s[1..]))
  }

  lemma {:induction false} InsertDescPermutes(x: Scored, s: seq<Scored>)
    ensures multiset(InsertDesc(x, s)) == multiset(s) + multiset{x}
  {
    if s != [] && s[0].1 > x.1 {
      InsertDescPermutes(x, s[1..]);
      assert s == [s[0]] + s[1..];
    }
  }

  /** The sort neither loses nor invents a pair. */
  lemma {:induction false} SortDescPermutes(s: seq<Scored>)
    ensures multiset(SortDesc(s)) == multiset(s)
  {
    if s != [] {
      SortDescPermutes(s[1..]);
      InsertDescPermutes(s[0], SortDesc(s[1..]));
      assert s == [s[0]] + s[1..];
    }
  }

  lemma {:induction false} InsertDescMembers(x: Scored, s: seq<Scored>)
    ensures forall p :: p in InsertDesc(x, s) <==> p == x || p in s
  {
    if s != [] && s[0].1 > x.1 {
      InsertDescMembers(x, s[1..]);
      assert s == [s[0]] + s[1..];
    }
  }

  /** The first pair of a non-increasing list scores at least as much as
      any later one. */
  lemma HeadDominates(s: seq<Scored>)
    requires NonIncreasing(s) && s != []
    ensures forall p :: p in s[1..] ==> s[0].1 >= p.1
  {
    forall p | p in s[1..] ensures s[0].1 >= p.1 {
      var k :| 0 <= k < |s[1..]| && s[1..][k] == p;
      assert s[k + 1] == p;
    }
  }

  lemma {:induction false} InsertDescOrdered(x: Scored, s: seq<Scored>)
    requires NonIncreasing(s)
    ensures NonIncreasing(InsertDesc(x, s))
  {
    if s != [] && s[0].1 > x.1 {
      var t := InsertDesc(x, s[1..]);
      InsertDescOrdered(x, s[1..]);
      InsertDescMembers(x, s[1..]);
      HeadDominates(s);
      var r := InsertDesc(x, s);
      assert r == [s[0]] + t;
      forall i, j | 0 <= i < j < |r| ensures r[i].1 >= r[j].1 {
        assert r[j] == t[j - 1] && r[j] in t;
        if i > 0 {
          assert r[i] == t[i - 1];
        }
      }
    }
  }

  /** Scores come out highest first. */
  lemma {:induction false} SortDescOrdered(s: seq<Scored>)
    ensures NonIncreasing(SortDesc(s))
  {
    if s != [] {
      SortDescOrdered(s[1..]);
      InsertDescOrdered(s[0], SortDesc(s[1..]));
    }
  }

  lemma WithScoreCons(x: Scored, s: seq<Scored>, v: real)
    ensures WithScore([x] + s, v) == (if x.1 == v then [x] else []) + WithScore(s, v)
  {
    assert ([x] + s)[1..] == s;
  }

  lemma {:induction false} InsertDescStable(x: Scored, s: seq<Scored>, v: real)
    ensures WithScore(InsertDesc(x, s), v) == (if x.1 == v then [x] else []) + WithScore(s, v)
  {
    if s == [] || s[0].1 <= x.1 {
      WithScoreCons(x, s, v);
    } else {
      InsertDescStable(x, s[1..], v);
      WithScoreCons(s[0], InsertDesc(x, s[1..]), v);
      WithScoreCons(s[0], s[1..], v);
      assert [s[0]] + s[1..] == s;
    }
  }

  /** Stability: the pairs of any one score appear in the result in the
      order they had in the input. */
  lemma {:induction false} SortDescStable(s: seq<Scored>, v: real)
    ensures WithScore(SortDesc(s), v) == WithScore(s, v)
  {
    if s != [] {
      SortDescStable(s[1..], v);
      InsertDescStable(s[0], SortDesc(s[1..]), v);
      WithScoreCons(s[0], s[1..], v);
      assert [s[0]] + s[1..] == s;
    }
  }

  lemma {:induction false} InsertDescDistinct(x: Scored, s: seq<Scored>)
    requires DistinctKeys(s) && forall p :: p in s ==> p.0 != x.0
    ensures DistinctKeys(InsertDesc(x, s))
  {
    if s != [] && s[0].1 > x.1 {
      var t := InsertDesc(x, s[1..]);
      InsertDescDistinct(x, s[1..]);
      InsertDescMembers(x, s[1..]);
      forall p | p in s[1..] ensures p.0 != s[0].0 {
        var k :| 0 <= k < |s[1..]| && s[1..][k] == p;
        assert s[k + 1] == p;
      }
      var r := InsertDesc(x, s);
      assert r == [s[0]] + t;
      forall i, j | 0 <= i < j < |r| ensures r[i].0 != r[j].0 {
        assert r[j] == t[j - 1] && r[j] in t;
        if i > 0 {
          assert r[i] == t[i - 1];
        }
      }
    }
  }

  /** Sorting keeps the features distinct, so building a dict from the
      sorted pairs keeps every one of them. */
  lemma {:induction false} SortDescDistinct(s: seq<Scored>)
    requires DistinctKeys(s)
    ensures DistinctKeys(SortDesc(s))
  {
    if s != [] {
      var t := SortDesc(s[1..]);
      SortDescDistinct(s[1..]);
      SortDescPermutes(s[1..]);
      forall p | p in t ensures p.0 != s[0].0 {
        assert p in multiset(t);
        var k :| 0 <= k < |s[1..]| && s[1..][k] == p;
        assert s[k + 1] == p;
      }
      InsertDescDistinct(s[0], t);
    }
  }
}


=== FILE: rating_predictor.dfy ===
/** The single-model predictor of src/models/rating_predictor.py: the
    regressor and search grid chosen by model type, the reconciliation of
    a frame with the eight training columns, training with or without a
    grid search, and the guards on an absent model. */
module RatingModel {
  import opened Wrappers
  import opened PyDict
  import opened Ranking
  import opened Estimators

  // ---------------------------------------------------------------------
  // Model type

  /** A hyper-parameter grid: each parameter name with its candidate values. */
  type Grid = Dict<string, seq<Option<int>>>

  /** The number of parameter combinations a search over g tries. */
  function Combinations(g: Grid): nat
  {
    if g == [] then 1 else |g[0].1| * Combinations(g[1..])
  }

  datatype Config = Config(estimator: Estimator, grid: Grid)

  const ForestGrid: Grid := [
    ("n_estimators", [Some(100), Some(200), Some(300)]),
    ("max_depth", [Some(10), Some(20), Some(30), None]),
    ("min_samples_split", [Some(2), Some(5), Some(10)])]

  /** The model_type branch of __init__: a forest of 100 trees with seed 42
      (the library's defaults for depth and split size) searched over 36
      combinations, a linear regression with nothing to search, or a
      ValueError for any other name. */
  function Configure(modelType: string): (r: Result<Config>)
    ensures r.Ok? <==> modelType == "rf" || modelType == "linear"
    ensures r.Raised? ==> r.exc == ValueError
    ensures modelType == "rf" ==>
      r.value.estimator == RandomForest(100, None, 2, 42) && Combinations(r.value.grid) == 36
    ensures modelType == "linear" ==> r.value.estimator == LinearRegression && r.value.grid == []
  {
    if modelType == "rf" then Ok(Config(RandomForest(100, None, 2, 42), ForestGrid))
    else if modelType == "linear" then Ok(Config(LinearRegression, []))
    else Raised(ValueError)
  }

  // ---------------------------------------------------------------------
  // prepare_features

  /** A pandas cell: an integer, a float, a string or NaN. */
  datatype Cell = IntCell(i: int) | RealCell(x: real) | TextCell(s: string) | NaN

  /** Every column holds one cell per row. */
  predicate Rectangular(d: Dict<string, seq<Cell>>, height: nat)
  {
    forall i :: 0 <= i < |d| ==> |d[i].1| == height
  }

  const FeatureColumns: seq<string> :=
    ["price", "size_mb", "downloads", "category", "platform", "rating_count", "review_count", "sentiment_score"]

  /** The column df[col] = 0 adds. */
  function ZeroColumn(height: nat): (z: seq<Cell>)
    ensures |z| == height && forall i :: 0 <= i < height ==> z[i] == IntCell(0)
  {
    seq(height, _ => IntCell(0))
  }

  /** The columns of the frame once the loop of prepare_features has gone
      through cols: each column not yet present is appended, all zeros. */
  function Reconciled(d: Dict<string, seq<Cell>>, cols: seq<string>, height: nat): Dict<string, seq<Cell>>
  {
    if cols == [] then d
    else
      var e := Reconciled(d, cols[..|cols| - 1], height);
      if cols[|cols| - 1] in Keys(e) then e else Put(e, cols[|cols| - 1], ZeroColumn(height))
  }

  /** The columns the loop warns about, in the order it meets them, for a
      frame that starts with the column names keys. */
  function Warned(keys: seq<string>, cols: seq<string>): seq<string>
  {
    if cols == [] then []
    else
      var w := Warned(keys, cols[..|cols| - 1]);
      w + if cols[|cols| - 1] in keys + w then [] else [cols[|cols| - 1]]
  }

  /** The added columns come after the existing ones, in warning order. */
  lemma {:induction false} ReconciledKeys(d: Dict<string, seq<Cell>>, cols: seq<string>, height: nat)
    ensures Keys(Reconciled(d, cols, height)) == Keys(d) + Warned(Keys(d), cols)
  {
    if cols != [] {
      ReconciledKeys(d, cols[..|cols| - 1], height);
    }
  }

  /** A column is warned about exactly when it is required and absent. */
  lemma {:induction false} WarnedExactly(keys: seq<string>, cols: seq<string>, c: string)
    ensures c in Warned(keys, cols) <==> c in cols && c !in keys
  {
    if cols != [] {
      var init := cols[..|cols| - 1];
      WarnedExactly(keys, init, c);
      assert cols == init + [cols[|cols| - 1]];
    }
  }

  /** Existing columns keep their cells; a required absent column holds
      zeros; nothing else appears. */
  lemma {:induction false} ReconciledGet(d: Dict<string, seq<Cell>>, cols: seq<string>, height: nat, k: string)
    ensures Get(Reconciled(d, cols, height), k) ==
      if k in Keys(d) then Get(d, k) else if k in cols then Some(ZeroColumn(height)) else None
  {
    if cols != [] {
      var init := cols[..|cols| - 1];
      var c := cols[|cols| - 1];
      ReconciledGet(d, init, height, k);
      assert cols == init + [c];
      var e := Reconciled(d, init, height);
      if c !in Keys(e) {
        GetPut(e, c, ZeroColumn(height), k);
        if k == c {
          ReconciledGet(d, init, height, c);
        }
      }
    }
  }

  /** One more turn of the loop: the column is added and warned about
      exactly when it is not yet present. */
  lemma ReconcileStep(d: Dict<string, seq<Cell>>, cols: seq<string>, i: nat, height: nat)
    requires i < |cols|
    ensures var e := Reconciled(d, cols[..i], height);
      && Keys(e) == Keys(d) + Warned(Keys(d), cols[..i])
      && Reconciled(d, cols[..i + 1], height) == (if cols[i] in Keys(e) then e else Put(e, cols[i], ZeroColumn(height)))
      && Warned(Keys(d), cols[..i + 1]) ==
           Warned(Keys(d), cols[..i]) + if cols[i] in Keys(e) then [] else [cols[i]]
  {
    assert cols[..i + 1][..i] == cols[..i];
    ReconciledKeys(d, cols[..i], height);
  }

  lemma {:induction false} PutRectangular(d: Dict<string, seq<Cell>>, k: string, v: seq<Cell>, height: nat)
    requires Rectangular(d, height) && |v| == height
    ensures Rectangular(Put(d, k, v), height)
  {
    if d != [] && d[0].0 != k {
      PutRectangular(d[1..], k, v, height);
    }
  }

  /** df[cols] */
  function Select(d: Dict<string, seq<Cell>>, cols: seq<string>): (x: Dict<string, seq<Cell>>)
    requires forall k :: k in cols ==> k in Keys(d)
    ensures Keys(x) == cols
  {
    seq(|cols|, i requires 0 <= i < |cols| => (cols[i], Get(d, cols[i]).value))
  }

  /** What prepare_features returns: exactly the required columns in their
      listed order, one cell per row, a present column as it was and an
      absent one as zeros. */
  lemma PreparedColumns(d: Dict<string, seq<Cell>>, cols: seq<string>, height: nat)
    requires Rectangular(d, height)
    ensures forall k :: k in cols ==> k in Keys(Reconciled(d, cols, height))
    ensures var x := Select(Reconciled(d, cols, height), cols);
      && Keys(x) == cols
      && Rectangular(x, height)
      && forall i :: 0 <= i < |x| ==>
           x[i].1 == if cols[i] in Keys(d) then Get(d, cols[i]).value else ZeroColumn(height)
  {
    forall k | k in cols ensures k in Keys(Reconciled(d, cols, height)) {
      ReconciledGet(d, cols, height, k);
    }
    var x := Select(Reconciled(d, cols, height), cols);
    forall i | 0 <= i < |x|
      ensures x[i].1 == if cols[i] in Keys(d) then Get(d, cols[i]).value else ZeroColumn(height)
      ensures |x[i].1| == height
    {
      ReconciledGet(d, cols, height, cols[i]);
      if cols[i] in Keys(d) {
        var j :| 0 <= j < |d| && d[j] == (cols[i], Get(d, cols[i]).value);
      }
    }
  }

  /** A DataFrame, whose columns code may add in place. Column labels are
      distinct. */
  class Frame {
    var columns: Dict<string, seq<Cell>>
    const height: nat

    predicate Valid()
      reads this
    {
      DistinctKeys(columns) && Rectangular(columns, height)
    }

    constructor (columns: Dict<string, seq<Cell>>, height: nat)
      requires DistinctKeys(columns) && Rectangular(columns, height)
      ensures this.columns == columns && this.height == height && Valid()
    {
      this.columns := columns;
      this.height := height;
    }
  }

  // ---------------------------------------------------------------------
  // Training

  /** The estimator train ends with: the best one of a grid search when
      asked to optimise and there is a grid, the plainly fitted one
      otherwise. Without a model the fit fails in the library. */
  function TrainedModel(model: Option<Estimator>, grid: Grid, optimize: bool,
                        fit: Estimator -> Estimator, search: (Estimator, Grid) -> Estimator): (r: Result<Estimator>)
    ensures r.Ok? <==> model.Some?
  {
    if optimize && grid != [] then
      (if model.None? then Raised(ValueError) else Ok(search(model.value, grid)))
    else if model.None? then Raised(AttributeError) else Ok(fit(model.value))
  }

  /** A linear predictor never searches, whatever optimize says. */
  lemma LinearNeverSearches(model: Estimator, optimize: bool,
                            fit: Estimator -> Estimator, search: (Estimator, Grid) -> Estimator)
    ensures TrainedModel(Some(model), Configure("linear").value.grid, optimize, fit, search) == Ok(fit(model))
  {
  }

  /** A forest predictor searches its grid exactly when asked to optimise. */
  lemma ForestSearchesWhenOptimizing(model: Estimator, optimize: bool,
                                     fit: Estimator -> Estimator, search: (Estimator, Grid) -> Estimator)
    ensures TrainedModel(Some(model), Configure("rf").value.grid, optimize, fit, search) ==
      if optimize then Ok(search(model, ForestGrid)) else Ok(fit(model))
  {
  }

  /** The importance table of train: X's columns paired with the fitted
      importances, highest first. A model without importances raises
      AttributeError; lists of different lengths make the DataFrame
      constructor raise ValueError. */
  function ImportanceTable(columns: seq<string>, importances: Option<seq<real>>): (r: Result<seq<Scored>>)
    ensures r.Ok? <==> importances.Some? && |importances.value| == |columns|
    ensures importances.None? ==> r == Raised(AttributeError)
    ensures importances.Some? && |importances.value| != |columns| ==> r == Raised(ValueError)
    ensures r.Ok? ==>
      && multiset(r.value) == multiset(ZipPairs(columns, importances.value))
      && NonIncreasing(r.value)
  {
    match importances
    case None => Raised(AttributeError)
    case Some(imp) =>
      if |imp| != |columns| then Raised(ValueError)
      else
        var pairs := ZipPairs(columns, imp);
        SortDescPermutes(pairs);
        SortDescOrdered(pairs);
        Ok(SortDesc(pairs))
  }

  // ---------------------------------------------------------------------
  // The predictor

  class RatingPredictor {
    const modelType: string
    const paramGrid: Grid
    var model: Option<Estimator>
    var featureImportance: Option<seq<Scored>>

    /** The fields __init__ sets once the branch has chosen a configuration. */
    constructor (modelType: string, config: Config)
      ensures this.modelType == modelType && paramGrid == config.grid
      ensures model == Some(config.estimator) && featureImportance == None
    {
      this.modelType := modelType;
      paramGrid := config.grid;
      model := Some(config.estimator);
      featureImportance := None;
    }

    /** RatingPredictor(model_type) */
    static method Create(modelType: string) returns (r: Result<RatingPredictor>)
      ensures r.Raised? <==> Configure(modelType).Raised?
      ensures r.Raised? ==> r.exc == ValueError
      ensures r.Ok? ==>
        && fresh(r.value)
        && r.value.modelType == modelType
        && r.value.model == Some(Configure(modelType).value.estimator)
        && r.value.paramGrid == Configure(modelType).value.grid
        && r.value.featureImportance == None
    {
      var config := Configure(modelType);
      if config.Raised? {
        return Raised(config.exc);
      }
      var p := new RatingPredictor(modelType, config.value);
      r := Ok(p);
    }

    /** prepare_features: adds every missing training column to the
        caller's frame, warning about each, and returns the training
        columns. */
    method PrepareFeatures(df: Frame) returns (x: Dict<string, seq<Cell>>, warnings: seq<string>)
      requires df.Valid()
      modifies df
      ensures df.Valid()
      ensures df.columns == Reconciled(old(df.columns), FeatureColumns, df.height)
      ensures warnings == Warned(Keys(old(df.columns)), FeatureColumns)
      ensures forall k :: k in FeatureColumns ==> k in Keys(df.columns)
      ensures x == Select(df.columns, FeatureColumns)
    {
      warnings := AddMissing(df, FeatureColumns);
      x := Select(df.columns, FeatureColumns);
    }

    /** The loop of prepare_features over the required columns cols. */
    method AddMissing(df: Frame, cols: seq<string>) returns (warnings: seq<string>)
      requires df.Valid()
      modifies df
      ensures df.Valid()
      ensures df.columns == Reconciled(old(df.columns), cols, df.height)
      ensures warnings == Warned(Keys(old(df.columns)), cols)
      ensures forall k :: k in cols ==> k in Keys(df.columns)
    {
      ghost var d0 := df.columns;
      warnings := [];
      for i := 0 to |cols|
        invariant df.columns == Reconciled(d0, cols[..i], df.height)
        invariant warnings == Warned(Keys(d0), cols[..i])
        invariant df.Valid()
      {
        ReconcileStep(d0, cols, i, df.height);
        if cols[i] !in Keys(df.columns) {
          warnings := warnings + [cols[i]];
          PutDistinct(df.columns, cols[i], ZeroColumn(df.height));
          PutRectangular(df.columns, cols[i], ZeroColumn(df.height), df.height);
          df.columns := Put(df.columns, cols[i], ZeroColumn(df.height));
        }
      }
      assert cols[..|cols|] == cols;
      PreparedColumns(d0, cols, df.height);
    }

    /** train: fits the model (through a grid search when asked and there
        is a grid), records the importance table for a forest predictor,
        and returns the training and validation scores. */
    method Train(columns: seq<string>, optimize: bool,
                 fit: Estimator -> Estimator, search: (Estimator, Grid) -> Estimator,
                 importances: Estimator -> Option<seq<real>>, score: Estimator -> (real, real))
      returns (r: Result<(real, real)>)
      modifies this
      ensures var t := TrainedModel(old(model), paramGrid, optimize, fit, search);
        && (t.Raised? ==> r == Raised(t.exc) && model == old(model) && featureImportance == old(featureImportance))
        && (t.Ok? ==> model == Some(t.value))
        && (t.Ok? && modelType != "rf" ==> r == Ok(score(t.value)) && featureImportance == old(featureImportance))
        && (t.Ok? && modelType == "rf" ==>
              var table := ImportanceTable(columns, importances(t.value));
              && (table.Raised? ==> r == Raised(table.exc) && featureImportance == old(featureImportance))
              && (table.Ok? ==>
                    && r == Ok(score(t.value))
                    && featureImportance.Some?
                    && multiset(featureImportance.value) == multiset(table.value)
                    && NonIncreasing(featureImportance.value)))
    {
      var t := TrainedModel(model, paramGrid, optimize, fit, search);
      if t.Raised? {
        return Raised(t.exc);
      }
      model := Some(t.value);
      if modelType == "rf" {
        var table := ImportanceTable(columns, importances(t.value));
        if table.Raised? {
          return Raised(table.exc);
        }
        featureImportance := Some(table.value);
      }
      r := Ok(score(t.value));
    }

    /** predict: the model's predictions, or ValueError when there is no
        model. */
    method Predict<X>(x: X, predict: (Estimator, X) -> seq<real>) returns (r: Result<seq<real>>)
      ensures model.None? ==> r == Raised(ValueError)
      ensures model.Some? ==> r == Ok(predict(model.value, x))
    {
      if model.None? {
        return Raised(ValueError);
      }
      r := Ok(predict(model.value, x));
    }

    /** get_feature_importance: the table, or None (with a warning) before
        a forest has been trained. */
    method GetFeatureImportance() returns (r: Option<seq<Scored>>)
      ensures r == featureImportance
    {
      r := featureImportance;
    }

    /** save_model: the files on disk after dumping the model to path, or
        ValueError when there is no model. */
    method SaveModel(path: string, disk: map<string, Estimator>) returns (r: Result<map<string, Estimator>>)
      ensures model.None? ==> r == Raised(ValueError)
      ensures model.Some? ==> r == Ok(disk[path := model.value])
    {
      if model.None? {
        return Raised(ValueError);
      }
      r := Ok(disk[path := model.value]);
    }

    /** load_model: whatever object the file held becomes the model. */
    method LoadModel(loaded: Option<Estimator>)
      modifies this
      ensures model == loaded && featureImportance == old(featureImportance)
    {
      model := loaded;
    }
  }
}

=== FILE: stats.dfy ===
/** The two column statistics pandas computes when filling gaps:
    Series.median() over the present numbers and Series.mode()[0] over the
    present strings. */
module Stats {
  import opened Ordering

  predicate Ascending(s: seq<real>)
  {
    forall i, j :: 0 <= i < j < |s| ==> s[i] <= s[j]
  }

  lemma AscendingCons(h: real, t: seq<real>)
    requires Ascending(t)
    requires forall k :: 0 <= k < |t| ==> h <= t[k]
    ensures Ascending([h] + t)
  {
  }

  function InsertReal(x: real, s: seq<real>): (r: seq<real>)
    requires Ascending(s)
    ensures Ascending(r)
    ensures multiset(r) == multiset(s) + multiset{x}
  {
    if s == [] || x <= s[0] then
      AscendingCons(x, s);
      [x] + s
    else
      AscendingTail(s);
      var t := InsertReal(x, s[1..]);
      HeadBelowInserted(x, s, t);
      AscendingCons(s[0], t);
      assert s == [s[0]] + s[1..];
      [s[0]] + t
  }

  lemma AscendingTail(s: seq<real>)
    requires Ascending(s) && s != []
    ensures Ascending(s[1..])
  {
    forall i, j | 0 <= i < j < |s[1..]| ensures s[1..][i] <= s[1..][j] {
      assert s[1..][i] == s[i + 1] && s[1..][j] == s[j + 1];
    }
  }

  /** The head of an ascending list bounds every element of the list it
      was taken from, with one larger value inserted. */
  lemma HeadBelowInserted(x: real, s: seq<real>, t: seq<real>)
    requires Ascending(s) && s != [] && s[0] < x
    requires multiset(t) == multiset(s[1..]) + multiset{x}
    ensures forall k :: 0 <= k < |t| ==> s[0] <= t[k]
  {
    forall k | 0 <= k < |t| ensures s[0] <= t[k] {
      assert t[k] in multiset(t);
      if t[k] != x {
        assert t[k] in multiset(s[1..]);
        var m :| 0 <= m < |s[1..]| && s[1..][m] == t[k];
        assert s[m + 1] == t[k];
      }
    }
  }

  /** Ascending insertion sort. */
  function SortReals(s: seq<real>): (r: seq<real>)
    ensures Ascending(r)
    ensures multiset(r) == multiset(s)
  {
    if s == [] then []
    else
      assert s == [s[0]] + s[1..];
      InsertReal(s[0], SortReals(s[1..]))
  }

  /** Series.median() over a non-empty list of present values: the middle
      value, or the mean of the two middle values. */
  function Median(s: seq<real>): real
    requires s != []
  {
    var t := SortReals(s);
    assert |t| == |multiset(t)| == |multiset(s)| == |s|;
    Middle(t)
  }

  /** The middle value of a list, or the mean of its two middle values. */
  function Middle(t: seq<real>): real
    requires t != []
  {
    var n := |t|;
    if n % 2 == 1 then t[n / 2] else (t[n / 2 - 1] + t[n / 2]) / 2.0
  }

  function MinOf(s: seq<real>): (m: real)
    requires s != []
    ensures m in s && forall x :: x in s ==> m <= x
  {
    if |s| == 1 then s[0]
    else
      var m := MinOf(s[1..]);
      assert forall x :: x in s ==> x == s[0] || x in s[1..];
      if s[0] <= m then s[0] else m
  }

  function MaxOf(s: seq<real>): (m: real)
    requires s != []
    ensures m in s && forall x :: x in s ==> x <= m
  {
    if |s| == 1 then s[0]
    else
      var m := MaxOf(s[1..]);
      assert forall x :: x in s ==> x == s[0] || x in s[1..];
      if m <= s[0] then s[0] else m
  }

  /** The median lies between the smallest and the largest present value. */
  lemma MedianWithinRange(s: seq<real>)
    requires s != []
    ensures MinOf(s) <= Median(s) <= MaxOf(s)
  {
    var t := SortReals(s);
    assert |t| == |multiset(t)| == |multiset(s)| == |s|;
    SortedEnds(s, t);
    MiddleWithin(t);
  }

  lemma SortedEnds(s: seq<real>, t: seq<real>)
    requires s != [] && t != [] && multiset(t) == multiset(s)
    ensures MinOf(s) <= t[0] && t[|t| - 1] <= MaxOf(s)
  {
    assert t[0] in multiset(s) && t[|t| - 1] in multiset(s);
    assert t[0] in s && t[|t| - 1] in s;
  }

  lemma MiddleWithin(t: seq<real>)
    requires t != [] && Ascending(t)
    ensures t[0] <= Middle(t) <= t[|t| - 1]
  {
    var n := |t|;
    var h := n / 2;
    assert t[0] <= t[h] <= t[n - 1];
    if n % 2 == 0 {
      var a, b := t[h - 1], t[h];
      assert t[0] <= a <= t[n - 1];
      assert Middle(t) == (a + b) / 2.0;
      MeanWithin(a, b, t[0], t[n - 1]);
    }
  }

  lemma MeanWithin(a: real, b: real, lo: real, hi: real)
    requires lo <= a <= hi && lo <= b <= hi
    ensures lo <= (a + b) / 2.0 <= hi
  {
  }

  lemma AscendingHeadIsMin(a: seq<real>)
    requires Ascending(a) && a != []
    ensures forall y :: y in multiset(a) ==> a[0] <= y
  {
    forall y | y in multiset(a) ensures a[0] <= y {
      assert y in a;
      var i :| 0 <= i < |a| && a[i] == y;
    }
  }

  /** Two ascending lists with the same elements are equal. */
  lemma {:induction false} AscendingUnique(a: seq<real>, b: seq<real>)
    requires Ascending(a) && Ascending(b) && multiset(a) == multiset(b)
    ensures a == b
    decreases |a|
  {
    assert |a| == |multiset(a)| == |multiset(b)| == |b|;
    if a != [] {
      SameHead(a, b);
      TailMultiset(a);
      TailMultiset(b);
      AscendingTail(a);
      AscendingTail(b);
      AscendingUnique(a[1..], b[1..]);
      assert a == [a[0]] + a[1..] && b == [b[0]] + b[1..];
    }
  }

  lemma SameHead(a: seq<real>, b: seq<real>)
    requires Ascending(a) && Ascending(b) && multiset(a) == multiset(b) && a != [] && b != []
    ensures a[0] == b[0]
  {
    AscendingHeadIsMin(a);
    AscendingHeadIsMin(b);
    assert a[0] in multiset(a) && b[0] in multiset(b);
  }

  lemma TailMultiset(a: seq<real>)
    requires a != []
    ensures multiset(a[1..]) == multiset(a) - multiset{a[0]}
  {
    assert a == [a[0]] + a[1..];
    assert multiset(a) == multiset{a[0]} + multiset(a[1..]);
  }

  /** The median does not depend on the order of the rows: concatenating the
      stores in another order yields the same fill value. */
  lemma MedianOrderIndependent(a: seq<real>, b: seq<real>)
    requires a != [] && multiset(a) == multiset(b)
    ensures b != [] && Median(a) == Median(b)
  {
    assert |b| == |multiset(b)| == |multiset(a)| == |a|;
    var sa := SortReals(a);
    var sb := SortReals(b);
    assert multiset(sa) == multiset(sb);
    AscendingUnique(sa, sb);
  }

  // ---------------------------------------------------------------------
  // Mode

  function Count(vals: seq<string>, v: string): nat
  {
    multiset(vals)[v]
  }

  /** a is at least as good a mode as b: more frequent, or as frequent and
      not greater in string order. */
  predicate Beats(vals: seq<string>, a: string, b: string)
  {
    Count(vals, a) > Count(vals, b) || (Count(vals, a) == Count(vals, b) && StrLe(a, b))
  }

  lemma {:induction false} StrLeReflexive(a: string)
    ensures StrLe(a, a)
    decreases |a|
  {
    if a != [] {
      StrLeReflexive(a[1..]);
    }
  }

  lemma BeatsTransitive(vals: seq<string>, a: string, b: string, c: string)
    requires Beats(vals, a, b) && Beats(vals, b, c)
    ensures Beats(vals, a, c)
  {
    if Count(vals, a) == Count(vals, b) == Count(vals, c) {
      StrLeTransitive(a, b, c);
    }
  }

  /** The candidate that beats every other candidate. */
  function ModeAmong(cands: seq<string>, vals: seq<string>): (r: string)
    requires cands != []
    ensures r in cands
    ensures forall c :: c in cands ==> Beats(vals, r, c)
  {
    StrLeReflexive(cands[0]);
    if |cands| == 1 then cands[0]
    else
      var b := ModeAmong(cands[1..], vals);
      assert forall c :: c in cands ==> c == cands[0] || c in cands[1..];
      StrLeTotal(cands[0], b);
      if Beats(vals, cands[0], b) then
        assert forall c :: c in cands[1..] ==> Beats(vals, cands[0], c) by {
          forall c | c in cands[1..] ensures Beats(vals, cands[0], c) {
            BeatsTransitive(vals, cands[0], b, c);
          }
        }
        cands[0]
      else
        b
  }

  /** Series.mode()[0] over a non-empty list of present values: the most
      frequent value, the smallest one when several are equally frequent. */
  function Mode(vals: seq<string>): (r: string)
    requires vals != []
    ensures r in vals
    ensures forall v :: v in vals ==> Count(vals, v) <= Count(vals, r)
    ensures forall v :: v in vals && Count(vals, v) == Count(vals, r) ==> StrLe(r, v)
  {
    ModeAmong(vals, vals)
  }

  /** The two properties of Mode determine it. */
  lemma ModeUnique(vals: seq<string>, m: string)
    requires vals != [] && m in vals
    requires forall v :: v in vals ==> Count(vals, v) <= Count(vals, m)
    requires forall v :: v in vals && Count(vals, v) == Count(vals, m) ==> StrLe(m, v)
    ensures m == Mode(vals)
  {
    var r := Mode(vals);
    StrLeAntisymmetric(m, r);
  }
}

=== FILE: text_processing.dfy ===
/** clean_text: the review-text normaliser (src/utils/text_processing.py). */
module TextProcessing {
  import opened Wrappers
  import opened PyStr

  predicate LetterOrSpace(c: char) { IsLetter(c) || IsSpace(c) }
  predicate NotSpace(c: char) { !IsSpace(c) }

  /** re.sub(r'[^a-zA-Z\s]', '', text): drops every character that is neither
      an ASCII letter nor whitespace, without inserting anything. */
  function KeepLettersAndSpace(s: string): string
  {
    Filter(s, LetterOrSpace)
  }

  /** The text up to the first whitespace character. */
  function TakeWord(t: string): (w: string)
    ensures |w| <= |t| && w == t[..|w|]
    ensures forall k :: 0 <= k < |w| ==> !IsSpace(w[k])
    ensures |w| < |t| ==> IsSpace(t[|w|])
    ensures t != [] && !IsSpace(t[0]) ==> w != []
  {
    if t == [] || IsSpace(t[0]) then [] else [t[0]] + TakeWord(t[1..])
  }

  /** str.split() without arguments: the maximal runs of non-whitespace. */
  function Words(s: string): (ws: seq<string>)
    ensures forall i :: 0 <= i < |ws| ==> ws[i] != []
    ensures forall i :: 0 <= i < |ws| ==> forall k :: 0 <= k < |ws[i]| ==> !IsSpace(ws[i][k])
    decreases |s|
  {
    if s == [] then []
    else if IsSpace(s[0]) then Words(s[1..])
    else
      var w := TakeWord(s);
      [w] + Words(s[|w|..])
  }

  /** Words take their characters from the text. */
  lemma {:induction false} WordsNoUpper(s: string)
    requires forall i :: 0 <= i < |s| ==> !IsUpper(s[i])
    ensures forall i :: 0 <= i < |Words(s)| ==> forall k :: 0 <= k < |Words(s)[i]| ==> !IsUpper(Words(s)[i][k])
    decreases |s|
  {
    if s != [] {
      if IsSpace(s[0]) {
        WordsNoUpper(s[1..]);
      } else {
        var w := TakeWord(s);
        WordsNoUpper(s[|w|..]);
        assert forall k :: 0 <= k < |w| ==> w[k] == s[k];
      }
    }
  }

  /** ' '.join(words) */
  function Join(ws: seq<string>): string
  {
    if ws == [] then "" else if |ws| == 1 then ws[0] else ws[0] + " " + Join(ws[1..])
  }

  /** clean_text(text). None stands for an argument that is not a str. */
  function CleanText(text: Option<string>): string
  {
    match text
    case None => ""
    case Some(t) => Join(Words(KeepLettersAndSpace(Lower(t))))
  }

  // ---------------------------------------------------------------------
  // Shape of the output

  /** Only lower-case ASCII letters and single inner spaces. */
  predicate Normal(s: string)
  {
    && (forall i :: 0 <= i < |s| ==> IsLower(s[i]) || s[i] == ' ')
    && (s != [] ==> s[0] != ' ' && s[|s| - 1] != ' ')
    && (forall i :: 0 <= i < |s| - 1 ==> !DoubleSpaceAt(s, i))
  }

  predicate DoubleSpaceAt(s: string, i: nat)
    requires i + 1 < |s|
  {
    s[i] == ' ' && s[i + 1] == ' '
  }

  lemma {:induction false} JoinNormal(ws: seq<string>)
    requires forall i :: 0 <= i < |ws| ==> ws[i] != []
    requires forall i :: 0 <= i < |ws| ==> forall k :: 0 <= k < |ws[i]| ==> IsLower(ws[i][k])
    ensures Normal(Join(ws))
  {
    if |ws| > 1 {
      JoinNormal(ws[1..]);
      var j := Join(ws[1..]);
      var r := ws[0] + " " + j;
      assert r == Join(ws);
      assert j != [] by {
        assert ws[1..][0] != [];
      }
      assert forall i :: 0 <= i < |r| ==> IsLower(r[i]) || r[i] == ' ' by {
        forall i | 0 <= i < |r| ensures IsLower(r[i]) || r[i] == ' ' {
          if i < |ws[0]| {
            assert r[i] == ws[0][i];
          } else if i > |ws[0]| {
            assert r[i] == j[i - |ws[0]| - 1];
          }
        }
      }
      forall i | 0 <= i < |r| - 1 ensures !DoubleSpaceAt(r, i) {
        if i < |ws[0]| {
          assert r[i] == ws[0][i];
          assert IsLower(ws[0][i]);
        } else if i == |ws[0]| {
          assert r[i + 1] == j[0];
        } else {
          assert r[i] == j[i - |ws[0]| - 1] && r[i + 1] == j[i - |ws[0]|];
          assert !DoubleSpaceAt(j, i - |ws[0]| - 1);
        }
      }
      assert r[0] == ws[0][0] && IsLower(ws[0][0]);
      assert r[|r| - 1] == j[|j| - 1];
    } else if |ws| == 1 {
      assert Join(ws) == ws[0];
      assert IsLower(ws[0][0]) && IsLower(ws[0][|ws[0]| - 1]);
    }
  }

  /** The output holds only lower-case ASCII letters and spaces, has no
      leading or trailing space and never two spaces in a row. */
  lemma CleanTextNormal(text: Option<string>)
    ensures Normal(CleanText(text))
  {
    if text.Some? {
      var s := KeepLettersAndSpace(Lower(text.value));
      KeptAreLowerOrSpace(Lower(text.value));
      WordsNoUpper(s);
      var ws := Words(s);
      forall i, k | 0 <= i < |ws| && 0 <= k < |ws[i]| ensures IsLower(ws[i][k]) {
        WordsKeepCharClass(s, i, k);
      }
      JoinNormal(ws);
    }
  }

  /** After lower-casing and filtering, every character is a lower-case letter
      or whitespace. */
  lemma KeptAreLowerOrSpace(t: string)
    requires forall i :: 0 <= i < |t| ==> !IsUpper(t[i])
    ensures forall i :: 0 <= i < |KeepLettersAndSpace(t)| ==>
      !IsUpper(KeepLettersAndSpace(t)[i]) && LetterOrSpace(KeepLettersAndSpace(t)[i])
  {
    var r := KeepLettersAndSpace(t);
    forall i | 0 <= i < |r| ensures !IsUpper(r[i]) {
      var j :| 0 <= j < |t| && t[j] == r[i];
    }
  }

  lemma {:induction false} WordsKeepCharClass(s: string, i: nat, k: nat)
    requires forall j :: 0 <= j < |s| ==> !IsUpper(s[j]) && LetterOrSpace(s[j])
    requires i < |Words(s)| && k < |Words(s)[i]|
    ensures IsLower(Words(s)[i][k])
    decreases |s|
  {
    if IsSpace(s[0]) {
      WordsKeepCharClass(s[1..], i, k);
    } else {
      var w := TakeWord(s);
      if i == 0 {
        assert Words(s)[0][k] == s[k];
      } else {
        WordsKeepCharClass(s[|w|..], i - 1, k);
      }
    }
  }

  // ---------------------------------------------------------------------
  // Letters survive, in order

  /** The words of s, joined, have exactly the non-space characters of s. */
  lemma {:induction false} WordsKeepNonSpace(s: string)
    ensures Filter(Join(Words(s)), NotSpace) == Filter(s, NotSpace)
    decreases |s|
  {
    if s != [] {
      if IsSpace(s[0]) {
        WordsKeepNonSpace(s[1..]);
        assert Filter(s, NotSpace) == Filter(s[1..], NotSpace);
      } else {
        var w := TakeWord(s);
        var rest := s[|w|..];
        var ws := Words(rest);
        assert Words(s) == [w] + ws;
        WordsKeepNonSpace(rest);
        JoinConsFilter(w, ws);
        AllNonSpaceFilter(w);
        assert s == w + rest;
        FilterAppend(w, rest, NotSpace);
      }
    }
  }

  lemma JoinConsFilter(w: string, ws: seq<string>)
    ensures Filter(Join([w] + ws), NotSpace) == Filter(w, NotSpace) + Filter(Join(ws), NotSpace)
  {
    if ws == [] {
      assert Join([w] + ws) == w;
      assert Filter(Join(ws), NotSpace) == [];
    } else {
      assert ([w] + ws)[1..] == ws;
      assert Join([w] + ws) == w + ([' '] + Join(ws));
      FilterAppend(w, [' '] + Join(ws), NotSpace);
      assert Filter([' '] + Join(ws), NotSpace) == Filter(Join(ws), NotSpace);
    }
  }

  lemma {:induction false} AllNonSpaceFilter(w: string)
    requires forall k :: 0 <= k < |w| ==> !IsSpace(w[k])
    ensures Filter(w, NotSpace) == w
  {
    if w != [] {
      AllNonSpaceFilter(w[1..]);
      assert w == [w[0]] + w[1..];
    }
  }

  lemma {:induction false} FilterLettersOfKept(s: string)
    ensures Filter(KeepLettersAndSpace(s), NotSpace) == Filter(s, IsLetter)
  {
    if s != [] {
      FilterLettersOfKept(s[1..]);
      var k := KeepLettersAndSpace(s[1..]);
      if LetterOrSpace(s[0]) {
        assert KeepLettersAndSpace(s) == [s[0]] + k;
        assert ([s[0]] + k)[0] == s[0] && ([s[0]] + k)[1..] == k;
        if IsLetter(s[0]) {
          LetterNotSpace(s[0]);
        }
        assert NotSpace(s[0]) <==> IsLetter(s[0]);
        assert Filter([s[0]] + k, NotSpace) == (if NotSpace(s[0]) then [s[0]] else []) + Filter(k, NotSpace);
      } else {
        assert KeepLettersAndSpace(s) == k;
      }
    }
  }

  /** The letters of the input survive, lower-cased and in their order; every
      other non-space character is deleted without putting a space in its
      place ("don't" becomes "dont"). */
  lemma CleanTextKeepsLetters(t: string)
    ensures Filter(CleanText(Some(t)), NotSpace) == Filter(Lower(t), IsLetter)
  {
    WordsKeepNonSpace(KeepLettersAndSpace(Lower(t)));
    FilterLettersOfKept(Lower(t));
  }

  lemma LowerDont()
    ensures Lower("Don't") == "don't"
  {
    assert LowerChar('D') == 'd';
  }

  lemma KeepDont()
    ensures KeepLettersAndSpace("don't") == "dont"
  {
    assert KeepLettersAndSpace("t") == "t";
    assert KeepLettersAndSpace("'t") == "t";
    assert KeepLettersAndSpace("n't") == "nt";
    assert KeepLettersAndSpace("on't") == "ont";
  }

  lemma WordsDont()
    ensures Words("dont") == ["dont"]
  {
    assert TakeWord("dont") == "dont";
  }

  /** The apostrophe of a contraction is dropped and the word closes up. */
  lemma CleanTextDont()
    ensures CleanText(Some("Don't")) == "dont"
  {
    LowerDont();
    KeepDont();
    WordsDont();
  }

  // ---------------------------------------------------------------------
  // Idempotence

  lemma {:induction false} JoinWordsOfNormal(s: string)
    requires Normal(s)
    ensures Join(Words(s)) == s
    decreases |s|
  {
    if s != [] {
      var w := TakeWord(s);
      var k := |w|;
      WordsOfWordStart(s);
      if k < |s| {
        var rest := s[k + 1..];
        NormalAfterSpace(s, k);
        WordsAfterSpace(s, k);
        JoinWordsOfNormal(rest);
        JoinCons(w, Words(rest));
        SplitAtSpace(s, k);
      } else {
        assert s[k..] == [];
      }
    }
  }

  /** A text that starts with a letter splits into its first word and the
      words after it. */
  lemma WordsOfWordStart(s: string)
    requires Normal(s) && s != []
    ensures Words(s) == [TakeWord(s)] + Words(s[|TakeWord(s)|..])
    ensures TakeWord(s) == s[..|TakeWord(s)|]
  {
    LowerNotSpace(s[0]);
  }

  lemma SplitAtSpace(s: string, k: nat)
    requires k + 1 < |s| && s[k] == ' '
    ensures s == s[..k] + " " + s[k + 1..]
  {
    assert s == s[..k] + s[k..] && s[k..] == [s[k]] + s[k + 1..];
  }

  /** In a normal text the first word is followed by one space and a normal
      rest that starts with a letter. */
  lemma NormalAfterSpace(s: string, k: nat)
    requires Normal(s) && s != [] && k == |TakeWord(s)| < |s|
    ensures s[k] == ' ' && k + 1 < |s|
    ensures Normal(s[k + 1..]) && s[k + 1] != ' '
  {
    assert IsSpace(s[k]);
    LowerNotSpace(s[k]);
    var rest := s[k + 1..];
    assert !DoubleSpaceAt(s, k);
    forall i | 0 <= i < |rest| - 1 ensures !DoubleSpaceAt(rest, i) {
      assert rest[i] == s[k + 1 + i] && rest[i + 1] == s[k + 2 + i];
      assert !DoubleSpaceAt(s, k + 1 + i);
    }
  }

  lemma WordsAfterSpace(s: string, k: nat)
    requires k + 1 < |s| && IsSpace(s[k]) && s[k + 1] != ' '
    requires IsLower(s[k + 1])
    ensures Words(s[k..]) == Words(s[k + 1..]) && Words(s[k + 1..]) != []
  {
    assert s[k..][1..] == s[k + 1..];
    LowerNotSpace(s[k + 1]);
  }

  lemma JoinCons(w: string, ws: seq<string>)
    requires ws != []
    ensures Join([w] + ws) == w + " " + Join(ws)
  {
    assert ([w] + ws)[1..] == ws;
  }

  lemma LowerNotSpace(c: char)
    requires IsLower(c) || c == ' '
    ensures IsSpace(c) <==> c == ' '
  {
    if IsLower(c) {
      LetterNotSpace(c);
    }
  }

  lemma LowerOfNormal(s: string)
    requires Normal(s)
    ensures Lower(s) == s
  {
  }

  lemma {:induction false} KeepOfNormal(s: string)
    requires forall i :: 0 <= i < |s| ==> IsLower(s[i]) || s[i] == ' '
    ensures KeepLettersAndSpace(s) == s
  {
    if s != [] {
      KeepOfNormal(s[1..]);
      assert LetterOrSpace(s[0]);
      assert s == [s[0]] + s[1..];
    }
  }

  /** clean_text(clean_text(t)) == clean_text(t) */
  lemma CleanTextIdempotent(text: Option<string>)
    ensures CleanText(Some(CleanText(text))) == CleanText(text)
  {
    var c := CleanText(text);
    CleanTextNormal(text);
    LowerOfNormal(c);
    KeepOfNormal(c);
    JoinWordsOfNormal(c);
  }
}

=== FILE: wrappers.dfy ===
/** Failure-carrying wrappers shared by every module of the model. */
module Wrappers {

  datatype Option<+T> = None | Some(value: T)

  /** The Python exceptions the modelled code raises or catches. */
  datatype Exc =
    | ValueError
    | KeyError
    | AttributeError
    | IndexError
    | NetworkError   // requests / HTTP status / JSON decoding failures
    | BrowserError   // any Selenium failure: launch, timeout, missing element
    | IOError        // file-system failures (CSV writing)

  /** The outcome of a Python call: a value, or an exception that propagates. */
  datatype Result<+T> = Ok(value: T) | Raised(exc: Exc)
}
